=== FILE: README.md ===
# ARC marketplace: a Dafny model of its role-based core

ARC is a small marketplace in which organizers post opportunities, an admin
approves or closes them, and players register for and join approved ones. The
backend is an Express/Mongoose service. Its parts are:

- four controllers: opportunities, organizers, players and users;
- one authentication/authorization middleware;
- four routers, each declaring a role list per route.

The browser client is a React application. Its services answer with mock data.
Its admin and organizer pages paginate, filter, export and update lists
optimistically. Its forms validate sign-up and opportunity creation. Its auth
context keeps the session.

This project restates that core as pure Dafny functions over immutable data:

- **The store.** The store (`Domain.Db`) is two sequences of documents in store
  order. A lookup returns the first match. A count is a filter's length. A page
  is `skip (page-1)*limit, take limit`.
- **Handlers.** Every handler maps a store and its inputs to an answer.
  Handlers that write also return the new store.
- **Requests.** `Requests.Serve` takes one whole request through the stack:
  1. first-match routing over the declared route table;
  2. `authorize` (401 before 403);
  3. the handler.
- **Client.** The client pages are functions over the records the browser holds.
  The mock services are functions of their arguments and of the clock value.

Modules:

- `Wrappers`, `Seqs`, `Text`: `Option`/`Result`, filtering/counting/sorting on
  sequences, and the JavaScript string operations used (`join`/`split`, `trim`,
  `replace`, `includes`, `toLowerCase`, number rendering);
- `Pagination`: the paging rule shared by the controllers, the mock services
  and the admin pages;
- `Domain`, `Views`: the stored records, the store lookups and the organizer
  snapshot embedded in every opportunity reply;
- `OpportunityController`, `PlayerController`, `OrganizerController`,
  `UserController`: the four controllers;
- `AuthGuard`, `Routes`, `Requests`: the middleware, the route table with its
  permissions, and the composition of the two with the handlers;
- `ClientTypes`, `MockServices`, `AdminPages`, `ClientForms`, `ClientViews`,
  `AuthContext`: the browser side.

## Model

| member | source | states |
|---|---|---|
| Domain.ParseStatus | backend/controllers/opportunity.controller.js:169-171 | a status value is accepted exactly when it is one of pending, approved, closed, and is read as the status of that name |
| Domain.ParseStatusName | backend/models/opportunity.model.js:31-35 | every member of the status enumeration is accepted and reads back as itself |
| Domain.UserById | backend/controllers/user.controller.js:79 | `findById` finds a user with that id, deleted or not, and finds none only when no user has it |
| Domain.UserWithRole | backend/controllers/player.controller.js:134 | `findOne({_id, role})` finds a user with both the id and the role, deleted or not, and none only when no user has both |
| Domain.LiveUserById | backend/controllers/user.controller.js:54 | `findOne({_id, isDeleted: false})` finds a live user with the id, and none only when every user with it is deleted |
| Domain.OpportunityIndex | backend/controllers/player.controller.js:140 | `findById` on opportunities gives the position of the first document with the id, or none when no document has it |
| Domain.UserIndex | backend/controllers/user.controller.js:79-83 | the position of the first user with the id, or none when no user has it |
| Pagination.PageNumber | backend/controllers/opportunity.controller.js:8 | an absent page defaults to 1 |
| Pagination.PageLimit | backend/controllers/opportunity.controller.js:8 | an absent limit defaults to 10 |
| Pagination.CeilDiv | backend/controllers/opportunity.controller.js:54 | `Math.ceil(total/limit)`: the least number of pages of `limit` items that hold `total` items |
| Pagination.PageOf | backend/controllers/opportunity.controller.js:23-25 | the page has at most `limit` items, exactly as many as remain after skipping `(page-1)*limit`, and item k is item `(page-1)*limit + k` of the selection |
| Pagination.Meta | backend/controllers/opportunity.controller.js:50-55 | meta echoes total, page and limit, and totalPages is the least page count covering the total |
| Pagination.Paginate | src/services/opportunityService.ts:44-55 | the page-plus-meta reply: the data is exactly the requested page of the selection, and total is the whole selection's length, independent of the page |
| Pagination.SkipNext | backend/controllers/opportunity.controller.js:24 | the next page starts exactly `limit` items later |
| Pagination.PageSizes | src/services/opportunityService.ts:44-46 | a page before the last is full; past the last page the page is empty |
| Pagination.PagesCoverAll | backend/controllers/opportunity.controller.js:23-25 | pages 1 to totalPages, laid end to end, are the whole selection, each item once and in order |
| Pagination.TwentyFiveItemsExample | backend/controllers/opportunity.controller.js:54 | 25 items at 10 per page make 3 pages, the last holding 5 |
| Text.TrimPiece | backend/models/opportunity.model.js:8 | the stored title is the piece of the input between its leading and trailing runs of white space |
| Text.TrimEmpty | backend/models/opportunity.model.js:7-8 | a title trims to the empty string, and so fails `required`, exactly when it is all white space |
| Text.Trim | backend/models/opportunity.model.js:8 | the stored title is no longer than the input and neither begins nor ends with white space |
| Text.TrimIdempotent | backend/models/opportunity.model.js:8 | trimming an already trimmed title changes nothing |
| Text.SplitJoin | src/pages/admin/OpportunitiesPage.tsx:79 | splitting a join at its separator recovers the parts when no part holds the separator |
| Text.ReplaceFirst | backend/middleware/auth.middleware.js:7 | `replace` with a string pattern changes nothing when the pattern does not occur; otherwise it cuts out the first occurrence only, puts the replacement in its place and keeps everything before and after |
| Text.NatToStringValue | src/services/opportunityService.ts:27 | a number rendered in decimal reads back as the same number |
| Views.Snapshot | backend/controllers/opportunity.controller.js:37-45 | the embedded organizer copies id, name, email and role from the user, always reports 'active' and not deleted, and takes createdAt from the opportunity |
| Views.Project | backend/controllers/opportunity.controller.js:26-49 | an opportunity can be shown exactly when its organizer id names a stored user; the reply copies the stored fields, and its organizer is that user's snapshot: the user's id, name, email and role, reported active and not deleted, with the opportunity's createdAt |
| Views.ProjectAll | backend/controllers/opportunity.controller.js:29-59 | a page projects item by item, and one missing organizer turns the whole reply into a 500 |
| Views.ProjectAllPage | backend/controllers/opportunity.controller.js:23-59 | when a whole selection projects, projecting one of its pages gives that page of the projected selection |
| OpportunityController.Selected | backend/controllers/opportunity.controller.js:9-14 | without a status filter, or with an empty one, every opportunity is selected; with one, exactly those of that status, as an in-order subsequence of the store, and as many as the filter counts |
| OpportunityController.GetOpportunities | backend/controllers/opportunity.controller.js:6-61 | the reply is 200 exactly when every opportunity on the requested page has its organizer, else 500; total counts the whole selection, meta echoes page and limit, and entry k is the projection of item k of the requested page |
| OpportunityController.ListPage | backend/controllers/opportunity.controller.js:23-49 | when every selected opportunity has its organizer, each page of the list is 200 and holds that page of the projected selection |
| OpportunityController.ListPagesCoverSelection | backend/controllers/opportunity.controller.js:23-55 | every page succeeds, and pages 1 to totalPages laid end to end are the whole projected selection, in store order |
| OpportunityController.GetOpportunityCount | backend/controllers/opportunity.controller.js:63-73 | the count is the number of opportunities the list's filter selects; it never exceeds the collection and is all of it without a filter |
| OpportunityController.CountMatchesListTotal | backend/controllers/opportunity.controller.js:65-73 | the count uses the list's filter: it equals the list's total, for every page |
| OpportunityController.GetOpportunityById | backend/controllers/opportunity.controller.js:81-115 | 404 exactly when no opportunity has the id; 200 exactly when the record is found and its organizer exists, and then the reply is that record's projection; 500 otherwise |
| OpportunityController.CreateOpportunity | backend/controllers/opportunity.controller.js:118-162 | creation succeeds exactly when the schema's required fields are present; the new record is pending, with the body's organizer or else the caller, the title trimmed, and empty membership arrays; a schema failure is a 500 and leaves the store alone; the reply's organizer is present exactly when the owner exists, copying id, name, email and role, reporting active and not deleted, and, unlike the list and lookup replies, carrying the organizer's own createdAt |
| OpportunityController.CreateThenGet | backend/controllers/opportunity.controller.js:118-162 | an opportunity created under a fresh id with an existing owner is found by that id straight away, as the projection of the created record |
| OpportunityController.CreatePreservesUniqueIds | backend/controllers/opportunity.controller.js:122-132 | creating under an id no stored opportunity has keeps every opportunity id unique |
| OpportunityController.UpdateOpportunityStatus | backend/controllers/opportunity.controller.js:165-187 | an invalid status gives 400 before any lookup; a missing id gives 404; both leave the store unchanged; otherwise only that record's status changes, and its updatedAt moves to now exactly when the status value differs |
| OpportunityController.UpdateStatusPreservesUniqueIds | backend/controllers/opportunity.controller.js:173-180 | a status update changes no id, so unique ids stay unique |
| OpportunityController.AnyTransitionAllowed | backend/controllers/opportunity.controller.js:173-180 | the admin may move an opportunity from any status to any status |
| PlayerController.WithMembers | backend/models/opportunity.model.js:36-43 | replacing one membership array sets exactly that array |
| PlayerController.Enroll | backend/controllers/player.controller.js:128-201 | register/join succeed exactly when the player exists with role player, the opportunity exists, it is approved and the player is not yet in the targeted array; failures come in that order with their 404/400 messages and change nothing; success appends the player id once to that one array |
| PlayerController.EnrollTwice | backend/controllers/player.controller.js:150-156 | a second identical call is refused as already a member, and the array has grown by exactly one |
| PlayerController.EnrollIgnoresOtherSet | backend/controllers/player.controller.js:155-193 | register never consults or changes joinedPlayers, and join never consults or changes registeredPlayers |
| PlayerController.EnrollPreservesNoDuplicates | backend/models/opportunity.model.js:36-43 | the schema does not deduplicate, but the controller guard keeps every membership array free of repeats |
| PlayerController.RegisterForOpportunity | backend/controllers/player.controller.js:128-163 | registering succeeds exactly when the precondition chain holds; a failure changes nothing, and one on an existing player and opportunity is the approval or duplicate refusal; success appends the player to registeredPlayers only, with the success message |
| PlayerController.JoinOpportunity | backend/controllers/player.controller.js:166-201 | joining succeeds exactly when the precondition chain holds; a failure changes nothing, and one on an existing player and opportunity is the approval or duplicate refusal; success appends the player to joinedPlayers only, with the success message |
| PlayerController.ListedFor | backend/controllers/player.controller.js:23-26 | the selection has the approved opportunities holding the player in the targeted array, all of them, and as many as the count |
| PlayerController.GetPlayerList | backend/controllers/player.controller.js:6-125 | 404 unless the player exists; 200 exactly when the player exists and every opportunity on the requested page has its organizer; the page is the standard slice of the approved opportunities whose targeted array has the player, entry k being the projection of item k, with the total over the whole selection |
| PlayerController.ListedPageEntries | backend/controllers/player.controller.js:26-29 | entry k of a page is the selected opportunity at offset (page-1)*limit + k, approved and holding the player |
| PlayerController.PlayerListPage | backend/controllers/player.controller.js:26-29 | for an existing player whose selection all projects, each page is 200 and holds that page of the projected selection |
| PlayerController.PlayerListPagesCover | backend/controllers/player.controller.js:23-29 | every page succeeds, and pages 1 to totalPages laid end to end are the player's whole projected selection, in store order |
| PlayerController.RecentlyRegistered | backend/controllers/player.controller.js:232-246 | min(3, registrations) entries, highest id first, entry a being the projection to id, title, eventDate and location of the a-th of the player's registrations by descending id |
| PlayerController.RecentRegistrationsFacts | backend/controllers/player.controller.js:232-234 | the recent list has min(3, registrations) entries, all registrations of the player, in descending id order |
| PlayerController.RecentAreHighestIds | backend/controllers/player.controller.js:233-234 | no registration left out of the recent list has a higher id than one in it |
| PlayerController.GetPlayerDashboardStats | backend/controllers/player.controller.js:204-252 | 404 unless the player exists; registered counts registrations of every status, upcoming those dated after now, past those dated before now |
| PlayerController.UpcomingPastBound | backend/controllers/player.controller.js:215-229 | upcoming plus past never exceeds registered |
| OrganizerController.OwnedList | backend/controllers/organizer.controller.js:23-25 | the organizer's opportunities of any status, all of them, and as many as the count |
| OrganizerController.OrganizerIsUser | backend/controllers/organizer.controller.js:12-13 | a user found with role organizer is found by id as well, so populating its opportunities cannot fail |
| OrganizerController.GetOrganizerOpportunities | backend/controllers/organizer.controller.js:6-63 | 404 exactly when the id names no user with role organizer; otherwise the page is the standard slice of that organizer's opportunities of any status, entry k being the projection of item k, with the total over all of them |
| OrganizerController.OwnedListProjects | backend/controllers/organizer.controller.js:25-28 | every opportunity of an existing organizer projects |
| OrganizerController.OrganizerListPage | backend/controllers/organizer.controller.js:25-28 | for an existing organizer each page is 200 and holds that page of the projected list |
| OrganizerController.OrganizerListPagesCover | backend/controllers/organizer.controller.js:23-28 | every page succeeds, and pages 1 to totalPages laid end to end are all the organizer's projected opportunities, in store order |
| OrganizerController.RecentOwnedFacts | backend/controllers/organizer.controller.js:83-86 | the recent list holds the organizer's opportunities, newest first, at most five |
| OrganizerController.RecentAreNewest | backend/controllers/organizer.controller.js:84-85 | no opportunity left out of the recent list was created later than one in it |
| OrganizerController.RecentOpportunities | backend/controllers/organizer.controller.js:83-98 | min(5, owned) entries, newest first, entry a being the projection to id, title, status and createdAt of the a-th newest of the organizer's opportunities |
| OrganizerController.GetOrganizerDashboardStats | backend/controllers/organizer.controller.js:66-104 | 404 unless the organizer exists; the total and per-status counts over that organizer's opportunities |
| OrganizerController.StatusCountsAddUp | backend/controllers/organizer.controller.js:77-80 | pending plus approved plus closed equals the total |
| UserController.GetUsers | backend/controllers/user.controller.js:5-49 | no soft-deleted user is listed and the role filter narrows further; the data has as many entries as the requested page of the selection, entry k being its item k without the password; total counts the selection |
| UserController.GetUserById | backend/controllers/user.controller.js:52-74 | 404 exactly when no live user has the id; otherwise the reply is that user's detail: id, name, email, role, status, isDeleted and createdAt, without the password or deletedAt |
| UserController.DeleteUser | backend/controllers/user.controller.js:77-94 | 404 exactly when no user has the id; otherwise that user is marked deleted at now and nothing else changes |
| UserController.CountByRole | backend/controllers/user.controller.js:96-107 | a role has a group exactly when some user, deleted or not, has it, and the group's count is the number of such users |
| UserController.Groups | backend/controllers/user.controller.js:98-105 | `$group` emits a group only for a non-empty tally |
| UserController.CountByRoleCoversAll | backend/controllers/user.controller.js:98-105 | the group counts add up to the number of users |
| UserController.DeleteHidesFromLookup | backend/controllers/user.controller.js:54-85 | after a delete the user is no longer found by id |
| UserController.DeleteHidesFromList | backend/controllers/user.controller.js:7-94 | after a delete the user is on no page of the list |
| UserController.DeleteKeepsRoleCounts | backend/controllers/user.controller.js:85-105 | a delete leaves the role counts unchanged, so the deleted user is still counted |
| UserController.DeleteTwice | backend/controllers/user.controller.js:79-86 | deleting an already deleted user succeeds again and moves deletedAt to the new time |
| UserController.DeletePreservesConsistency | backend/controllers/user.controller.js:85-86 | every user stays deleted exactly when it carries a deletion time |
| AuthGuard.Authenticate | backend/middleware/auth.middleware.js:5-21 | 401 "Please authenticate." exactly when the header is missing, the token is unknown to the verifier, or no live user has the token's id; otherwise that user |
| AuthGuard.Normalize | backend/middleware/auth.middleware.js:23-26 | a single role becomes the one-element list; a list is kept |
| AuthGuard.ExtractToken | backend/middleware/auth.middleware.js:7 | the token is the header with its first "Bearer " cut out, wherever it stands; a header without it is the token as it is |
| AuthGuard.Authorize | backend/middleware/auth.middleware.js:23-37 | a failed authentication gives 401; an authenticated user whose role the non-empty list lacks gives 403; otherwise the user passes |
| AuthGuard.UnauthenticatedBeforeForbidden | backend/middleware/auth.middleware.js:28-30 | a request refused by authentication is never answered 403 |
| AuthGuard.EmptyListAdmitsAll | backend/middleware/auth.middleware.js:23-31 | an empty role list admits every authenticated user |
| AuthGuard.ForbiddenIffRoleMissing | backend/middleware/auth.middleware.js:31-35 | with a non-empty list, an authenticated user gets 403 exactly when the role is not listed |
| AuthGuard.OneRoleIsSingleton | backend/middleware/auth.middleware.js:24-26 | a role given alone behaves as the one-element list |
| AuthGuard.BearerHeader | backend/middleware/auth.middleware.js:7 | a `Bearer <token>` header yields the bare token |
| AuthGuard.DeletedUserRejected | backend/middleware/auth.middleware.js:9-12 | a deleted user's token gets 401 |
| Routes.Permission | backend/routes/opportunity.routes.js:8-19 | every route names at least one role; admin is on every route except creation, register and join; organizer only on the opportunity list, lookup and creation and the two organizer routes; player only on the opportunity list and lookup and the five player routes |
| Routes.PatternMatches | backend/routes/player.routes.js:14 | a pattern matches only a path of its own length |
| Routes.Captures | backend/routes/player.routes.js:14 | one captured value per `:param` of the pattern |
| Routes.UserRoutesArity | backend/routes/user.routes.js:8-16 | each user route declares as many parameters as its handler reads |
| Routes.OpportunityRoutesArity | backend/routes/opportunity.routes.js:8-19 | each opportunity route declares as many parameters as its handler reads |
| Routes.OrganizerRoutesArity | backend/routes/organizer.routes.js:8-11 | each organizer route declares as many parameters as its handler reads |
| Routes.PlayerRoutesArity | backend/routes/player.routes.js:8-20 | each player route declares as many parameters as its handler reads |
| Routes.TableArity | backend/server.js:26-29 | the whole route table agrees with the handlers' parameters |
| Routes.DispatchIndex | backend/server.js:26-29 | the first route, in declaration order, whose method, mount and pattern match |
| Routes.Dispatch | backend/routes/opportunity.routes.js:8-19 | a request reaches the handler of the first matching route, with one value per parameter, and reaches none when no route matches |
| Routes.DispatchTo | backend/routes/user.routes.js:8-16 | a route that matches with no earlier route matching is the one dispatched |
| Routes.CountsNotCapturedAsId | backend/routes/opportunity.routes.js:10-13 | `GET /counts` reaches the count handler because it is declared before `/:id` |
| Routes.OpportunityIdRoute | backend/routes/opportunity.routes.js:13 | any other single segment is taken as an opportunity id |
| Routes.CountByRoleNotCapturedAsId | backend/routes/user.routes.js:10-13 | `GET /count-by-role` reaches the histogram because it is declared before `/:id` |
| Routes.UserIdRoute | backend/routes/user.routes.js:13-16 | any other single segment is taken as a user id, for GET and for DELETE |
| Routes.StatusRoute | backend/routes/opportunity.routes.js:19 | `PATCH /:id/status` reaches the status handler with the id |
| Routes.Guard | backend/routes/opportunity.routes.js:8-19 | the role list guarding a request is the one declared with the route it dispatches to |
| Routes.DispatchMount | backend/server.js:26-29 | a request reaches only a handler of the router mounted at its path prefix |
| Routes.OrganizerRefusedOnPlayerRoutes | backend/routes/player.routes.js:8-20 | no player route lists the organizer role |
| Routes.PlayerRefusedOnOrganizerRoutes | backend/routes/organizer.routes.js:8-11 | no organizer route lists the player role |
| Routes.UserRoutesAdminOnly | backend/routes/user.routes.js:8-16 | every user route, delete included, lists the admin role alone |
| Routes.NoRouteIsUnguarded | backend/routes/opportunity.routes.js:8-19 | no route passes an empty list, so none is open to every role by default |
| Requests.ParseId | backend/controllers/opportunity.controller.js:83 | a path id is read as a store id exactly when it is a non-empty string of decimal digits |
| Requests.ParseIdRoundTrip | backend/controllers/opportunity.controller.js:83 | a store id written in decimal reads back as itself |
| Requests.PageReply | backend/controllers/opportunity.controller.js:38-60 | a page is sent with 200, a handler error with its own code and message |
| Requests.OpportunityReads | backend/controllers/opportunity.controller.js:6-115 | the list is 200 exactly when the handler succeeds and then carries its page; the count is always 200 with the filter count; a malformed id is a 500, an unknown one a 404, and 200 exactly when the lookup succeeds; any other reply is an error message |
| Requests.OrganizerReads | backend/controllers/organizer.controller.js:6-104 | a malformed id is a 500; a read id gets 200 exactly when it names an organizer, 404 otherwise; a successful list carries the handler's page |
| Requests.PlayerReads | backend/controllers/player.controller.js:6-252 | a malformed id is a 500 and an unknown player a 404; the stats are 200 exactly for a player; the two lists send the handler's reply for their own membership array |
| Requests.UserReads | backend/controllers/user.controller.js:5-107 | the list and the role histogram are always 200 with the handler's result; a malformed id is a 500; a read id gets 200 exactly when a live user has it, else 404 |
| Requests.EnrollRequest | backend/controllers/player.controller.js:128-156 | a malformed player id is a 500 and an unknown player a 404 whatever the opportunity id; then a malformed opportunity id is a 500; with both ids read, the reply and the store are the handler's; every non-200 reply leaves the store unchanged |
| Requests.Writes | backend/controllers/opportunity.controller.js:118-187 | of the writing handlers only delete touches the users; a create answers with the handler's store and 201 with the new record, or the handler's error; a status update with a malformed id is 400 for a bad status, checked first, and 500 otherwise; with a valid id, and for register, join and delete, the answer and store are the handler's own |
| Requests.Handle | backend/server.js:26-29 | each dispatched operation gets its own controller's answer, a write through `Writes` and a read with the store unchanged; only delete touches the users |
| Requests.Serve | backend/middleware/auth.middleware.js:23-37 | an unrouted request gets 404; an unauthenticated one 401; an unpermitted one 403; none of these changes the store, and only a writing handler ever does; a request the guard admits reaches the dispatched route's handler with the authenticated user and the captured parameters |
| Requests.WritesNeedPermission | backend/routes/opportunity.routes.js:16-19 | the store changes only when an authenticated caller whose role the route lists calls a writing route |
| Requests.OnlyAdminsDeleteUsers | backend/routes/user.routes.js:16 | the users change only through `DELETE /users/:id` by an admin |
| Requests.StatusChangeAdminOnly | backend/routes/opportunity.routes.js:19 | an organizer or player changing a status gets 403 and the record is unchanged |
| Requests.OrganizerForbiddenOnPlayerRoutes | backend/routes/player.routes.js:8-20 | an organizer gets 403 on every player route, and nothing changes |
| Requests.PlayerForbiddenOnOrganizerRoutes | backend/routes/organizer.routes.js:8-11 | a player gets 403 on both organizer routes |
| Requests.NonAdminForbiddenOnUserRoutes | backend/routes/user.routes.js:8-16 | organizers and players get 403 on every user route |
| Requests.HandlersIgnoreCaller | backend/controllers/player.controller.js:130-169 | apart from creation, a handler's answer does not depend on who calls: path ids are never compared with the caller |
| Requests.SameAnswerForAnyAdmittedCaller | backend/routes/organizer.routes.js:8-11 | two admitted requests differing only in the caller get the same answer, except for creation |
| MockServices.StatusCycle | src/services/opportunityService.ts:22-23 | the mock status is pending, approved or closed as the index is 0, 1 or 2 modulo 3 |
| MockServices.MockOpportunities | src/services/opportunityService.ts:21-36 | forty generated opportunities, item i being the i-th generated one |
| MockServices.MockGetOpportunities | src/services/opportunityService.ts:5-57 | the data is exactly the requested page of the status-filtered list, total is its length, meta echoes page and limit, and with a filter every item has that status |
| MockServices.MockStatusCounts | src/services/opportunityService.ts:21-23 | the forty split 14 pending, 13 approved, 13 closed |
| MockServices.MockStatusFilter | src/services/opportunityService.ts:39-41 | the status filter keeps the items of that status in order, and the total is that status's count |
| MockServices.MockPagesPastTheEnd | src/services/opportunityService.ts:44-55 | past the last page the data is empty while the total is still 40 |
| MockServices.OrText | src/services/opportunityService.ts:76-79 | `value \|\| fallback` on text: missing or empty gives the fallback |
| MockServices.OrNumber | src/services/opportunityService.ts:80 | `value \|\| fallback` on a number: missing or zero gives the fallback |
| MockServices.MockCreateOpportunity | src/services/opportunityService.ts:64-99 | the created record is always pending; falsy fields take the defaults '', '', '', now, 10 and organizer '2' |
| MockServices.MockCreateDefaults | src/services/opportunityService.ts:76-91 | an empty draft gets every default |
| MockServices.RoleCycle | src/services/userService.ts:15 | the mock role is admin, organizer or player as the index is 0, 1 or 2 modulo 3 |
| MockServices.MockUsers | src/services/userService.ts:11-20 | fifty generated users, user i deleted exactly when i is a multiple of 10 |
| MockServices.MockGetUsers | src/services/userService.ts:5-41 | the data is exactly the requested page of the role-filtered list, total is its length, and deleted users are kept |
| MockServices.MockUsersConsistent | src/services/userService.ts:17-18 | each mock user is deleted exactly when it carries a deletion date |
| MockServices.MockRoleCounts | src/services/userService.ts:15 | the fifty split 17 admins, 17 organizers, 16 players |
| MockServices.MockAdminFilterKeepsDeleted | src/services/userService.ts:23-25 | filtering by admin keeps the deleted mock admins, unlike the backend list |
| MockServices.MockJoined | src/services/playerService.ts:16-33 | five joined opportunities, all approved |
| MockServices.MockGetJoined | src/services/playerService.ts:9-49 | the data is exactly the requested page of the five joined opportunities, all approved; total is 5 whatever the page and totalPages is ceil(5/limit) |
| AdminPages.Range | src/pages/admin/OpportunitiesPage.tsx:291-292 | the run of consecutive page numbers from a to b-1 |
| AdminPages.PageButtonsShape | src/pages/admin/OpportunitiesPage.tsx:288-298 | at most min(5, totalPages) buttons; all pages when at most five; otherwise max(1, page-2) up to four more, cut at the last page; every button within 1..totalPages; the current page always shown |
| AdminPages.NoBackFillExample | src/pages/admin/UsersPage.tsx:283-286 | on page 10 of 10 only 8, 9 and 10 are offered: the window is not back-filled |
| AdminPages.ShowingRangeFacts | src/pages/admin/OpportunitiesPage.tsx:277 | the "Showing X to Y of Z" figures have X at most Y at most Z, and on a page with items they count exactly that page's items; past the last page the formula would read Z to Z, a label the page never shows |
| AdminPages.RangeLabelShownIff | src/pages/admin/OpportunitiesPage.tsx:195-277 | the label sits in the non-empty branch of the table, so it is shown exactly on pages 1 to totalPages and never past the last page or for an empty selection |
| AdminPages.SteppingStaysInRange | src/pages/admin/UsersPage.tsx:273-304 | an enabled Previous leads to a page of at least 1 and an enabled Next to one of at most totalPages |
| AdminPages.HandleFilterChange | src/pages/admin/OpportunitiesPage.tsx:91-100 | 'all' removes the filter parameter, any other value sets it, the page is reset to 1, and other parameters are kept |
| AdminPages.HandleStatusChange | src/pages/admin/OpportunitiesPage.tsx:91-100 | choosing 'all' removes `status`, any other value sets it, the page goes back to 1, and the other parameters are kept |
| AdminPages.HandleRoleChange | src/pages/admin/UsersPage.tsx:73-82 | choosing 'all' removes `role`, any other value sets it, the page goes back to 1, and the other parameters are kept |
| AdminPages.FilterThenAll | src/pages/admin/UsersPage.tsx:73-82 | choosing a role and then 'all' leaves the same query as choosing 'all' at once |
| AdminPages.HandlePageChange | src/pages/admin/OpportunitiesPage.tsx:102-106 | the page parameter becomes the decimal text of the new page, which reads back as that page; other parameters are kept |
| AdminPages.EnabledItemChangesStatus | src/pages/admin/OpportunitiesPage.tsx:247-263 | the menu item for the current status is disabled, so an enabled item always changes the status |
| AdminPages.UpdateStatusLocally | src/pages/admin/OpportunitiesPage.tsx:113-117 | the optimistic update gives the new status to entries with the id and leaves every other entry unchanged |
| AdminPages.UpdateStatusLocallyIdempotent | src/pages/admin/OpportunitiesPage.tsx:113-117 | applying the same optimistic update twice changes nothing more |
| AdminPages.MarkDeletedLocally | src/pages/admin/UsersPage.tsx:95-99 | the optimistic delete marks entries with the id deleted with the given time and leaves every other entry unchanged |
| AdminPages.DeleteDisablesButton | src/pages/admin/UsersPage.tsx:232 | after the optimistic delete a user's trash button is disabled exactly when it is that user or was already disabled |
| AdminPages.CsvRow | src/pages/admin/OpportunitiesPage.tsx:69-75 | each row has as many cells as the header |
| AdminPages.CsvLines | src/pages/admin/OpportunitiesPage.tsx:79 | one header line plus one line per opportunity |
| AdminPages.CsvContent | src/pages/admin/OpportunitiesPage.tsx:77-79 | the export begins with the CSV data-URI prefix |
| AdminPages.CsvReadsBack | src/pages/admin/OpportunitiesPage.tsx:67-79 | when no cell holds a comma or line break, reading the export back gives the header and every row in input order |
| AdminPages.CommaInTitleAddsCell | src/pages/admin/OpportunitiesPage.tsx:71-79 | cells are not quoted: a comma in a title makes that row read back with six cells |
| ClientForms.SubmitRegister | src/pages/RegisterPage.tsx:23-52 | the form is sent exactly when every required field is filled, the passwords match and the password has at least 6 characters; a mismatch is reported before a short password; the payload is exactly name, email, password and role |
| ClientForms.MismatchReportedFirst | src/pages/RegisterPage.tsx:27-36 | a mismatched short password is reported as a mismatch |
| ClientForms.SubmittedPayloadAcceptable | src/pages/RegisterPage.tsx:27-52 | a sent payload has a confirmed password of at least 6 characters and a role the radio group offers, never admin |
| ClientForms.InitialFormRefused | src/pages/RegisterPage.tsx:14-18 | the untouched form is refused, and its role is player |
| ClientForms.RegisterFailureText | src/pages/RegisterPage.tsx:65 | the failure toast shows the error message, or a fixed text when there is none |
| ClientForms.OpportunityFormErrors | src/pages/organizer/CreateOpportunity.tsx:18-21 | no error exactly when the title has 5 to 100 characters and the description 20 to 1000, both inclusive; each bound violated yields its message |
| ClientForms.OpportunityFormBounds | src/pages/organizer/CreateOpportunity.tsx:19-35 | the empty defaults fail both checks, and the bounds themselves pass despite the "less than 100" message |
| ClientForms.CreatePayload | src/pages/organizer/CreateOpportunity.tsx:39-42 | the payload is the two fields plus the signed-in user's id, and nothing else |
| ClientForms.SubmitOpportunity | src/pages/organizer/CreateOpportunity.tsx:60-62 | a valid form sends the payload; an invalid one sends nothing and shows its errors |
| ClientForms.CreatedOpportunityPending | src/pages/organizer/CreateOpportunity.tsx:38-46 | a sent form yields a pending opportunity with the typed title and description, owned by the signed-in organizer |
| ClientViews.BrowseFetch | src/pages/player/BrowseOpportunities.tsx:16-21 | the browse page asks for approved opportunities, ten per page |
| ClientViews.SearchResults | src/pages/player/BrowseOpportunities.tsx:24-27 | an item is kept exactly when its lowercased title or description contains the lowercased term |
| ClientViews.EmptySearchKeepsAll | src/pages/player/BrowseOpportunities.tsx:24-27 | an empty term keeps the whole page, in order |
| ClientViews.SearchWithinPage | src/pages/player/BrowseOpportunities.tsx:18-27 | search keeps the page's order and never reaches beyond the fetched page, so every result is approved |
| ClientViews.SearchIgnoresCase | src/pages/player/BrowseOpportunities.tsx:25-26 | a lowercased term finds the same opportunities as the term |
| ClientViews.EmptyListText | src/pages/player/BrowseOpportunities.tsx:125 | the empty-list text mentions the search only when a term is entered |
| ClientViews.Excerpt | src/pages/player/BrowseOpportunities.tsx:81-82 | descriptions up to 200 characters are shown whole; longer ones are cut to 200 with '...' appended |
| ClientViews.PreviousPage | src/pages/player/BrowseOpportunities.tsx:33-37 | Previous steps back only from a page above 1 |
| ClientViews.NextPage | src/pages/player/BrowseOpportunities.tsx:39-43 | Next steps forward only after a response and only below its last page |
| ClientViews.PagingStaysInRange | src/pages/player/BrowseOpportunities.tsx:33-43 | Previous never goes below 1 and Next never beyond the last page |
| ClientViews.PagingShownIff | src/pages/player/BrowseOpportunities.tsx:70-101 | the paging controls show exactly when there are several pages and some entry of the fetched page matches the search, so a term matching nothing hides them |
| ClientViews.BrowseHasTwoPages | src/pages/player/BrowseOpportunities.tsx:101 | thirteen approved mock opportunities make two pages, so with an empty search the controls show, and the second page holds three |
| ClientViews.OrganizerFigures | src/pages/organizer/OrganizerDashboard.tsx:23-26 | the status counts are over the fetched items, the total is the server's total, and without a response all are 0 |
| ClientViews.StatusCardsCoverPage | src/pages/organizer/OrganizerDashboard.tsx:23-25 | the three status counts add up to the number of fetched items |
| ClientViews.StatusCardsUndercount | src/pages/organizer/OrganizerDashboard.tsx:18-26 | with more than ten opportunities the status cards add up to ten while the total card shows them all |
| ClientViews.Recent | src/pages/organizer/OrganizerDashboard.tsx:117 | the recent list is the first five fetched items, or fewer, in the order received |
| ClientViews.ManageVisible | src/pages/organizer/ManageOpportunities.tsx:24-26 | the view holds exactly the fetched items the filter keeps |
| ClientViews.ManageFilterFacts | src/pages/organizer/ManageOpportunities.tsx:16-26 | the initial 'all' shows the page unchanged; a status shows an in-order subsequence; the three statuses between them show every item once |
| AuthContext.Mount | src/contexts/AuthContext.tsx:22-37 | a non-empty stored token restores the fixed admin user carrying that token; no token restores nobody; loading ends either way |
| AuthContext.Reload | src/contexts/AuthContext.tsx:22-37 | a page load keeps only the stored token and mounts from it |
| AuthContext.Login | src/contexts/AuthContext.tsx:39-58 | success stores the token and sets the returned user; failure leaves user and token unchanged and rethrows; loading is off after both |
| AuthContext.Logout | src/contexts/AuthContext.tsx:60-67 | the user is cleared and the stored token removed |
| AuthContext.AuthenticatedMeansAdmin | src/contexts/AuthContext.tsx:76 | after a login the session counts as authenticated exactly when the user is an admin |
| AuthContext.ReloadRestoresAdmin | src/contexts/AuthContext.tsx:25-34 | after any login a reload restores the admin user with id '1', so a player or organizer comes back as an authenticated admin |
| AuthContext.LogoutSurvivesReload | src/contexts/AuthContext.tsx:60-62 | after a logout a reload restores nobody |
| AuthContext.FailedLoginKeepsSession | src/contexts/AuthContext.tsx:48-54 | a failed login changes neither the user nor the stored token, and rethrows |

## Definitions

The table above lists the members that carry contracts. The plain
definitions below have none of their own; each is described by the lemma or
function named beside it, whose row is above.

| definition | source | described by |
|---|---|---|
| AdminPages.PageButtons | src/pages/admin/OpportunitiesPage.tsx:288-298 | AdminPages.PageButtonsShape, AdminPages.NoBackFillExample |
| AdminPages.ShowingRange | src/pages/admin/OpportunitiesPage.tsx:277 | AdminPages.ShowingRangeFacts, AdminPages.RangeLabelShownIff |
| AuthContext.IsAuthenticated | src/contexts/AuthContext.tsx:76 | AuthContext.AuthenticatedMeansAdmin |
| AuthGuard.Permits | backend/middleware/auth.middleware.js:31 | AuthGuard.Authorize, AuthGuard.EmptyListAdmitsAll, AuthGuard.ForbiddenIffRoleMissing |
| PlayerController.IsPlayer | backend/controllers/player.controller.js:134 | PlayerController.Enroll, PlayerController.GetPlayerList, PlayerController.GetPlayerDashboardStats |
| PlayerController.CanEnroll | backend/controllers/player.controller.js:134-152 | PlayerController.Enroll, PlayerController.RegisterForOpportunity, PlayerController.JoinOpportunity |
| PlayerController.RecentRegistrations | backend/controllers/player.controller.js:232-234 | PlayerController.RecentRegistrationsFacts, PlayerController.RecentAreHighestIds |
| OrganizerController.IsOrganizer | backend/controllers/organizer.controller.js:12 | OrganizerController.GetOrganizerOpportunities, OrganizerController.OrganizerIsUser |
| OrganizerController.RecentOwned | backend/controllers/organizer.controller.js:83-86 | OrganizerController.RecentOwnedFacts, OrganizerController.RecentAreNewest |
| OpportunityController.MatchesStatus | backend/controllers/opportunity.controller.js:8-14 | OpportunityController.Selected |
| OpportunityController.PassesSchema | backend/models/opportunity.model.js:4-13 | OpportunityController.CreateOpportunity |
| UserController.Listed | backend/controllers/user.controller.js:8-14 | UserController.GetUsers |
| ClientViews.MatchesSearch | src/pages/player/BrowseOpportunities.tsx:24-27 | ClientViews.SearchResults, ClientViews.SearchIgnoresCase |
| ClientViews.PagingShown | src/pages/player/BrowseOpportunities.tsx:101 | ClientViews.PagingShownIff |

## Left out

- JWT signing and verification, and password hashing. The token verifier is a
  parameter mapping tokens to user ids. The user model file is not part of this
  model.
- Mongo query semantics beyond what the handlers rely on:
  - a collection is a sequence in store order, and lookups take the first match;
  - `populate` is a lookup of the organizer by id;
  - `countDocuments` and `$group` are filter counts.
- ObjectId casting: a path id is read as a store id only when it is a string of
  decimal digits (`Requests.ParseId`). Anything else is a cast error, answered
  with 500, as the `catch` blocks do.
- The `sort` option that the list handlers build but never pass to `find`. Lists
  are in store order, and only the two dashboard "recent" queries sort. When
  sort keys tie, Mongo leaves the order unspecified. The model sorts stably,
  and its contracts state only sortedness, permutation and top-k.
- `parseInt` edge cases (NaN, zero or negative page or limit). Callers must
  supply page ≥ 1 and limit ≥ 1. An absent value takes the default of 1 or 10.
- Mongoose's `updatedAt` is modelled only as the handlers use it. A save that
  changes the document stamps it with the request's time. A status write of
  the value already stored modifies nothing and keeps the old stamp.
- Concurrency, including the read-modify-write race in register and join.
  Requests are sequential.
- The clock and randomness. `now`, the new store id and the mock's random id
  are parameters. The CSV's `toLocaleString` is a function parameter.
- Express details: case-insensitive paths, trailing slashes, the 404 body, and
  the HTTP transport itself.
- `encodeURI`, the download link, toasts apart from the texts named above,
  React Query caching, JSX rendering and styling.
- The mock `updateOpportunityStatus`, `deleteUser` and `joinOpportunity`. They
  only log, so they have no state effect to model. The pages' optimistic
  updates are modelled instead.
- The backend's `/api/auth` routes. The sign-up form is modelled up to the call
  it makes.
- Browser-side email format checks (`type="email"`). Of the HTML constraints,
  only `required` is modelled.
- Unicode case folding and UTF-16 lengths. `ToLower` folds ASCII letters only.
  Lengths count characters.
- The query string as a map: a repeated parameter is not modelled.
- The count route is `/counts`, as `backend/routes/opportunity.routes.js` declares it.
- OpportunityController.CreateOpportunity: the body arrives already read as
  the schema's types, so the model does not produce the 500 that Mongoose's
  cast raises for a value of the wrong type (an unparsable `eventDate` or a
  non-numeric `capacity`). The schema is in `backend/models/opportunity.model.js`.

=== FILE: admin_pages.dfy ===
/** The two admin list pages (opportunities and users): the numbered page
    buttons, the "Showing X to Y of Z" label, Previous/Next, the filter
    select that rewrites the query string, the optimistic updates applied
    after a status change or a delete, and the CSV export. */
module AdminPages {
  import opened Wrappers
  import opened Seqs
  import opened Text
  import opened Pagination
  import opened Domain
  import opened ClientTypes

  function Max(a: int, b: int): int
  {
    if a >= b then a else b
  }

  /** The integers `a, a+1, ..., b-1`. */
  function Range(a: int, b: int): (r: seq<int>)
    ensures |r| == if a < b then b - a else 0
    ensures forall k :: 0 <= k < |r| ==> r[k] == a + k
    decreases b - a
  {
    if a >= b then [] else [a] + Range(a + 1, b)
  }

  /** Button slot `i`: the page it shows, or nothing (`return null`). */
  function Slot(page: int, totalPages: nat, i: nat): Option<int>
  {
    if totalPages <= 5 then Some(i + 1)
    else
      var start := Max(1, page - 2);
      var end := Min(totalPages, start + 4);
      if start + i > end then None else Some(start + i)
  }

  /** The pages shown by slots `i` up to `len`, skipping empty slots. */
  function ShownFrom(page: int, totalPages: nat, i: nat, len: nat): seq<int>
    decreases len - i
  {
    if i >= len then []
    else match Slot(page, totalPages, i)
      case None => ShownFrom(page, totalPages, i + 1, len)
      case Some(n) => [n] + ShownFrom(page, totalPages, i + 1, len)
  }

  /** `Array.from({ length: Math.min(5, totalPages) }, ...)` with the nulls dropped. */
  function PageButtons(page: int, totalPages: nat): seq<int>
  {
    ShownFrom(page, totalPages, 0, Min(5, totalPages))
  }

  lemma {:induction false} ShownSmall(page: int, totalPages: nat, i: nat)
    requires totalPages <= 5 && i <= totalPages
    ensures ShownFrom(page, totalPages, i, totalPages) == Range(i + 1, totalPages + 1)
    decreases totalPages - i
  {
    if i < totalPages {
      ShownSmall(page, totalPages, i + 1);
    }
  }

  lemma {:induction false} ShownLarge(page: int, totalPages: nat, i: nat)
    requires totalPages > 5 && i <= 5
    ensures var start := Max(1, page - 2);
      var end := Min(totalPages, start + 4);
      ShownFrom(page, totalPages, i, 5) == Range(start + i, end + 1)
    decreases 5 - i
  {
    if i < 5 {
      ShownLarge(page, totalPages, i + 1);
    }
  }

  /** The button row: all pages when there are at most five; otherwise the
      run from `max(1, page-2)` up to four further pages, cut at the last page
      and not back-filled, so it can be shorter than five near the end. */
  lemma PageButtonsShape(page: int, totalPages: nat)
    ensures totalPages <= 5 ==> PageButtons(page, totalPages) == Range(1, totalPages + 1)
    ensures totalPages > 5 ==>
      PageButtons(page, totalPages) == Range(Max(1, page - 2), Min(totalPages, Max(1, page - 2) + 4) + 1)
    ensures |PageButtons(page, totalPages)| <= Min(5, totalPages)
    ensures forall k :: 0 <= k < |PageButtons(page, totalPages)| ==> 1 <= PageButtons(page, totalPages)[k] <= totalPages
    ensures 1 <= page <= totalPages ==> page in PageButtons(page, totalPages)
  {
    if totalPages <= 5 {
      ShownSmall(page, totalPages, 0);
      if 1 <= page <= totalPages {
        assert PageButtons(page, totalPages)[page - 1] == page;
      }
    } else {
      ShownLarge(page, totalPages, 0);
      var start := Max(1, page - 2);
      if 1 <= page <= totalPages {
        assert PageButtons(page, totalPages)[page - start] == page;
      }
    }
  }

  /** On the last of ten pages only 8, 9 and 10 are offered. */
  lemma NoBackFillExample()
    ensures PageButtons(10, 10) == [8, 9, 10]
  {
    ShownLarge(10, 10, 0);
  }

  /** The "Showing `from` to `to` of `total`" figures. */
  datatype RangeLabel = RangeLabel(from: int, to: int, total: nat)

  function ShowingRange(page: nat, limit: nat, total: nat): RangeLabel
    requires page >= 1
  {
    RangeLabel(Min((page - 1) * limit + 1, total), Min(page * limit, total), total)
  }

  /** The label's figures never run backwards or past the total, and on any
      page that has items they count exactly the items of the page. Past the
      last page the formula gives "total to total", but the page is empty
      there and no label is shown (`RangeLabelShown`). */
  lemma ShowingRangeFacts<T>(s: seq<T>, page: nat, limit: nat)
    requires page >= 1 && limit >= 1
    ensures var l := ShowingRange(page, limit, |s|);
      && l.from <= l.to <= |s|
      && (|PageOf(s, page, limit)| > 0 ==> l.to - l.from + 1 == |PageOf(s, page, limit)|)
      && (page > CeilDiv(|s|, limit) ==> l.from == l.to == |s| && PageOf(s, page, limit) == [])
  {
    SkipNext(page, limit);
    PageSizes(s, page, limit);
    MulMono(1, page, limit);
    if page > CeilDiv(|s|, limit) {
      MulMono(CeilDiv(|s|, limit), page - 1, limit);
    }
  }

  /** Both admin tables render the label only in the branch for a
      non-empty list, so it appears only on a page with entries. */
  predicate RangeLabelShown<T>(data: seq<T>)
  {
    |data| > 0
  }

  /** The label is shown exactly on pages 1 to `totalPages`, and never
      past the last page or for an empty selection. */
  lemma RangeLabelShownIff<T>(s: seq<T>, page: nat, limit: nat)
    requires page >= 1 && limit >= 1
    ensures RangeLabelShown(PageOf(s, page, limit)) <==> page <= CeilDiv(|s|, limit)
  {
    PageSizes(s, page, limit);
  }

  predicate PreviousDisabled(page: int)
  {
    page <= 1
  }

  predicate NextDisabled(page: int, totalPages: nat)
  {
    page >= totalPages
  }

  /** Clicking an enabled Previous or Next keeps the page within `1..totalPages`. */
  lemma SteppingStaysInRange(page: int, totalPages: nat)
    requires 1 <= page
    ensures !PreviousDisabled(page) ==> 1 <= page - 1
    ensures !NextDisabled(page, totalPages) ==> page + 1 <= totalPages
    ensures totalPages == 0 ==> NextDisabled(page, totalPages)
  {
  }

  /** `handleStatusChange` / `handleRoleChange`: the choice 'all' removes the
      filter parameter, any other value sets it, and the page goes back to 1. */
  function HandleFilterChange(params: map<string, string>, key: string, value: string): (r: map<string, string>)
    requires key != "page"
    ensures "page" in r && r["page"] == "1"
    ensures key in r <==> value != "all"
    ensures value != "all" ==> r[key] == value
    ensures forall k :: k != key && k != "page" ==> (k in r <==> k in params) && (k in r ==> r[k] == params[k])
  {
    var filtered := if value == "all" then params - {key} else params[key := value];
    filtered["page" := "1"]
  }

  function HandleStatusChange(params: map<string, string>, value: string): (r: map<string, string>)
    ensures "page" in r && r["page"] == "1"
    ensures "status" in r <==> value != "all"
    ensures value != "all" ==> r["status"] == value
    ensures forall k :: k != "status" && k != "page" ==> (k in r <==> k in params) && (k in r ==> r[k] == params[k])
  {
    HandleFilterChange(params, "status", value)
  }

  function HandleRoleChange(params: map<string, string>, value: string): (r: map<string, string>)
    ensures "page" in r && r["page"] == "1"
    ensures "role" in r <==> value != "all"
    ensures value != "all" ==> r["role"] == value
    ensures forall k :: k != "role" && k != "page" ==> (k in r <==> k in params) && (k in r ==> r[k] == params[k])
  {
    HandleFilterChange(params, "role", value)
  }

  /** Choosing a filter and then 'all' leaves the same query as choosing
      'all' at once. */
  lemma FilterThenAll(params: map<string, string>, key: string, value: string)
    requires key != "page"
    ensures HandleFilterChange(HandleFilterChange(params, key, value), key, "all") == HandleFilterChange(params, key, "all")
  {
  }

  /** `handlePageChange`: the page parameter is rewritten as the decimal
      form of the new page and every other parameter is kept. */
  function HandlePageChange(params: map<string, string>, newPage: nat): (r: map<string, string>)
    ensures "page" in r && r["page"] == NatToString(newPage) && DigitsValue(r["page"]) == newPage
    ensures forall k :: k != "page" ==> (k in r <==> k in params) && (k in r ==> r[k] == params[k])
  {
    NatToStringValue(newPage);
    params["page" := NatToString(newPage)]
  }

  /** In the status menu the item for the opportunity's current status is
      disabled, so an enabled item always changes the status. */
  predicate StatusItemDisabled(o: ClientOpportunity, choice: Status)
  {
    o.status == choice
  }

  lemma EnabledItemChangesStatus(list: seq<ClientOpportunity>, i: nat, choice: Status)
    requires i < |list| && !StatusItemDisabled(list[i], choice)
    ensures UpdateStatusLocally(list, list[i].id, choice)[i].status != list[i].status
  {
  }

  /** The optimistic list after a status change: entries with the id take
      the new status, the rest are left alone. */
  function UpdateStatusLocally(list: seq<ClientOpportunity>, id: string, status: Status): (r: seq<ClientOpportunity>)
    ensures |r| == |list|
    ensures forall i :: 0 <= i < |r| ==> r[i].id == list[i].id
    ensures forall i :: 0 <= i < |r| && list[i].id == id ==> r[i] == list[i].(status := status)
    ensures forall i :: 0 <= i < |r| && list[i].id != id ==> r[i] == list[i]
  {
    seq(|list|, i requires 0 <= i < |list| => if list[i].id == id then list[i].(status := status) else list[i])
  }

  /** Applying the same optimistic status change twice changes nothing more. */
  lemma UpdateStatusLocallyIdempotent(list: seq<ClientOpportunity>, id: string, status: Status)
    ensures UpdateStatusLocally(UpdateStatusLocally(list, id, status), id, status) == UpdateStatusLocally(list, id, status)
  {
  }

  /** The optimistic list after a delete. */
  function MarkDeletedLocally(list: seq<ClientUser>, id: string, now: string): (r: seq<ClientUser>)
    ensures |r| == |list|
    ensures forall i :: 0 <= i < |r| && list[i].id == id ==> r[i] == list[i].(isDeleted := true, deletedAt := Some(now))
    ensures forall i :: 0 <= i < |r| && list[i].id != id ==> r[i] == list[i]
  {
    seq(|list|, i requires 0 <= i < |list| => if list[i].id == id then list[i].(isDeleted := true, deletedAt := Some(now)) else list[i])
  }

  /** The trash button of a user already marked deleted is disabled. */
  predicate DeleteDisabled(u: ClientUser)
  {
    u.isDeleted
  }

  /** After the optimistic delete the user's trash button is disabled and no
      other user's button changes state. */
  lemma DeleteDisablesButton(list: seq<ClientUser>, id: string, now: string)
    ensures var r := MarkDeletedLocally(list, id, now);
      forall i :: 0 <= i < |r| ==> (DeleteDisabled(r[i]) <==> list[i].id == id || DeleteDisabled(list[i]))
  {
  }

  const CsvHeaders: seq<string> := ["ID", "Title", "Organizer", "Status", "Created At"]
  const CsvPrefix := "data:text/csv;charset=utf-8,"

  /** The five cells of a row; `localeTime` stands for `toLocaleString`. */
  function CsvRow(o: ClientOpportunity, localeTime: string -> string): (r: seq<string>)
    ensures |r| == |CsvHeaders|
  {
    [o.id, o.title, o.organizer.name, StatusName(o.status), localeTime(o.createdAt)]
  }

  /** The header row followed by one row of cells per opportunity. */
  function CsvTable(data: seq<ClientOpportunity>, localeTime: string -> string): (r: seq<seq<string>>)
    ensures |r| == |data| + 1 && r[0] == CsvHeaders
    ensures forall i :: 0 <= i < |data| ==> r[i + 1] == CsvRow(data[i], localeTime)
  {
    [CsvHeaders] + seq(|data|, i requires 0 <= i < |data| => CsvRow(data[i], localeTime))
  }

  /** Each row with its cells joined by commas. */
  function JoinCells(table: seq<seq<string>>): (r: seq<string>)
    ensures |r| == |table|
  {
    seq(|table|, i requires 0 <= i < |table| => Join(table[i], ','))
  }

  function CsvLines(data: seq<ClientOpportunity>, localeTime: string -> string): (r: seq<string>)
    ensures |r| == |data| + 1
  {
    JoinCells(CsvTable(data, localeTime))
  }

  /** The export: header line, then one line per opportunity in list order,
      cells joined by commas with no quoting, lines joined by newlines. */
  function CsvContent(data: seq<ClientOpportunity>, localeTime: string -> string): (r: string)
    ensures |r| >= |CsvPrefix| && r[..|CsvPrefix|] == CsvPrefix
  {
    CsvPrefix + Join(CsvLines(data, localeTime), '\n')
  }

  /** No cell holds a comma or a line break. */
  predicate PlainCells(cells: seq<string>)
  {
    forall i :: 0 <= i < |cells| ==> ',' !in cells[i] && '\n' !in cells[i]
  }

  /** When no cell holds a comma or a line break, reading the export back
      line by line and cell by cell gives the header and every row, in order. */
  lemma CsvReadsBack(data: seq<ClientOpportunity>, localeTime: string -> string)
    requires forall i :: 0 <= i < |data| ==> PlainCells(CsvRow(data[i], localeTime))
    ensures var lines := Split(CsvContent(data, localeTime)[|CsvPrefix|..], '\n');
      && |lines| == |data| + 1
      && Split(lines[0], ',') == CsvHeaders
      && forall i :: 0 <= i < |data| ==> Split(lines[i + 1], ',') == CsvRow(data[i], localeTime)
  {
    var table := CsvTable(data, localeTime);
    assert PlainCells(CsvHeaders);
    assert forall i :: 0 <= i < |table| ==> |table[i]| >= 1 && PlainCells(table[i]) by {
      forall i | 1 <= i < |table| ensures |table[i]| >= 1 && PlainCells(table[i]) {
        assert table[i] == CsvRow(data[i - 1], localeTime);
      }
    }
    TableReadsBack(table);
    assert CsvContent(data, localeTime)[|CsvPrefix|..] == Join(JoinCells(table), '\n');
  }

  /** A table of plain cells survives joining and splitting on both separators. */
  lemma TableReadsBack(table: seq<seq<string>>)
    requires |table| >= 1
    requires forall i :: 0 <= i < |table| ==> |table[i]| >= 1 && PlainCells(table[i])
    ensures var lines := Split(Join(JoinCells(table), '\n'), '\n');
      && |lines| == |table|
      && forall i :: 0 <= i < |table| ==> Split(lines[i], ',') == table[i]
  {
    var lines := JoinCells(table);
    forall i | 0 <= i < |table| ensures '\n' !in lines[i] && Split(lines[i], ',') == table[i] {
      RowPlain(table[i]);
    }
    SplitJoin(lines, '\n');
  }

  lemma RowPlain(cells: seq<string>)
    requires |cells| >= 1 && PlainCells(cells)
    ensures '\n' !in Join(cells, ',')
    ensures Split(Join(cells, ','), ',') == cells
  {
    JoinAvoids(cells, ',', '\n');
    SplitJoin(cells, ',');
  }

  /** A comma inside a title is not quoted, so that row reads back with six cells. */
  lemma CommaInTitleAddsCell(o: ClientOpportunity, localeTime: string -> string)
    requires o.title == "a,b"
    requires ',' !in o.id && ',' !in o.organizer.name && ',' !in localeTime(o.createdAt)
    ensures |Split(Join(CsvRow(o, localeTime), ','), ',')| == 6
  {
    var cells := [o.id, "a", "b", o.organizer.name, StatusName(o.status), localeTime(o.createdAt)];
    var row := CsvRow(o, localeTime);
    var tail := Join(row[2..], ',');
    assert Join(row, ',') == o.id + [','] + ("a,b" + [','] + tail);
    assert cells[1..][1..] == cells[2..] && cells[2..][1..] == cells[3..];
    assert Join(cells[2..], ',') == "b" + [','] + Join(cells[3..], ',');
    assert Join(cells[1..], ',') == "a" + [','] + Join(cells[2..], ',');
    assert Join(cells, ',') == o.id + [','] + Join(cells[1..], ',');
    assert Join(row[1..], ',') == "a,b" + [','] + tail;
    assert cells[3..] == row[2..];
    assert Join(row, ',') == Join(cells, ',');
    SplitJoin(cells, ',');
  }
}

=== FILE: auth_context.dfy ===
/** The browser session: the signed-in user and the loading flag the auth
    provider keeps, together with the token it stores in local storage.
    The backend's login answer is a parameter; the stored token is the only
    state that survives a page reload. */
module AuthContext {
  import opened Wrappers
  import opened Domain
  import opened ClientTypes

  datatype Session = Session(user: Option<AuthUser>, isLoading: bool)

  /** The provider's state and the `auth_token` entry of local storage. */
  datatype Browser = Browser(session: Session, storedToken: Option<string>)

  /** A freshly mounted provider: nobody signed in, still loading. */
  const InitialSession := Session(None, true)

  /** The user the mount effect restores, whatever the token belongs to. */
  function RestoredUser(token: string): AuthUser
  {
    AuthUser("1", "Admin User", "admin@arc.com", Admin, token)
  }

  /** The mount effect: a non-empty stored token restores the fixed admin
      user; either way loading ends. */
  function Mount(storedToken: Option<string>): (r: Session)
    ensures !r.isLoading
    ensures r.user.Some? <==> storedToken.Some? && storedToken.value != ""
    ensures r.user.Some? ==> r.user.value.role == Admin && r.user.value.token == storedToken.value
  {
    if storedToken.Some? && storedToken.value != "" then Session(Some(RestoredUser(storedToken.value)), false)
    else Session(None, false)
  }

  /** A page load: the provider starts over from local storage. */
  function Reload(b: Browser): (r: Browser)
    ensures r.storedToken == b.storedToken
    ensures r.session == Mount(b.storedToken)
  {
    Browser(Mount(b.storedToken), b.storedToken)
  }

  /** `isAuthenticated`: somebody is signed in and is an admin. */
  predicate IsAuthenticated(s: Session)
  {
    s.user.Some? && s.user.value.role == Admin
  }

  /** What `login` leaves behind: the new browser state, the toast shown,
      and whether the error is thrown on to the caller. */
  datatype LoginOutcome = LoginOutcome(browser: Browser, toast: string, rethrown: bool)

  /** `login`; `answer` is what the login service returned: the user with
      its token, or a failure. The service stores the token on success. */
  function Login(b: Browser, answer: Result<AuthUser, string>): (r: LoginOutcome)
    ensures !r.browser.session.isLoading
    ensures r.rethrown <==> answer.Err?
    ensures answer.Ok? ==> r.browser.session.user == Some(answer.value) && r.browser.storedToken == Some(answer.value.token)
    ensures answer.Ok? ==> r.toast == "Welcome back, " + answer.value.name + "!"
    ensures answer.Err? ==> r.browser.session.user == b.session.user && r.browser.storedToken == b.storedToken
    ensures answer.Err? ==> r.toast == "Invalid email or password."
  {
    match answer
    case Ok(u) => LoginOutcome(Browser(Session(Some(u), false), Some(u.token)), "Welcome back, " + u.name + "!", false)
    case Err(_) => LoginOutcome(Browser(b.session.(isLoading := false), b.storedToken), "Invalid email or password.", true)
  }

  /** `logout`: the stored token is removed and the user cleared. */
  function Logout(b: Browser): (r: Browser)
    ensures r.session.user.None? && r.storedToken.None?
    ensures r.session.isLoading == b.session.isLoading
  {
    Browser(b.session.(user := None), None)
  }

  /** Only an admin counts as authenticated: an organizer or player who
      signed in holds a user but is not authenticated. */
  lemma AuthenticatedMeansAdmin(b: Browser, u: AuthUser)
    ensures IsAuthenticated(Login(b, Ok(u)).browser.session) <==> u.role == Admin
  {
  }

  /** A reload after any successful login with a non-empty token restores
      the fixed admin user, so a player or organizer comes back as an
      authenticated admin. */
  lemma ReloadRestoresAdmin(b: Browser, u: AuthUser)
    requires u.token != ""
    ensures var after := Reload(Login(b, Ok(u)).browser);
      && IsAuthenticated(after.session)
      && after.session.user.value.id == "1"
      && after.session.user.value.token == u.token
  {
  }

  /** After a logout a reload restores nobody. */
  lemma LogoutSurvivesReload(b: Browser)
    ensures Reload(Logout(b)).session.user.None?
    ensures !IsAuthenticated(Reload(Logout(b)).session)
  {
  }

  /** A failed login changes neither who is signed in nor what is stored. */
  lemma FailedLoginKeepsSession(b: Browser, message: string)
    ensures var r := Login(b, Err(message));
      r.browser.session.user == b.session.user && r.browser.storedToken == b.storedToken && r.rethrown
  {
  }

  /** A first visit without a stored token ends loading with nobody signed in. */
  lemma FirstVisit()
    ensures Reload(Browser(InitialSession, None)).session == Session(None, false)
  {
  }
}

=== FILE: auth_guard.dfy ===
/** The authentication and authorization middleware. Verifying a token is
    an abstract partial map from token strings to the user id they carry:
    a token outside its domain is one the signature check rejects. */
module AuthGuard {
  import opened Wrappers
  import opened Text
  import opened Domain

  const Unauthenticated := HttpError(401, "Please authenticate.")
  const Forbidden := HttpError(403, "Forbidden")

  /** The token is the header with its first "Bearer " removed, wherever it occurs. */
  function ExtractToken(header: string): (r: string)
    ensures IndexOf(header, "Bearer ").None? ==> r == header
    ensures IndexOf(header, "Bearer ").Some? ==>
      var i := IndexOf(header, "Bearer ").value;
      && header == header[..i] + "Bearer " + header[i + 7..]
      && r == header[..i] + header[i + 7..]
  {
    ReplaceFirst(header, "Bearer ", "")
  }

  /** `auth`: a header, a token the verifier accepts, and a live user with
      the decoded id; any missing piece is a 401. */
  function Authenticate(header: Option<string>, tokens: map<string, Id>, users: seq<User>): (r: Result<User, HttpError>)
    ensures r.Err? <==>
      || header.None?
      || ExtractToken(header.value) !in tokens
      || LiveUserById(users, tokens[ExtractToken(header.value)]).None?
    ensures r.Err? ==> r.error == Unauthenticated
    ensures r.Ok? ==> r.value in users && !r.value.isDeleted && r.value.id == tokens[ExtractToken(header.value)]
  {
    if header.None? then Err(Unauthenticated)
    else
      var token := ExtractToken(header.value);
      if token !in tokens then Err(Unauthenticated)
      else match LiveUserById(users, tokens[token])
        case None => Err(Unauthenticated)
        case Some(u) => Ok(u)
  }

  /** `authorize` takes a single role or a list of roles. */
  datatype RoleSpec = OneRole(role: Role) | RoleList(roles: seq<Role>)

  function Normalize(spec: RoleSpec): (r: seq<Role>)
    ensures spec.OneRole? ==> r == [spec.role]
    ensures spec.RoleList? ==> r == spec.roles
  {
    match spec
    case OneRole(role) => [role]
    case RoleList(roles) => roles
  }

  /** The role check: an empty list admits everyone. */
  predicate Permits(roles: seq<Role>, role: Role)
  {
    |roles| == 0 || role in roles
  }

  /** `authorize(roles)`: authentication first, then the role check. */
  function Authorize(spec: RoleSpec, header: Option<string>, tokens: map<string, Id>, users: seq<User>): (r: Result<User, HttpError>)
    ensures var a := Authenticate(header, tokens, users);
      && (a.Err? ==> r == Err(Unauthenticated))
      && (a.Ok? && !Permits(Normalize(spec), a.value.role) ==> r == Err(Forbidden))
      && (a.Ok? && Permits(Normalize(spec), a.value.role) ==> r == Ok(a.value))
  {
    var a := Authenticate(header, tokens, users);
    if a.Err? then Err(a.error)
    else if !Permits(Normalize(spec), a.value.role) then Err(Forbidden)
    else a
  }

  /** A request rejected by authentication is never answered with 403,
      whatever the role list. */
  lemma UnauthenticatedBeforeForbidden(spec: RoleSpec, header: Option<string>, tokens: map<string, Id>, users: seq<User>)
    ensures Authorize(spec, header, tokens, users).Err? && Authorize(spec, header, tokens, users).error.code == 403 ==>
      Authenticate(header, tokens, users).Ok?
    ensures Authenticate(header, tokens, users).Err? ==> Authorize(spec, header, tokens, users).error.code == 401
  {
  }

  /** An empty role list admits every authenticated user. */
  lemma EmptyListAdmitsAll(header: Option<string>, tokens: map<string, Id>, users: seq<User>)
    ensures Authorize(RoleList([]), header, tokens, users) == Authenticate(header, tokens, users)
  {
  }

  /** With a non-empty list, an authenticated user gets 403 exactly when the
      role is missing from it. */
  lemma ForbiddenIffRoleMissing(roles: seq<Role>, header: Option<string>, tokens: map<string, Id>, users: seq<User>)
    requires |roles| > 0
    requires Authenticate(header, tokens, users).Ok?
    ensures Authorize(RoleList(roles), header, tokens, users) == Err(Forbidden) <==>
      Authenticate(header, tokens, users).value.role !in roles
  {
  }

  /** A role given alone behaves as the one-element list. */
  lemma OneRoleIsSingleton(role: Role, header: Option<string>, tokens: map<string, Id>, users: seq<User>)
    ensures Authorize(OneRole(role), header, tokens, users) == Authorize(RoleList([role]), header, tokens, users)
  {
  }

  /** A well-formed bearer header yields the bare token. */
  lemma BearerHeader(token: string)
    ensures ExtractToken("Bearer " + token) == token
  {
    ReplaceFirstPrefix("Bearer ", token);
  }

  /** A deleted user's token no longer authenticates. */
  lemma DeletedUserRejected(header: string, tokens: map<string, Id>, users: seq<User>)
    requires ExtractToken(header) in tokens
    requires forall i :: 0 <= i < |users| && users[i].id == tokens[ExtractToken(header)] ==> users[i].isDeleted
    ensures Authenticate(Some(header), tokens, users) == Err(Unauthenticated)
  {
  }
}

=== FILE: client_forms.dfy ===
/** The two forms that create records: the sign-up form, which checks the
    passwords before it calls the registration service, and the organizer's
    create-opportunity form, whose schema bounds the title and description
    and whose payload names the signed-in organizer. */
module ClientForms {
  import opened Wrappers
  import opened Domain
  import opened ClientTypes
  import opened MockServices

  /** The sign-up form's fields. The role comes from a two-button radio group. */
  datatype RegisterForm = RegisterForm(name: string, email: string, password: string, confirmPassword: string, role: Role)

  /** The radio group offers player and organizer only; nobody signs up as an admin. */
  const RoleChoices: seq<Role> := [Player, Organizer]

  const InitialRegisterForm := RegisterForm("", "", "", "", Player)

  /** What `register` is called with. */
  datatype RegisterPayload = RegisterPayload(name: string, email: string, password: string, role: Role)

  /** The result of pressing "Create Account". `Incomplete` is the browser
      refusing to submit while a `required` field is empty. */
  datatype RegisterOutcome = Incomplete | PasswordsDontMatch | PasswordTooShort | Submitted(payload: RegisterPayload)

  const MinPasswordLength := 6

  predicate Filled(f: RegisterForm)
  {
    f.name != "" && f.email != "" && f.password != "" && f.confirmPassword != ""
  }

  /** `handleSubmit`: the match check comes first, then the length check;
      only a form passing both reaches the service. */
  function SubmitRegister(f: RegisterForm): (r: RegisterOutcome)
    ensures r == Incomplete <==> !Filled(f)
    ensures r == PasswordsDontMatch <==> Filled(f) && f.password != f.confirmPassword
    ensures r == PasswordTooShort <==> Filled(f) && f.password == f.confirmPassword && |f.password| < MinPasswordLength
    ensures r.Submitted? <==> Filled(f) && f.password == f.confirmPassword && |f.password| >= MinPasswordLength
    ensures r.Submitted? ==> r.payload == RegisterPayload(f.name, f.email, f.password, f.role)
  {
    if !Filled(f) then Incomplete
    else if f.password != f.confirmPassword then PasswordsDontMatch
    else if |f.password| < MinPasswordLength then PasswordTooShort
    else Submitted(RegisterPayload(f.name, f.email, f.password, f.role))
  }

  /** A mismatch is reported even when the password is also too short. */
  lemma MismatchReportedFirst(f: RegisterForm)
    requires Filled(f) && f.password != f.confirmPassword && |f.password| < MinPasswordLength
    ensures SubmitRegister(f) == PasswordsDontMatch
  {
  }

  /** Every payload sent carries a password of at least six characters,
      typed the same twice, and a role the radio group offers, so never admin. */
  lemma SubmittedPayloadAcceptable(f: RegisterForm)
    requires f.role in RoleChoices
    ensures SubmitRegister(f).Submitted? ==>
      var p := SubmitRegister(f).payload;
      |p.password| >= MinPasswordLength && p.password == f.confirmPassword && p.role != Admin
  {
  }

  /** The untouched form is refused and defaults to the player role. */
  lemma InitialFormRefused()
    ensures SubmitRegister(InitialRegisterForm) == Incomplete
    ensures InitialRegisterForm.role == Player && InitialRegisterForm.role in RoleChoices
  {
  }

  /** The failure toast shows the error's message, or a fixed text when the message is empty. */
  function RegisterFailureText(message: string): (r: string)
    ensures message != "" ==> r == message
    ensures message == "" ==> r == "An error occurred during registration."
  {
    if message != "" then message else "An error occurred during registration."
  }

  /** The create form's fields. */
  datatype OpportunityForm = OpportunityForm(title: string, description: string)

  const InitialOpportunityForm := OpportunityForm("", "")

  const TitleMin := 5
  const TitleMax := 100
  const DescriptionMin := 20
  const DescriptionMax := 1000

  /** The schema's messages, title first, as the form shows them. */
  function OpportunityFormErrors(f: OpportunityForm): (r: seq<string>)
    ensures |r| <= 2
    ensures |r| == 0 <==> TitleMin <= |f.title| <= TitleMax && DescriptionMin <= |f.description| <= DescriptionMax
    ensures "Title must be at least 5 characters" in r <==> |f.title| < TitleMin
    ensures "Title must be less than 100 characters" in r <==> |f.title| > TitleMax
    ensures "Description must be at least 20 characters" in r <==> |f.description| < DescriptionMin
    ensures "Description must be less than 1000 characters" in r <==> |f.description| > DescriptionMax
  {
    var title :=
      if |f.title| < TitleMin then ["Title must be at least 5 characters"]
      else if |f.title| > TitleMax then ["Title must be less than 100 characters"]
      else [];
    var description :=
      if |f.description| < DescriptionMin then ["Description must be at least 20 characters"]
      else if |f.description| > DescriptionMax then ["Description must be less than 1000 characters"]
      else [];
    title + description
  }

  /** The bounds are inclusive at both ends, and the empty defaults are refused. */
  lemma OpportunityFormBounds()
    ensures OpportunityFormErrors(InitialOpportunityForm) ==
      ["Title must be at least 5 characters", "Description must be at least 20 characters"]
    ensures forall t: string, d: string :: |t| == TitleMin && |d| == DescriptionMax ==> OpportunityFormErrors(OpportunityForm(t, d)) == []
    ensures forall t: string, d: string :: |t| == TitleMax && |d| == DescriptionMin ==> OpportunityFormErrors(OpportunityForm(t, d)) == []
  {
  }

  /** What the mutation sends: the two fields and `user?.id`; no status. */
  function CreatePayload(f: OpportunityForm, user: Option<AuthUser>): (r: OpportunityDraft)
    ensures r.title == Some(f.title) && r.description == Some(f.description)
    ensures r.location.None? && r.eventDate.None? && r.capacity.None?
    ensures user.Some? <==> r.organizerId.Some?
    ensures user.Some? ==> r.organizerId.value == user.value.id
  {
    OpportunityDraft(Some(f.title), Some(f.description), None, None, None,
                     if user.Some? then Some(user.value.id) else None)
  }

  /** `onSubmit`: a valid form is sent; an invalid one sends nothing. */
  function SubmitOpportunity(f: OpportunityForm, user: Option<AuthUser>): (r: Result<OpportunityDraft, seq<string>>)
    ensures r.Ok? <==> OpportunityFormErrors(f) == []
    ensures r.Err? ==> r.error == OpportunityFormErrors(f)
    ensures r.Ok? ==> r.value == CreatePayload(f, user)
  {
    var errors := OpportunityFormErrors(f);
    if errors == [] then Ok(CreatePayload(f, user)) else Err(errors)
  }

  /** A sent form yields an opportunity pending approval, with the typed
      title and description, owned by the signed-in organizer (by the
      mock's organizer "2" when nobody is signed in or the id is empty),
      and with the mock's defaults for the fields the form lacks. */
  lemma CreatedOpportunityPending(f: OpportunityForm, user: Option<AuthUser>, id: string, now: string)
    requires SubmitOpportunity(f, user).Ok?
    ensures var o := MockCreateOpportunity(SubmitOpportunity(f, user).value, id, now);
      && o.status == Pending
      && o.title == f.title && o.description == f.description
      && (user.Some? && user.value.id != "" ==> o.organizerId == user.value.id)
      && (user.None? ==> o.organizerId == "2")
      && o.capacity == Some(10) && o.eventDate == Some(now)
  {
    assert |f.title| >= TitleMin && |f.description| >= DescriptionMin;
  }
}

=== FILE: client_types.dfy ===
/** The records the browser works with. Ids and timestamps are strings
    there (ISO dates are opaque text here); roles and statuses reuse the
    backend enumerations, whose names are the same strings. */
module ClientTypes {
  import opened Wrappers
  import opened Domain

  datatype ClientUser = ClientUser(
    id: string,
    name: string,
    email: string,
    role: Role,
    status: UserStatus,
    isDeleted: bool,
    deletedAt: Option<string>,
    createdAt: string)

  datatype ClientOpportunity = ClientOpportunity(
    id: string,
    title: string,
    description: string,
    location: Option<string>,
    eventDate: Option<string>,
    capacity: Option<int>,
    organizerId: string,
    organizer: ClientUser,
    status: Status,
    createdAt: string,
    updatedAt: string)

  /** The signed-in user the session keeps. */
  datatype AuthUser = AuthUser(id: string, name: string, email: string, role: Role, token: string)

  function HasStatus(s: Status): ClientOpportunity -> bool
  {
    (o: ClientOpportunity) => o.status == s
  }

  function HasRole(r: Role): ClientUser -> bool
  {
    (u: ClientUser) => u.role == r
  }
}

=== FILE: client_views.dfy ===
/** The player's browse page and the organizer's two list views. Browsing
    fetches one page of approved opportunities and searches within that
    page only; the organizer dashboard counts statuses over the fetched page
    but shows the server's total; the manage view filters the fetched page
    by a status chosen with buttons. */
module ClientViews {
  import opened Wrappers
  import opened Seqs
  import opened Text
  import opened Pagination
  import opened Domain
  import opened ClientTypes
  import opened MockServices

  const ItemsPerPage := 10

  /** The query behind the browse page: page `currentPage` of approved opportunities. */
  function BrowseFetch(currentPage: nat, now: string): (r: Paginated<ClientOpportunity>)
    requires currentPage >= 1
    ensures |r.data| <= ItemsPerPage
    ensures forall k :: 0 <= k < |r.data| ==> r.data[k].status == Approved
    ensures r.meta.total == Count(MockOpportunities(now), ByStatus(Some(Approved)))
  {
    MockGetOpportunities(currentPage, ItemsPerPage, Some(Approved), now)
  }

  /** The search box: case-insensitive substring of the title or the description. */
  function MatchesSearch(term: string): ClientOpportunity -> bool
  {
    (o: ClientOpportunity) =>
      Contains(ToLower(o.title), ToLower(term)) || Contains(ToLower(o.description), ToLower(term))
  }

  /** `filteredOpportunities`: the fetched page narrowed by the search term. */
  function SearchResults(data: seq<ClientOpportunity>, term: string): (r: seq<ClientOpportunity>)
    ensures |r| <= |data|
    ensures forall i :: 0 <= i < |r| ==> r[i] in data && MatchesSearch(term)(r[i])
    ensures forall i :: 0 <= i < |data| && MatchesSearch(term)(data[i]) ==> data[i] in r
  {
    Filter(data, MatchesSearch(term))
  }

  lemma EmptyIsEverywhere(s: string)
    ensures Contains(s, "")
  {
    assert OccursAt(s, "", 0);
  }

  /** An empty search term keeps the whole page, in order. */
  lemma EmptySearchKeepsAll(data: seq<ClientOpportunity>)
    ensures SearchResults(data, "") == data
  {
    forall i | 0 <= i < |data| ensures MatchesSearch("")(data[i]) {
      EmptyIsEverywhere(ToLower(data[i].title));
    }
    FilterAll(data, MatchesSearch(""));
  }

  /** The results keep the page's order, and searching never reaches beyond
      the fetched page: everything shown is approved. */
  lemma SearchWithinPage(currentPage: nat, term: string, now: string)
    requires currentPage >= 1
    ensures var page := BrowseFetch(currentPage, now).data;
      && Subsequence(SearchResults(page, term), page)
      && forall i :: 0 <= i < |SearchResults(page, term)| ==> SearchResults(page, term)[i].status == Approved
  {
    var page := BrowseFetch(currentPage, now).data;
    FilterIsSubsequence(page, MatchesSearch(term));
  }

  lemma ToLowerIdempotent(s: string)
    ensures ToLower(ToLower(s)) == ToLower(s)
  {
  }

  /** Typing the term in capitals finds the same opportunities. */
  lemma SearchIgnoresCase(data: seq<ClientOpportunity>, term: string)
    ensures SearchResults(data, ToLower(term)) == SearchResults(data, term)
  {
    ToLowerIdempotent(term);
    SamePredicateSameFilter(data, MatchesSearch(ToLower(term)), MatchesSearch(term));
  }

  /** The text under an empty result list. */
  function EmptyListText(term: string): (r: string)
    ensures term == "" ==> r == "No opportunities found."
    ensures term != "" ==> r == "No opportunities found matching your search."
  {
    "No opportunities found" + (if term != "" then " matching your search" else "") + "."
  }

  const ExcerptLength := 200

  /** The description as the card shows it: the first 200 characters, and
      an ellipsis only when something was cut. */
  function Excerpt(description: string): (r: string)
    ensures |description| <= ExcerptLength ==> r == description
    ensures |description| > ExcerptLength ==> r == description[..ExcerptLength] + "..."
    ensures |r| <= ExcerptLength + 3
  {
    var cut := description[..Min(ExcerptLength, |description|)];
    cut + (if |description| > ExcerptLength then "..." else "")
  }

  /** `handlePreviousPage`. */
  function PreviousPage(currentPage: nat): (r: nat)
    ensures currentPage > 1 ==> r == currentPage - 1
    ensures currentPage <= 1 ==> r == currentPage
  {
    if currentPage > 1 then currentPage - 1 else currentPage
  }

  /** `handleNextPage`: nothing happens before the first response or on the last page. */
  function NextPage(currentPage: nat, fetched: Option<Paginated<ClientOpportunity>>): (r: nat)
    ensures fetched.Some? && currentPage < fetched.value.meta.totalPages ==> r == currentPage + 1
    ensures fetched.None? || currentPage >= fetched.value.meta.totalPages ==> r == currentPage
  {
    if fetched.Some? && currentPage < fetched.value.meta.totalPages then currentPage + 1 else currentPage
  }

  /** Starting from page 1, Previous and Next keep the page between 1 and
      the last page (or at 1 when there are no pages). */
  lemma PagingStaysInRange(currentPage: nat, fetched: Option<Paginated<ClientOpportunity>>)
    requires 1 <= currentPage
    requires fetched.Some? ==> currentPage <= Max1(fetched.value.meta.totalPages)
    ensures 1 <= PreviousPage(currentPage) <= currentPage
    ensures 1 <= NextPage(currentPage, fetched)
    ensures fetched.Some? ==> NextPage(currentPage, fetched) <= Max1(fetched.value.meta.totalPages)
  {
  }

  function Max1(n: nat): nat
  {
    if n >= 1 then n else 1
  }

  /** The paging controls sit inside the branch that lists the search
      results, so they appear only when the search keeps something on the
      fetched page and there is more than one page. */
  predicate PagingShown(fetched: Option<Paginated<ClientOpportunity>>, term: string)
  {
    fetched.Some? && |SearchResults(fetched.value.data, term)| > 0 && fetched.value.meta.totalPages > 1
  }

  /** The controls are shown exactly when there are several pages and some
      entry of the fetched page matches the term; a term that matches
      nothing on the page hides them, however many pages there are. */
  lemma PagingShownIff(fetched: Option<Paginated<ClientOpportunity>>, term: string)
    ensures PagingShown(fetched, term) <==>
      (fetched.Some? && fetched.value.meta.totalPages > 1 &&
       exists k :: 0 <= k < |fetched.value.data| && MatchesSearch(term)(fetched.value.data[k]))
  {
    if fetched.Some? {
      var data := fetched.value.data;
      var found := SearchResults(data, term);
      if |found| > 0 {
        assert found[0] in data;
        var k :| 0 <= k < |data| && data[k] == found[0];
        assert MatchesSearch(term)(data[k]);
      }
    }
  }

  /** Thirteen approved mock opportunities make two browse pages, so with
      an empty search the controls appear; the second page holds the last three. */
  lemma BrowseHasTwoPages(now: string)
    ensures BrowseFetch(1, now).meta.totalPages == 2
    ensures PagingShown(Some(BrowseFetch(1, now)), "")
    ensures |BrowseFetch(2, now).data| == 3
  {
    MockStatusCounts(now);
    SamePredicateSameFilter(MockOpportunities(now), ByStatus(Some(Approved)), HasStatus(Approved));
    var s := Filter(MockOpportunities(now), ByStatus(Some(Approved)));
    PageSizes(s, 1, ItemsPerPage);
    PageSizes(s, 2, ItemsPerPage);
    EmptySearchKeepsAll(BrowseFetch(1, now).data);
  }

  /** The four figures of the organizer dashboard. */
  datatype DashboardFigures = DashboardFigures(pending: nat, approved: nat, closed: nat, total: nat)

  /** Status counts over the fetched page; the total from its `meta`; all
      zero before (or without) a response. */
  function OrganizerFigures(fetched: Option<Paginated<ClientOpportunity>>): (r: DashboardFigures)
    ensures fetched.None? ==> r == DashboardFigures(0, 0, 0, 0)
    ensures fetched.Some? ==> r.total == fetched.value.meta.total
    ensures fetched.Some? ==>
      && r.pending == Count(fetched.value.data, HasStatus(Pending))
      && r.approved == Count(fetched.value.data, HasStatus(Approved))
      && r.closed == Count(fetched.value.data, HasStatus(Closed))
  {
    match fetched
    case None => DashboardFigures(0, 0, 0, 0)
    case Some(p) =>
      DashboardFigures(Count(p.data, HasStatus(Pending)), Count(p.data, HasStatus(Approved)),
                       Count(p.data, HasStatus(Closed)), p.meta.total)
  }

  function Anything(): ClientOpportunity -> bool
  {
    (o: ClientOpportunity) => true
  }

  /** The three status cards add up to the number of fetched items. */
  lemma StatusCardsCoverPage(fetched: Paginated<ClientOpportunity>)
    ensures var f := OrganizerFigures(Some(fetched));
      f.pending + f.approved + f.closed == |fetched.data|
  {
    CountPartition3(fetched.data, Anything(), HasStatus(Pending), HasStatus(Approved), HasStatus(Closed));
    FilterAll(fetched.data, Anything());
  }

  /** The dashboard fetches only the first page of ten: for an organizer with
      more than ten opportunities the status cards add up to ten while the
      total card shows them all. */
  lemma StatusCardsUndercount(mine: seq<ClientOpportunity>)
    requires |mine| > ItemsPerPage
    ensures var f := OrganizerFigures(Some(Paginate(mine, 1, ItemsPerPage)));
      f.pending + f.approved + f.closed == ItemsPerPage < f.total == |mine|
  {
    PageSizes(mine, 1, ItemsPerPage);
    StatusCardsCoverPage(Paginate(mine, 1, ItemsPerPage));
  }

  /** "Recent opportunities": the first five fetched, in the order received. */
  function Recent(fetched: Option<Paginated<ClientOpportunity>>): (r: seq<ClientOpportunity>)
    ensures fetched.None? ==> r == []
    ensures fetched.Some? ==> |r| == Min(5, |fetched.value.data|) && r == fetched.value.data[..|r|]
  {
    match fetched
    case None => []
    case Some(p) => p.data[..Min(5, |p.data|)]
  }

  /** The manage view's filter buttons. */
  datatype StatusFilter = All | Only(status: Status)

  const InitialFilter := All

  function Keeps(f: StatusFilter): ClientOpportunity -> bool
  {
    (o: ClientOpportunity) => f.All? || o.status == f.status
  }

  /** `filteredOpportunities` of the manage view. */
  function ManageVisible(fetched: Option<Paginated<ClientOpportunity>>, f: StatusFilter): (r: Option<seq<ClientOpportunity>>)
    ensures r.Some? <==> fetched.Some?
    ensures r.Some? ==> forall i :: 0 <= i < |r.value| ==> r.value[i] in fetched.value.data && Keeps(f)(r.value[i])
    ensures r.Some? ==> forall i :: 0 <= i < |fetched.value.data| && Keeps(f)(fetched.value.data[i]) ==> fetched.value.data[i] in r.value
  {
    match fetched
    case None => None
    case Some(p) => Some(Filter(p.data, Keeps(f)))
  }

  /** "All", the initial choice, shows the fetched page unchanged; a status
      button shows exactly that status's items, in order, and the three
      status buttons between them show every item once. */
  lemma ManageFilterFacts(fetched: Paginated<ClientOpportunity>)
    ensures ManageVisible(Some(fetched), InitialFilter) == Some(fetched.data)
    ensures forall s: Status :: Subsequence(ManageVisible(Some(fetched), Only(s)).value, fetched.data)
    ensures |ManageVisible(Some(fetched), Only(Pending)).value| + |ManageVisible(Some(fetched), Only(Approved)).value|
      + |ManageVisible(Some(fetched), Only(Closed)).value| == |fetched.data|
  {
    var d := fetched.data;
    FilterAll(d, Keeps(All));
    forall s: Status ensures Subsequence(ManageVisible(Some(fetched), Only(s)).value, d) {
      FilterIsSubsequence(d, Keeps(Only(s)));
    }
    CountPartition3(d, Keeps(All), Keeps(Only(Pending)), Keeps(Only(Approved)), Keeps(Only(Closed)));
  }
}

=== FILE: domain.dfy ===
/** The stored records of the backend: users and opportunities, the closed
    role and status enumerations, the two-collection store, the HTTP error
    replies, and the store lookups the controllers perform. */
module Domain {
  import opened Wrappers
  import opened Seqs

  /** A store-generated document id; ids are ordered as Mongo orders ObjectIds. */
  type Id = nat

  /** An instant, in milliseconds (`new Date()` is passed in, never read). */
  type Timestamp = int

  datatype Role = Admin | Organizer | Player

  datatype Status = Pending | Approved | Closed

  datatype UserStatus = Active | Inactive

  function RoleName(r: Role): string
  {
    match r
    case Admin => "admin"
    case Organizer => "organizer"
    case Player => "player"
  }

  function StatusName(s: Status): string
  {
    match s
    case Pending => "pending"
    case Approved => "approved"
    case Closed => "closed"
  }

  /** Membership of a request value in `['pending', 'approved', 'closed']`. */
  function ParseStatus(s: string): (r: Option<Status>)
    ensures r.Some? ==> StatusName(r.value) == s
    ensures r.None? ==> forall t: Status :: StatusName(t) != s
    ensures r.Some? <==> s == "pending" || s == "approved" || s == "closed"
  {
    if s == "pending" then Some(Pending)
    else if s == "approved" then Some(Approved)
    else if s == "closed" then Some(Closed)
    else None
  }

  /** Every status name is accepted and read back as itself. */
  lemma ParseStatusName(t: Status)
    ensures ParseStatus(StatusName(t)) == Some(t)
  {
  }

  /** A user document. `passwordHash` is stored but never leaves the store. */
  datatype User = User(
    id: Id,
    name: string,
    email: string,
    passwordHash: string,
    role: Role,
    status: UserStatus,
    isDeleted: bool,
    deletedAt: Option<Timestamp>,
    createdAt: Timestamp)

  /** The soft-delete invariant: a user is marked deleted exactly when it carries a deletion time. */
  predicate DeletionConsistent(u: User)
  {
    u.isDeleted <==> u.deletedAt.Some?
  }

  /** An opportunity document. `title`, `description` and `organizerId` are
      required by the schema; `location`, `eventDate` and `capacity` are
      optional; `status` is confined to the enumeration and defaults to
      pending; the membership arrays are plain arrays of user ids, which the
      schema does not deduplicate; `createdAt`/`updatedAt` are maintained by
      the schema's timestamps. */
  datatype Opportunity = Opportunity(
    id: Id,
    title: string,
    description: string,
    location: Option<string>,
    eventDate: Option<Timestamp>,
    capacity: Option<int>,
    organizerId: Id,
    status: Status,
    registeredPlayers: seq<Id>,
    joinedPlayers: seq<Id>,
    createdAt: Timestamp,
    updatedAt: Timestamp)

  /** The document store: the users and opportunities collections, in store order. */
  datatype Db = Db(users: seq<User>, opportunities: seq<Opportunity>)

  /** An HTTP error reply: status code and the `message`/`error` text of its JSON body. */
  datatype HttpError = HttpError(code: nat, message: string)

  /** The generic reply of every handler's `catch` block. */
  const ServerError := HttpError(500, "Server error")

  /** The reply of a handler that may write: the store afterwards, and the body. */
  datatype Reply<T> = Reply(db: Db, body: Result<T, HttpError>)

  /** `findById`: the first user with this id, deleted or not. */
  function UserById(users: seq<User>, id: Id): (r: Option<User>)
    ensures r.Some? ==> r.value in users && r.value.id == id
    ensures r.None? ==> forall i :: 0 <= i < |users| ==> users[i].id != id
  {
    Find(users, (u: User) => u.id == id)
  }

  /** `findOne({ _id: id, role })`: the first user with this id and role; deletion is not consulted. */
  function UserWithRole(users: seq<User>, id: Id, role: Role): (r: Option<User>)
    ensures r.Some? ==> r.value in users && r.value.id == id && r.value.role == role
    ensures r.None? ==> forall i :: 0 <= i < |users| ==> !(users[i].id == id && users[i].role == role)
  {
    Find(users, (u: User) => u.id == id && u.role == role)
  }

  /** `findOne({ _id: id, isDeleted: false })`: the first live user with this id. */
  function LiveUserById(users: seq<User>, id: Id): (r: Option<User>)
    ensures r.Some? ==> r.value in users && r.value.id == id && !r.value.isDeleted
    ensures r.None? ==> forall i :: 0 <= i < |users| ==> !(users[i].id == id && !users[i].isDeleted)
  {
    Find(users, (u: User) => u.id == id && !u.isDeleted)
  }

  /** Position of `findById(id)` in the opportunities collection. */
  function OpportunityIndex(opps: seq<Opportunity>, id: Id): (r: Option<nat>)
    ensures r.Some? ==> r.value < |opps| && opps[r.value].id == id
    ensures r.Some? ==> forall j :: 0 <= j < r.value ==> opps[j].id != id
    ensures r.None? ==> forall j :: 0 <= j < |opps| ==> opps[j].id != id
  {
    FirstIndex(opps, (o: Opportunity) => o.id == id)
  }

  /** Position of `User.findById(id)` in the users collection. */
  function UserIndex(users: seq<User>, id: Id): (r: Option<nat>)
    ensures r.Some? ==> r.value < |users| && users[r.value].id == id
    ensures r.Some? ==> forall j :: 0 <= j < r.value ==> users[j].id != id
    ensures r.None? ==> forall j :: 0 <= j < |users| ==> users[j].id != id
  {
    FirstIndex(users, (u: User) => u.id == id)
  }

  /** No two documents of a collection share an id, as the store guarantees. */
  ghost predicate UniqueOpportunityIds(opps: seq<Opportunity>)
  {
    forall i, j :: 0 <= i < j < |opps| ==> opps[i].id != opps[j].id
  }

  /** A sequence with no repeated element (the intended shape of a membership array). */
  ghost predicate NoDuplicates(s: seq<Id>)
  {
    forall i, j :: 0 <= i < j < |s| ==> s[i] != s[j]
  }
}

=== FILE: mock_services.dfy ===
/** The browser's stand-in services: fixed generated lists, filtered and
    sliced into pages. `now` stands for every `new Date().toISOString()`;
    the lists are rebuilt on each call, so the update, delete and join
    stand-ins, which only log, cannot change what a later call returns. */
module MockServices {
  import opened Wrappers
  import opened Seqs
  import opened Text
  import opened Pagination
  import opened Domain
  import opened ClientTypes

  /** Elements whose position has residue `k` modulo 3 are counted. */
  lemma {:induction false} CountByResidue<T>(s: seq<T>, p: T -> bool, k: nat, n: nat)
    requires k < 3 && n <= |s|
    requires forall i :: 0 <= i < |s| ==> (p(s[i]) <==> i % 3 == k)
    ensures Count(s[..n], p) == (n + 2 - k) / 3
    decreases n
  {
    if n > 0 {
      CountByResidue(s, p, k, n - 1);
      assert s[..n] == s[..n - 1] + [s[n - 1]];
      FilterAppend(s[..n - 1], [s[n - 1]], p);
      assert |Filter([s[n - 1]], p)| == if p(s[n - 1]) then 1 else 0 by {
        assert [s[n - 1]][1..] == [];
      }
      ResidueStep(n, k);
    }
  }

  lemma ResidueStep(n: nat, k: nat)
    requires k < 3 && n >= 1
    ensures (n + 2 - k) / 3 == (n + 1 - k) / 3 + (if (n - 1) % 3 == k then 1 else 0)
  {
  }

  /** `statuses[i % 3]`. */
  function StatusCycle(i: nat): (s: Status)
    ensures i % 3 == 0 <==> s == Pending
    ensures i % 3 == 1 <==> s == Approved
    ensures i % 3 == 2 <==> s == Closed
  {
    if i % 3 == 0 then Pending else if i % 3 == 1 then Approved else Closed
  }

  function MockOrganizer(i: nat, now: string): ClientUser
  {
    var n := NatToString(i + 1);
    ClientUser("org_" + n, "Organizer " + n, "organizer" + n + "@example.com", Organizer, Active, false, None, now)
  }

  function MockOpportunity(i: nat, now: string): ClientOpportunity
  {
    var n := NatToString(i + 1);
    var organizer := MockOrganizer(i % 10, now);
    ClientOpportunity(n, "Opportunity " + n, "Description for opportunity " + n, None, None, None,
                      organizer.id, organizer, StatusCycle(i), now, now)
  }

  const MockOpportunityCount := 40

  function MockOpportunities(now: string): (r: seq<ClientOpportunity>)
    ensures |r| == MockOpportunityCount
    ensures forall i :: 0 <= i < |r| ==> r[i] == MockOpportunity(i, now)
  {
    seq(MockOpportunityCount, i requires 0 <= i < MockOpportunityCount => MockOpportunity(i, now))
  }

  /** An absent status keeps the whole list. */
  function ByStatus(status: Option<Status>): ClientOpportunity -> bool
  {
    (o: ClientOpportunity) => status.None? || o.status == status.value
  }

  /** `getOpportunities(page, limit, status)`. */
  function MockGetOpportunities(page: nat, limit: nat, status: Option<Status>, now: string): (r: Paginated<ClientOpportunity>)
    requires page >= 1 && limit >= 1
    ensures var s := Filter(MockOpportunities(now), ByStatus(status));
      && r.meta == Meta(|s|, page, limit)
      && r.data == PageOf(s, page, limit)
      && |r.data| <= limit
      && (forall k :: 0 <= k < |r.data| ==> Skip(page, limit) + k < |s| && r.data[k] == s[Skip(page, limit) + k])
      && (status.Some? ==> forall k :: 0 <= k < |r.data| ==> r.data[k].status == status.value)
  {
    Paginate(Filter(MockOpportunities(now), ByStatus(status)), page, limit)
  }

  /** The 40 generated opportunities split 14 / 13 / 13 over the three statuses. */
  lemma MockStatusCounts(now: string)
    ensures Count(MockOpportunities(now), HasStatus(Pending)) == 14
    ensures Count(MockOpportunities(now), HasStatus(Approved)) == 13
    ensures Count(MockOpportunities(now), HasStatus(Closed)) == 13
  {
    var s := MockOpportunities(now);
    CountByResidue(s, HasStatus(Pending), 0, 40);
    CountByResidue(s, HasStatus(Approved), 1, 40);
    CountByResidue(s, HasStatus(Closed), 2, 40);
    assert s[..|s|] == s;
  }

  /** A status filter keeps exactly the items of that status, in order,
      and its total is that status's count. */
  lemma MockStatusFilter(now: string, status: Status, page: nat, limit: nat)
    requires page >= 1 && limit >= 1
    ensures var s := Filter(MockOpportunities(now), ByStatus(Some(status)));
      && Subsequence(s, MockOpportunities(now))
      && MockGetOpportunities(page, limit, Some(status), now).meta.total == Count(MockOpportunities(now), HasStatus(status))
  {
    FilterIsSubsequence(MockOpportunities(now), ByStatus(Some(status)));
    SamePredicateSameFilter(MockOpportunities(now), ByStatus(Some(status)), HasStatus(status));
  }

  lemma {:induction false} SamePredicateSameFilter<T>(s: seq<T>, p: T -> bool, q: T -> bool)
    requires forall i :: 0 <= i < |s| ==> (p(s[i]) <==> q(s[i]))
    ensures Filter(s, p) == Filter(s, q)
    decreases |s|
  {
    if |s| > 0 {
      SamePredicateSameFilter(s[1..], p, q);
    }
  }

  /** Without a filter every page is a slice of the 40 items, and past the
      last page the slice is empty. */
  lemma MockPagesPastTheEnd(now: string, page: nat, limit: nat)
    requires page >= 1 && limit >= 1
    requires page > CeilDiv(MockOpportunityCount, limit)
    ensures MockGetOpportunities(page, limit, None, now).data == []
    ensures MockGetOpportunities(page, limit, None, now).meta.total == MockOpportunityCount
  {
    var s := MockOpportunities(now);
    FilterAll(s, ByStatus(None));
    PageSizes(s, page, limit);
  }

  /** The draft the create form sends: every field may be missing. */
  datatype OpportunityDraft = OpportunityDraft(
    title: Option<string>,
    description: Option<string>,
    location: Option<string>,
    eventDate: Option<string>,
    capacity: Option<int>,
    organizerId: Option<string>)

  /** `value || fallback` for a string: missing and empty are both falsy. */
  function OrText(v: Option<string>, fallback: string): (r: string)
    ensures v.Some? && v.value != "" ==> r == v.value
    ensures v.None? || v.value == "" ==> r == fallback
  {
    if v.Some? && v.value != "" then v.value else fallback
  }

  /** `value || fallback` for a number: missing and zero are both falsy. */
  function OrNumber(v: Option<int>, fallback: int): (r: int)
    ensures v.Some? && v.value != 0 ==> r == v.value
    ensures v.None? || v.value == 0 ==> r == fallback
  {
    if v.Some? && v.value != 0 then v.value else fallback
  }

  const MockOrganizerUser := ClientUser("2", "Organizer User", "organizer@arc.com", Organizer, Active, false, None, "")

  /** `createOpportunity(data)`; `id` stands for the random id. */
  function MockCreateOpportunity(data: OpportunityDraft, id: string, now: string): (r: ClientOpportunity)
    ensures r.status == Pending && r.id == id
    ensures r.title == OrText(data.title, "") && r.description == OrText(data.description, "")
    ensures r.location == Some(OrText(data.location, ""))
    ensures r.eventDate == Some(OrText(data.eventDate, now))
    ensures r.capacity == Some(OrNumber(data.capacity, 10))
    ensures r.organizerId == OrText(data.organizerId, "2")
    ensures r.organizer.id == "2" && r.organizer.role == Organizer
  {
    ClientOpportunity(id, OrText(data.title, ""), OrText(data.description, ""), Some(OrText(data.location, "")),
                      Some(OrText(data.eventDate, now)), Some(OrNumber(data.capacity, 10)),
                      OrText(data.organizerId, "2"), MockOrganizerUser.(createdAt := now), Pending, now, now)
  }

  /** An empty draft gets every default. */
  lemma MockCreateDefaults(id: string, now: string)
    ensures var r := MockCreateOpportunity(OpportunityDraft(None, None, None, None, None, None), id, now);
      r.title == "" && r.description == "" && r.capacity == Some(10) && r.organizerId == "2" && r.status == Pending
  {
  }

  /** `i % 3 === 0 ? 'admin' : i % 3 === 1 ? 'organizer' : 'player'`. */
  function RoleCycle(i: nat): (r: Role)
    ensures i % 3 == 0 <==> r == Admin
    ensures i % 3 == 1 <==> r == Organizer
    ensures i % 3 == 2 <==> r == Player
  {
    if i % 3 == 0 then Admin else if i % 3 == 1 then Organizer else Player
  }

  function MockUser(i: nat, now: string): ClientUser
  {
    var n := NatToString(i + 1);
    ClientUser(n, "User " + n, "user" + n + "@example.com", RoleCycle(i), Active,
               i % 10 == 0, if i % 10 == 0 then Some(now) else None, now)
  }

  const MockUserCount := 50

  function MockUsers(now: string): (r: seq<ClientUser>)
    ensures |r| == MockUserCount
    ensures forall i :: 0 <= i < |r| ==> r[i] == MockUser(i, now)
  {
    seq(MockUserCount, i requires 0 <= i < MockUserCount => MockUser(i, now))
  }

  function ByRole(role: Option<Role>): ClientUser -> bool
  {
    (u: ClientUser) => role.None? || u.role == role.value
  }

  /** `getUsers(page, limit, role)`: unlike the backend, deleted users stay in. */
  function MockGetUsers(page: nat, limit: nat, role: Option<Role>, now: string): (r: Paginated<ClientUser>)
    requires page >= 1 && limit >= 1
    ensures var s := Filter(MockUsers(now), ByRole(role));
      && r.meta == Meta(|s|, page, limit)
      && r.data == PageOf(s, page, limit)
      && |r.data| <= limit
      && (forall k :: 0 <= k < |r.data| ==> Skip(page, limit) + k < |s| && r.data[k] == s[Skip(page, limit) + k])
      && (role.Some? ==> forall k :: 0 <= k < |r.data| ==> r.data[k].role == role.value)
  {
    Paginate(Filter(MockUsers(now), ByRole(role)), page, limit)
  }

  /** Every generated user is deleted exactly when it carries a deletion date. */
  lemma MockUsersConsistent(now: string)
    ensures forall i :: 0 <= i < |MockUsers(now)| ==> (MockUsers(now)[i].isDeleted <==> MockUsers(now)[i].deletedAt.Some?)
  {
  }

  /** The 50 generated users split 17 / 17 / 16 over admin, organizer and player. */
  lemma MockRoleCounts(now: string)
    ensures Count(MockUsers(now), HasRole(Admin)) == 17
    ensures Count(MockUsers(now), HasRole(Organizer)) == 17
    ensures Count(MockUsers(now), HasRole(Player)) == 16
  {
    var s := MockUsers(now);
    CountByResidue(s, HasRole(Admin), 0, 50);
    CountByResidue(s, HasRole(Organizer), 1, 50);
    CountByResidue(s, HasRole(Player), 2, 50);
    assert s[..|s|] == s;
  }

  /** The first admin page starts with user 1, who is marked deleted. */
  lemma MockAdminFilterKeepsDeleted(now: string)
    ensures MockGetUsers(1, 10, Some(Admin), now).data[0].isDeleted
  {
    var s := MockUsers(now);
    assert ByRole(Some(Admin))(s[0]);
    assert Filter(s, ByRole(Some(Admin)))[0] == s[0];
  }

  const MockJoinedCount := 5

  function MockJoinedOpportunity(i: nat, now: string): ClientOpportunity
  {
    var n := NatToString(i + 1);
    var organizer := MockOrganizerUser.(createdAt := now);
    ClientOpportunity(n, "Joined Opportunity " + n, "Description for joined opportunity " + n, None, None, None,
                      "2", organizer, Approved, now, now)
  }

  function MockJoined(now: string): (r: seq<ClientOpportunity>)
    ensures |r| == MockJoinedCount
    ensures forall i :: 0 <= i < |r| ==> r[i] == MockJoinedOpportunity(i, now)
  {
    seq(MockJoinedCount, i requires 0 <= i < MockJoinedCount => MockJoinedOpportunity(i, now))
  }

  /** `getPlayerJoinedOpportunities(playerId, page, limit)`: the player id is not consulted. */
  function MockGetJoined(playerId: string, page: nat, limit: nat, now: string): (r: Paginated<ClientOpportunity>)
    requires page >= 1 && limit >= 1
    ensures r.meta == PageMeta(MockJoinedCount, page, limit, CeilDiv(MockJoinedCount, limit))
    ensures r.data == PageOf(MockJoined(now), page, limit)
    ensures |r.data| <= limit
    ensures forall k :: 0 <= k < |r.data| ==> r.data[k].status == Approved
    ensures forall k :: 0 <= k < |r.data| ==> Skip(page, limit) + k < MockJoinedCount && r.data[k] == MockJoined(now)[Skip(page, limit) + k]
  {
    Paginate(MockJoined(now), page, limit)
  }
}

=== FILE: opportunity_controller.dfy ===
/** The opportunity handlers: the status-filtered list and count, lookup by
    id, creation (always pending) and the admin status update. The list is in
    store order: the handler builds a `createdAt` sort option but never passes
    it to the query. */
module OpportunityController {
  import opened Wrappers
  import opened Seqs
  import opened Text
  import opened Pagination
  import opened Domain
  import opened Views

  /** The `status` query filter: absent or empty means every status; any
      other string must equal the stored status name, so an unknown value
      matches nothing. */
  function MatchesStatus(status: Option<string>): Opportunity -> bool
  {
    (o: Opportunity) => status.None? || status.value == "" || StatusName(o.status) == status.value
  }

  /** The opportunities the list and the count both select: those matching
      the filter, in store order. */
  function Selected(db: Db, status: Option<string>): (r: seq<Opportunity>)
    ensures status.None? || status.value == "" ==> r == db.opportunities
    ensures forall o :: o in r <==> o in db.opportunities && MatchesStatus(status)(o)
    ensures Subsequence(r, db.opportunities)
    ensures |r| == Count(db.opportunities, MatchesStatus(status))
  {
    var r := Filter(db.opportunities, MatchesStatus(status));
    FilterIsSubsequence(db.opportunities, MatchesStatus(status));
    if status.None? || status.value == "" then
      FilterAll(db.opportunities, MatchesStatus(status));
      r
    else r
  }

  /** GET /opportunities: one page of the selected opportunities, each
      projected with its organizer, with the total over the whole selection.
      A page holding an opportunity whose organizer is gone is a 500. */
  function GetOpportunities(db: Db, status: Option<string>, q: PageQuery): (r: Result<Paginated<OpportunityView>, HttpError>)
    requires ValidQuery(q)
    ensures r.Ok? <==> forall k :: 0 <= k < |PageOf(Selected(db, status), PageNumber(q), PageLimit(q))| ==>
      UserById(db.users, PageOf(Selected(db, status), PageNumber(q), PageLimit(q))[k].organizerId).Some?
    ensures r.Err? ==> r.error == ServerError
    ensures r.Ok? ==> r.value.meta == Meta(|Selected(db, status)|, PageNumber(q), PageLimit(q))
    ensures r.Ok? ==> |r.value.data| == |PageOf(Selected(db, status), PageNumber(q), PageLimit(q))|
    ensures r.Ok? ==> forall k :: 0 <= k < |r.value.data| ==>
      Project(db.users, PageOf(Selected(db, status), PageNumber(q), PageLimit(q))[k]) == Some(r.value.data[k])
  {
    var selected := Selected(db, status);
    var page := PageOf(selected, PageNumber(q), PageLimit(q));
    match ProjectAll(db.users, page)
    case Err(e) => Err(e)
    case Ok(data) => Ok(Paginated(data, Meta(|selected|, PageNumber(q), PageLimit(q))))
  }

  /** When every selected opportunity has its organizer, each page of the
      list is that page of the projected selection. */
  lemma ListPage(db: Db, status: Option<string>, q: PageQuery)
    requires ValidQuery(q)
    requires ProjectAll(db.users, Selected(db, status)).Ok?
    ensures GetOpportunities(db, status, q).Ok?
    ensures GetOpportunities(db, status, q).value.data ==
      PageOf(ProjectAll(db.users, Selected(db, status)).value, PageNumber(q), PageLimit(q))
  {
    ProjectAllPage(db.users, Selected(db, status), PageNumber(q), PageLimit(q));
  }

  /** Every page of the list is the matching slice of the projected
      selection, and the slices of pages 1 to `totalPages` laid end to end
      are the whole projected selection, in store order. */
  lemma ListPagesCoverSelection(db: Db, status: Option<string>, limit: nat)
    requires limit >= 1
    requires ProjectAll(db.users, Selected(db, status)).Ok?
    ensures forall n: nat :: n >= 1 ==>
      && GetOpportunities(db, status, PageQuery(Some(n), Some(limit))).Ok?
      && GetOpportunities(db, status, PageQuery(Some(n), Some(limit))).value.data
           == PageOf(ProjectAll(db.users, Selected(db, status)).value, n, limit)
    ensures PagesUpTo(ProjectAll(db.users, Selected(db, status)).value, limit,
                      CeilDiv(|Selected(db, status)|, limit))
      == ProjectAll(db.users, Selected(db, status)).value
  {
    var all := ProjectAll(db.users, Selected(db, status)).value;
    forall n: nat | n >= 1
      ensures GetOpportunities(db, status, PageQuery(Some(n), Some(limit))).Ok?
      ensures GetOpportunities(db, status, PageQuery(Some(n), Some(limit))).value.data == PageOf(all, n, limit)
    {
      ListPage(db, status, PageQuery(Some(n), Some(limit)));
    }
    PagesCoverAll(all, limit);
  }

  /** GET /opportunities/counts: `{count}` for the same filter. */
  function GetOpportunityCount(db: Db, status: Option<string>): (r: nat)
    ensures r == Count(db.opportunities, MatchesStatus(status))
    ensures r <= |db.opportunities|
    ensures status.None? || status.value == "" ==> r == |db.opportunities|
  {
    |Selected(db, status)|
  }

  /** The count agrees with the total the list reports, for every page. */
  lemma CountMatchesListTotal(db: Db, status: Option<string>, q: PageQuery)
    requires ValidQuery(q)
    requires GetOpportunities(db, status, q).Ok?
    ensures GetOpportunityCount(db, status) == GetOpportunities(db, status, q).value.meta.total
  {
  }

  /** GET /opportunities/:id: the stored record projected with its
      organizer; 404 when no record has the id, 500 when its organizer is gone. */
  function GetOpportunityById(db: Db, id: Id): (r: Result<OpportunityView, HttpError>)
    ensures r.Err? && r.error.code == 404 <==> OpportunityIndex(db.opportunities, id).None?
    ensures r.Err? ==> r.error == HttpError(404, "Opportunity not found") || r.error == ServerError
    ensures r.Ok? <==> (OpportunityIndex(db.opportunities, id).Some? &&
      Project(db.users, db.opportunities[OpportunityIndex(db.opportunities, id).value]).Some?)
    ensures r.Ok? ==> Some(r.value) == Project(db.users, db.opportunities[OpportunityIndex(db.opportunities, id).value])
    ensures r.Ok? ==> r.value.id == id
  {
    match OpportunityIndex(db.opportunities, id)
    case None => Err(HttpError(404, "Opportunity not found"))
    case Some(i) =>
      match Project(db.users, db.opportunities[i])
      case None => Err(ServerError)
      case Some(v) => Ok(v)
  }

  /** The JSON body of POST /opportunities, already read as the schema's
      types; `None` stands for an absent field. Empty text and zero are kept
      as given, except for `organizerId`, which the handler replaces by the
      caller's id when it is falsy, so an empty `organizerId` is `None` too. */
  datatype CreateBody = CreateBody(
    title: Option<string>,
    description: Option<string>,
    location: Option<string>,
    eventDate: Option<Timestamp>,
    capacity: Option<int>,
    organizerId: Option<Id>)

  /** The 201 body: the stored record and the organizer snapshot, `null`
      (`None`) when no user has the organizer id. Here the snapshot's
      createdAt is the organizer's own. */
  datatype CreatedOpportunity = CreatedOpportunity(opportunity: Opportunity, organizer: Option<OrganizerSnapshot>)

  /** The organizer the new opportunity is filed under: the body's, else the caller's. */
  function OwnerOf(body: CreateBody, caller: User): Id
  {
    body.organizerId.GetOr(caller.id)
  }

  /** The schema's `required` check after trimming the title: an absent or
      empty title or description fails `save`, which the handler answers with 500. */
  predicate PassesSchema(body: CreateBody)
  {
    body.title.Some? && Trim(body.title.value) != "" && body.description.Some? && body.description.value != ""
  }

  /** POST /opportunities. `newId` is the id the store assigns and `now` the clock. */
  function CreateOpportunity(db: Db, caller: User, body: CreateBody, newId: Id, now: Timestamp): (r: Reply<CreatedOpportunity>)
    ensures r.body.Ok? <==> PassesSchema(body)
    ensures r.body.Err? ==> r.db == db && r.body.error == ServerError
    ensures r.body.Ok? ==>
      var o := r.body.value.opportunity;
      && r.db == db.(opportunities := db.opportunities + [o])
      && o.id == newId && o.status == Pending
      && o.registeredPlayers == [] && o.joinedPlayers == []
      && o.title == Trim(body.title.value) && o.description == body.description.value
      && o.location == body.location && o.eventDate == body.eventDate && o.capacity == body.capacity
      && (body.organizerId.Some? ==> o.organizerId == body.organizerId.value)
      && (body.organizerId.None? ==> o.organizerId == caller.id)
      && o.createdAt == now && o.updatedAt == now
    ensures r.body.Ok? ==>
      (r.body.value.organizer.Some? <==> UserById(db.users, OwnerOf(body, caller)).Some?)
    ensures r.body.Ok? && UserById(db.users, OwnerOf(body, caller)).Some? ==>
      var u := UserById(db.users, OwnerOf(body, caller)).value;
      r.body.value.organizer == Some(OrganizerSnapshot(u.id, u.name, u.email, u.role, Active, false, u.createdAt))
  {
    if !PassesSchema(body) then Reply(db, Err(ServerError))
    else
      var o := Opportunity(newId, Trim(body.title.value), body.description.value, body.location,
                           body.eventDate, body.capacity, OwnerOf(body, caller), Pending, [], [], now, now);
      var organizer := match UserById(db.users, o.organizerId)
        case None => None
        case Some(u) => Some(OrganizerSnapshot(u.id, u.name, u.email, u.role, Active, false, u.createdAt));
      Reply(db.(opportunities := db.opportunities + [o]), Ok(CreatedOpportunity(o, organizer)))
  }

  const InvalidStatus := HttpError(400, "Invalid status value")
  const OpportunityNotFound := HttpError(404, "Opportunity not found")

  /** PATCH /opportunities/:id/status. The value is checked against the
      enumeration before any lookup; a valid value overwrites the status
      whatever it was. `updatedAt` moves only when the status actually
      changes, since an unmodified document is not re-stamped. */
  function UpdateOpportunityStatus(db: Db, id: Id, status: Option<string>, now: Timestamp): (r: Reply<string>)
    ensures status.None? || ParseStatus(status.value).None? ==> r == Reply(db, Err(InvalidStatus))
    ensures status.Some? && ParseStatus(status.value).Some? && OpportunityIndex(db.opportunities, id).None? ==>
      r == Reply(db, Err(OpportunityNotFound))
    ensures r.body.Ok? <==> status.Some? && ParseStatus(status.value).Some? && OpportunityIndex(db.opportunities, id).Some?
    ensures r.body.Err? ==> r.db == db
    ensures r.body.Ok? ==>
      var i := OpportunityIndex(db.opportunities, id).value;
      var o := db.opportunities[i];
      && r.db.users == db.users
      && |r.db.opportunities| == |db.opportunities|
      && r.db.opportunities[i].status == ParseStatus(status.value).value
      && StatusName(r.db.opportunities[i].status) == status.value
      && r.db.opportunities[i].(status := o.status, updatedAt := o.updatedAt) == o
      && r.db.opportunities[i].updatedAt == (if o.status == ParseStatus(status.value).value then o.updatedAt else now)
      && (forall j :: 0 <= j < |db.opportunities| && j != i ==> r.db.opportunities[j] == db.opportunities[j])
  {
    if status.None? then Reply(db, Err(InvalidStatus))
    else match ParseStatus(status.value)
      case None => Reply(db, Err(InvalidStatus))
      case Some(s) =>
        match OpportunityIndex(db.opportunities, id)
        case None => Reply(db, Err(OpportunityNotFound))
        case Some(i) =>
          var o := db.opportunities[i];
          var o' := o.(status := s, updatedAt := if o.status == s then o.updatedAt else now);
          Reply(db.(opportunities := db.opportunities[i := o']), Ok("Opportunity status updated successfully"))
  }

  /** A created opportunity can be fetched by its new id straight away, and the
      reply is the created record with its organizer's view. */
  lemma CreateThenGet(db: Db, caller: User, body: CreateBody, newId: Id, now: Timestamp)
    requires OpportunityIndex(db.opportunities, newId).None?
    requires PassesSchema(body)
    requires UserById(db.users, OwnerOf(body, caller)).Some?
    ensures var c := CreateOpportunity(db, caller, body, newId, now);
      && c.body.Ok?
      && var g := GetOpportunityById(c.db, newId);
      && g.Ok? && Some(g.value) == Project(db.users, c.body.value.opportunity)
  {
    var c := CreateOpportunity(db, caller, body, newId, now);
    var o := c.body.value.opportunity;
    var opps := c.db.opportunities;
    assert opps[|db.opportunities|] == o;
    var i := OpportunityIndex(opps, newId);
    assert i.Some?;
  }

  /** Creation under an id no stored opportunity has keeps the ids unique. */
  lemma CreatePreservesUniqueIds(db: Db, caller: User, body: CreateBody, newId: Id, now: Timestamp)
    requires UniqueOpportunityIds(db.opportunities)
    requires OpportunityIndex(db.opportunities, newId).None?
    ensures UniqueOpportunityIds(CreateOpportunity(db, caller, body, newId, now).db.opportunities)
  {
    var r := CreateOpportunity(db, caller, body, newId, now);
    if r.body.Ok? {
      var opps := r.db.opportunities;
      var n := |db.opportunities|;
      forall i, j | 0 <= i < j < |opps| ensures opps[i].id != opps[j].id {
        assert opps[i] == db.opportunities[i];
        if j < n { assert opps[j] == db.opportunities[j]; }
      }
    }
  }

  /** A status update never changes an id, so ids stay unique. */
  lemma UpdateStatusPreservesUniqueIds(db: Db, id: Id, status: Option<string>, now: Timestamp)
    requires UniqueOpportunityIds(db.opportunities)
    ensures UniqueOpportunityIds(UpdateOpportunityStatus(db, id, status, now).db.opportunities)
  {
    var r := UpdateOpportunityStatus(db, id, status, now);
    if r.body.Ok? {
      var i := OpportunityIndex(db.opportunities, id).value;
      var opps := r.db.opportunities;
      forall a | 0 <= a < |opps| ensures opps[a].id == db.opportunities[a].id {
        if a == i {
          var o := db.opportunities[i];
          assert opps[i].(status := o.status, updatedAt := o.updatedAt) == o;
        }
      }
    }
  }

  /** The admin may move an opportunity between any two statuses, in either direction. */
  lemma AnyTransitionAllowed(db: Db, id: Id, from: Status, to: Status, now: Timestamp)
    requires OpportunityIndex(db.opportunities, id).Some?
    requires db.opportunities[OpportunityIndex(db.opportunities, id).value].status == from
    ensures var r := UpdateOpportunityStatus(db, id, Some(StatusName(to)), now);
      r.body.Ok? && r.db.opportunities[OpportunityIndex(db.opportunities, id).value].status == to
  {
    ParseStatusName(to);
  }
}

=== FILE: organizer_controller.dfy ===
/** The organizer handlers: the organizer's opportunities of every status,
    in store order, and the dashboard counts with the five most recently
    created. Both answer 404 unless the id names a user with role organizer. */
module OrganizerController {
  import opened Wrappers
  import opened Seqs
  import opened Pagination
  import opened Domain
  import opened Views

  const OrganizerNotFound := HttpError(404, "Organizer not found")

  predicate IsOrganizer(db: Db, organizerId: Id)
  {
    UserWithRole(db.users, organizerId, Organizer).Some?
  }

  function OwnedBy(organizerId: Id): Opportunity -> bool
  {
    (o: Opportunity) => o.organizerId == organizerId
  }

  function OwnedWithStatus(organizerId: Id, s: Status): Opportunity -> bool
  {
    (o: Opportunity) => o.organizerId == organizerId && o.status == s
  }

  /** The organizer's opportunities of every status, in store order. */
  function OwnedList(db: Db, organizerId: Id): (r: seq<Opportunity>)
    ensures |r| == Count(db.opportunities, OwnedBy(organizerId))
    ensures forall i :: 0 <= i < |r| ==> r[i].organizerId == organizerId && r[i] in db.opportunities
    ensures forall o :: o in db.opportunities && o.organizerId == organizerId ==> o in r
  {
    Filter(db.opportunities, OwnedBy(organizerId))
  }

  /** A verified organizer is a user that `findById` finds. */
  lemma OrganizerIsUser(db: Db, organizerId: Id)
    requires IsOrganizer(db, organizerId)
    ensures UserById(db.users, organizerId).Some?
  {
    var u := UserWithRole(db.users, organizerId, Organizer).value;
    var k :| 0 <= k < |db.users| && db.users[k] == u;
  }

  /** GET /organizers/:organizerId/opportunities. Every listed opportunity
      has the verified organizer as its populated organizer, so the
      projection cannot fail here. */
  function GetOrganizerOpportunities(db: Db, organizerId: Id, q: PageQuery): (r: Result<Paginated<OpportunityView>, HttpError>)
    requires ValidQuery(q)
    ensures r.Err? <==> !IsOrganizer(db, organizerId)
    ensures r.Err? ==> r.error == OrganizerNotFound
    ensures r.Ok? ==> r.value.meta == Meta(Count(db.opportunities, OwnedBy(organizerId)), PageNumber(q), PageLimit(q))
    ensures r.Ok? ==> |r.value.data| <= PageLimit(q)
    ensures r.Ok? ==> |r.value.data| == |PageOf(OwnedList(db, organizerId), PageNumber(q), PageLimit(q))|
    ensures r.Ok? ==> forall k :: 0 <= k < |r.value.data| ==>
      Project(db.users, PageOf(OwnedList(db, organizerId), PageNumber(q), PageLimit(q))[k]) == Some(r.value.data[k])
    ensures r.Ok? ==> forall k :: 0 <= k < |r.value.data| ==>
      var i := Skip(PageNumber(q), PageLimit(q)) + k;
      var s := OwnedList(db, organizerId);
      && i < |s| && r.value.data[k].id == s[i].id && r.value.data[k].organizerId == organizerId
  {
    if !IsOrganizer(db, organizerId) then Err(OrganizerNotFound)
    else
      var s := OwnedList(db, organizerId);
      var page := PageOf(s, PageNumber(q), PageLimit(q));
      OrganizerIsUser(db, organizerId);
      match ProjectAll(db.users, page)
      case Err(e) => assert false; Err(e)
      case Ok(data) => Ok(Paginated(data, Meta(|s|, PageNumber(q), PageLimit(q))))
  }

  /** Every opportunity of a verified organizer projects. */
  lemma OwnedListProjects(db: Db, organizerId: Id)
    requires IsOrganizer(db, organizerId)
    ensures ProjectAll(db.users, OwnedList(db, organizerId)).Ok?
  {
    OrganizerIsUser(db, organizerId);
  }

  /** Each page of the organizer's list is that page of the projected list. */
  lemma OrganizerListPage(db: Db, organizerId: Id, q: PageQuery)
    requires ValidQuery(q)
    requires IsOrganizer(db, organizerId)
    ensures ProjectAll(db.users, OwnedList(db, organizerId)).Ok?
    ensures GetOrganizerOpportunities(db, organizerId, q).Ok?
    ensures GetOrganizerOpportunities(db, organizerId, q).value.data ==
      PageOf(ProjectAll(db.users, OwnedList(db, organizerId)).value, PageNumber(q), PageLimit(q))
  {
    OwnedListProjects(db, organizerId);
    ProjectAllPage(db.users, OwnedList(db, organizerId), PageNumber(q), PageLimit(q));
  }

  /** Pages 1 to `totalPages` of the organizer's list, laid end to end, are
      all the organizer's opportunities, projected, in store order. */
  lemma OrganizerListPagesCover(db: Db, organizerId: Id, limit: nat)
    requires limit >= 1
    requires IsOrganizer(db, organizerId)
    ensures ProjectAll(db.users, OwnedList(db, organizerId)).Ok?
    ensures forall n: nat :: n >= 1 ==>
      && GetOrganizerOpportunities(db, organizerId, PageQuery(Some(n), Some(limit))).Ok?
      && GetOrganizerOpportunities(db, organizerId, PageQuery(Some(n), Some(limit))).value.data
           == PageOf(ProjectAll(db.users, OwnedList(db, organizerId)).value, n, limit)
    ensures PagesUpTo(ProjectAll(db.users, OwnedList(db, organizerId)).value, limit,
                      CeilDiv(Count(db.opportunities, OwnedBy(organizerId)), limit))
      == ProjectAll(db.users, OwnedList(db, organizerId)).value
  {
    OwnedListProjects(db, organizerId);
    var all := ProjectAll(db.users, OwnedList(db, organizerId)).value;
    forall n: nat | n >= 1
      ensures GetOrganizerOpportunities(db, organizerId, PageQuery(Some(n), Some(limit))).Ok?
      ensures GetOrganizerOpportunities(db, organizerId, PageQuery(Some(n), Some(limit))).value.data == PageOf(all, n, limit)
    {
      OrganizerListPage(db, organizerId, PageQuery(Some(n), Some(limit)));
    }
    PagesCoverAll(all, limit);
  }

  /** The projection of a recent opportunity. */
  datatype RecentOpportunity = RecentOpportunity(id: Id, title: string, status: Status, createdAt: Timestamp)

  datatype OrganizerStats = OrganizerStats(
    totalOpportunities: nat,
    pendingOpportunities: nat,
    approvedOpportunities: nat,
    closedOpportunities: nat,
    recentOpportunities: seq<RecentOpportunity>)

  function CreatedKey(o: Opportunity): int
  {
    o.createdAt
  }

  function ToRecentOpportunity(o: Opportunity): RecentOpportunity
  {
    RecentOpportunity(o.id, o.title, o.status, o.createdAt)
  }

  /** `.sort({ createdAt: -1 }).limit(5)` over the organizer's opportunities. */
  function RecentOwned(db: Db, organizerId: Id): seq<Opportunity>
  {
    TopK(Filter(db.opportunities, OwnedBy(organizerId)), CreatedKey, 5)
  }

  lemma RecentOwnedFacts(db: Db, organizerId: Id)
    ensures var top := RecentOwned(db, organizerId);
      var mine := Filter(db.opportunities, OwnedBy(organizerId));
      && |top| == Min(5, |mine|)
      && (forall a, b :: 0 <= a < b < |top| ==> top[a].createdAt >= top[b].createdAt)
      && (forall a :: 0 <= a < |top| ==> top[a] in db.opportunities && top[a].organizerId == organizerId)
  {
    var mine := Filter(db.opportunities, OwnedBy(organizerId));
    var top := RecentOwned(db, organizerId);
    TopKSpec(mine, CreatedKey, 5);
    forall a | 0 <= a < |top| ensures top[a] in db.opportunities && top[a].organizerId == organizerId {
      assert top[a] in multiset(mine);
      var k :| 0 <= k < |mine| && mine[k] == top[a];
    }
    forall a, b | 0 <= a < b < |top| ensures top[a].createdAt >= top[b].createdAt {
      assert CreatedKey(top[a]) >= CreatedKey(top[b]);
    }
  }

  /** The recent list holds the organizer's newest opportunities: none left
      out was created after one shown. */
  lemma RecentAreNewest(db: Db, organizerId: Id)
    ensures var top := RecentOwned(db, organizerId);
      var mine := Filter(db.opportunities, OwnedBy(organizerId));
      forall x, y :: x in multiset(mine) - multiset(top) && y in top ==> x.createdAt <= y.createdAt
  {
    TopKSpec(Filter(db.opportunities, OwnedBy(organizerId)), CreatedKey, 5);
  }

  /** The five most recently created, newest first, projected to id, title, status and createdAt. */
  function RecentOpportunities(db: Db, organizerId: Id): (r: seq<RecentOpportunity>)
    ensures |r| <= 5 && |r| <= Count(db.opportunities, OwnedBy(organizerId))
    ensures |r| == Min(5, Count(db.opportunities, OwnedBy(organizerId)))
    ensures |r| == |RecentOwned(db, organizerId)|
    ensures forall a :: 0 <= a < |r| ==> r[a] == ToRecentOpportunity(RecentOwned(db, organizerId)[a])
    ensures forall a, b :: 0 <= a < b < |r| ==> r[a].createdAt >= r[b].createdAt
    ensures forall a :: 0 <= a < |r| ==>
      exists o :: o in db.opportunities && o.organizerId == organizerId && r[a] == ToRecentOpportunity(o)
  {
    var top := RecentOwned(db, organizerId);
    RecentOwnedFacts(db, organizerId);
    seq(|top|, a requires 0 <= a < |top| => ToRecentOpportunity(top[a]))
  }

  /** GET /organizers/:organizerId/dashboard-stats. */
  function GetOrganizerDashboardStats(db: Db, organizerId: Id): (r: Result<OrganizerStats, HttpError>)
    ensures r.Err? <==> !IsOrganizer(db, organizerId)
    ensures r.Err? ==> r.error == OrganizerNotFound
    ensures r.Ok? ==> r.value == OrganizerStats(
      Count(db.opportunities, OwnedBy(organizerId)),
      Count(db.opportunities, OwnedWithStatus(organizerId, Pending)),
      Count(db.opportunities, OwnedWithStatus(organizerId, Approved)),
      Count(db.opportunities, OwnedWithStatus(organizerId, Closed)),
      RecentOpportunities(db, organizerId))
  {
    if !IsOrganizer(db, organizerId) then Err(OrganizerNotFound)
    else
      Ok(OrganizerStats(
        |Filter(db.opportunities, OwnedBy(organizerId))|,
        |Filter(db.opportunities, OwnedWithStatus(organizerId, Pending))|,
        |Filter(db.opportunities, OwnedWithStatus(organizerId, Approved))|,
        |Filter(db.opportunities, OwnedWithStatus(organizerId, Closed))|,
        RecentOpportunities(db, organizerId)))
  }

  /** With the three-valued status, the per-status counts add up to the total. */
  lemma StatusCountsAddUp(db: Db, organizerId: Id)
    requires IsOrganizer(db, organizerId)
    ensures var st := GetOrganizerDashboardStats(db, organizerId).value;
      st.pendingOpportunities + st.approvedOpportunities + st.closedOpportunities == st.totalOpportunities
  {
    CountPartition3(db.opportunities, OwnedBy(organizerId), OwnedWithStatus(organizerId, Pending),
                    OwnedWithStatus(organizerId, Approved), OwnedWithStatus(organizerId, Closed));
  }
}

=== FILE: pagination.dfy ===
/** Offset pagination, the one scheme used by every list endpoint, every mock
    service and the admin pages: page `p` (1-based) of size `l` skips
    `(p-1)*l` items and takes the next `l`; `totalPages` is `ceil(total/l)`. */
module Pagination {
  import opened Wrappers

  const DefaultPage: nat := 1
  const DefaultLimit: nat := 10

  /** The `page` and `limit` query parameters after `parseInt`; `None` when not supplied. */
  datatype PageQuery = PageQuery(page: Option<int>, limit: Option<int>)

  /** Supplied parameters are positive (non-numeric, zero and negative values are not modelled). */
  predicate ValidQuery(q: PageQuery)
  {
    (q.page.Some? ==> q.page.value >= 1) && (q.limit.Some? ==> q.limit.value >= 1)
  }

  /** The page requested, defaulting to 1. */
  function PageNumber(q: PageQuery): (r: nat)
    requires ValidQuery(q)
    ensures r >= 1
    ensures q.page.None? ==> r == DefaultPage
    ensures q.page.Some? ==> r == q.page.value
  {
    match q.page
    case None => DefaultPage
    case Some(p) => p
  }

  /** The page size requested, defaulting to 10. */
  function PageLimit(q: PageQuery): (r: nat)
    requires ValidQuery(q)
    ensures r >= 1
    ensures q.limit.None? ==> r == DefaultLimit
    ensures q.limit.Some? ==> r == q.limit.value
  {
    match q.limit
    case None => DefaultLimit
    case Some(l) => l
  }

  datatype PageMeta = PageMeta(total: nat, page: nat, limit: nat, totalPages: nat)

  /** A page of results with its `meta` block (`PaginatedResponse<T>`). */
  datatype Paginated<T> = Paginated(data: seq<T>, meta: PageMeta)

  function Min(a: int, b: int): int
  {
    if a <= b then a else b
  }

  /** `Math.ceil(n / d)`: the least number of pages of size `d` that hold `n` items. */
  function CeilDiv(n: nat, d: nat): (r: nat)
    requires d >= 1
    ensures r * d >= n
    ensures r == 0 || (r - 1) * d < n
    ensures r == 0 <==> n == 0
  {
    var q := (n + d - 1) / d;
    assert q * d <= n + d - 1 < q * d + d;
    q
  }

  /** Items skipped before page `page`. */
  function Skip(page: nat, limit: nat): nat
    requires page >= 1
  {
    (page - 1) * limit
  }

  /** `.skip((page-1)*limit).limit(limit)` on a query result, or
      `slice(start, start + limit)` on an array: the items at positions
      `Skip(page, limit)` up to (excluding) `Skip(page, limit) + limit`. */
  function PageOf<T>(s: seq<T>, page: nat, limit: nat): (r: seq<T>)
    requires page >= 1 && limit >= 1
    ensures |r| <= limit
    ensures |r| == Min(limit, if Skip(page, limit) <= |s| then |s| - Skip(page, limit) else 0)
    ensures forall k :: 0 <= k < |r| ==> Skip(page, limit) + k < |s| && r[k] == s[Skip(page, limit) + k]
  {
    var start := Min(Skip(page, limit), |s|);
    var end := Min(Skip(page, limit) + limit, |s|);
    s[start..end]
  }

  /** The meta block: the filtered total, the page and limit echoed, and the page count. */
  function Meta(total: nat, page: nat, limit: nat): (m: PageMeta)
    requires limit >= 1
    ensures m.total == total && m.page == page && m.limit == limit
    ensures m.totalPages * limit >= total && (m.totalPages == 0 || (m.totalPages - 1) * limit < total)
  {
    PageMeta(total, page, limit, CeilDiv(total, limit))
  }

  /** One page of `s` together with its meta block. */
  function Paginate<T>(s: seq<T>, page: nat, limit: nat): (r: Paginated<T>)
    requires page >= 1 && limit >= 1
    ensures r.meta.total == |s| && r.meta.page == page && r.meta.limit == limit
    ensures r.meta.totalPages == CeilDiv(|s|, limit)
    ensures r.data == PageOf(s, page, limit)
  {
    Paginated(PageOf(s, page, limit), Meta(|s|, page, limit))
  }

  lemma MulMono(a: nat, b: nat, l: nat)
    requires a <= b
    ensures a * l <= b * l
  {
    assert b * l == a * l + (b - a) * l;
  }

  lemma SkipNext(page: nat, limit: nat)
    requires page >= 1
    ensures Skip(page, limit) + limit == page * limit
  {
    assert (page - 1) * limit + limit == page * limit;
  }

  /** Every page before the last is full, the last page is non-empty, and
      every page after it is empty. */
  lemma PageSizes<T>(s: seq<T>, page: nat, limit: nat)
    requires page >= 1 && limit >= 1
    ensures page < CeilDiv(|s|, limit) ==> |PageOf(s, page, limit)| == limit
    ensures page == CeilDiv(|s|, limit) ==> 0 < |PageOf(s, page, limit)| == |s| - Skip(page, limit)
    ensures page > CeilDiv(|s|, limit) ==> PageOf(s, page, limit) == []
  {
    var n := CeilDiv(|s|, limit);
    SkipNext(page, limit);
    if page < n {
      MulMono(page, n - 1, limit);
    } else if page > n {
      MulMono(n, page - 1, limit);
    }
  }

  /** Pages 1 to `n` laid end to end. */
  function PagesUpTo<T>(s: seq<T>, limit: nat, n: nat): seq<T>
    requires limit >= 1
  {
    if n == 0 then [] else PagesUpTo(s, limit, n - 1) + PageOf(s, n, limit)
  }

  lemma {:induction false} PagesUpToPrefix<T>(s: seq<T>, limit: nat, n: nat)
    requires limit >= 1
    ensures PagesUpTo(s, limit, n) == s[..Min(n * limit, |s|)]
  {
    if n > 0 {
      PagesUpToPrefix(s, limit, n - 1);
      assert (n - 1) * limit + limit == n * limit;
      var a := Min((n - 1) * limit, |s|);
      var b := Min(n * limit, |s|);
      assert s[..b] == s[..a] + s[a..b];
    }
  }

  /** Walking every page from 1 to `totalPages` yields each item exactly
      once, in order: pagination loses and repeats nothing. */
  lemma PagesCoverAll<T>(s: seq<T>, limit: nat)
    requires limit >= 1
    ensures PagesUpTo(s, limit, CeilDiv(|s|, limit)) == s
  {
    PagesUpToPrefix(s, limit, CeilDiv(|s|, limit));
  }

  /** 25 matching items, page 2 of size 10: ten items, 25 in total, 3 pages. */
  lemma TwentyFiveItemsExample<T>(s: seq<T>)
    requires |s| == 25
    ensures |Paginate(s, 2, 10).data| == 10
    ensures Paginate(s, 2, 10).meta == PageMeta(25, 2, 10, 3)
  {
    assert CeilDiv(25, 10) == 3;
  }
}

=== FILE: player_controller.dfy ===
/** The player handlers. Register and join share one precondition chain
    (player exists, opportunity exists, it is approved, the player is not yet
    a member) and differ only in the membership array they append to and in
    their messages. Only the path ids are read: the authenticated caller is
    never compared with `playerId`. */
module PlayerController {
  import opened Wrappers
  import opened Seqs
  import opened Pagination
  import opened Domain
  import opened Views

  /** Which membership array an action targets: `registeredPlayers` or `joinedPlayers`. */
  datatype Membership = Registration | Joining

  function Members(o: Opportunity, kind: Membership): seq<Id>
  {
    match kind
    case Registration => o.registeredPlayers
    case Joining => o.joinedPlayers
  }

  function WithMembers(o: Opportunity, kind: Membership, ids: seq<Id>): (r: Opportunity)
    ensures Members(r, kind) == ids
  {
    match kind
    case Registration => o.(registeredPlayers := ids)
    case Joining => o.(joinedPlayers := ids)
  }

  function Other(kind: Membership): Membership
  {
    match kind
    case Registration => Joining
    case Joining => Registration
  }

  const PlayerNotFound := HttpError(404, "Player not found")
  const OpportunityNotFound := HttpError(404, "Opportunity not found")

  function NotApproved(kind: Membership): HttpError
  {
    match kind
    case Registration => HttpError(400, "Can only register for approved opportunities")
    case Joining => HttpError(400, "Can only join approved opportunities")
  }

  function AlreadyMember(kind: Membership): HttpError
  {
    match kind
    case Registration => HttpError(400, "Player already registered for this opportunity")
    case Joining => HttpError(400, "Player already joined this opportunity")
  }

  function Enrolled(kind: Membership): string
  {
    match kind
    case Registration => "Successfully registered for opportunity"
    case Joining => "Successfully joined opportunity"
  }

  /** `playerId` names a user with role player (deleted or not). */
  predicate IsPlayer(db: Db, playerId: Id)
  {
    UserWithRole(db.users, playerId, Player).Some?
  }

  /** The whole precondition chain of register and join. */
  predicate CanEnroll(db: Db, kind: Membership, playerId: Id, oppId: Id)
  {
    && IsPlayer(db, playerId)
    && OpportunityIndex(db.opportunities, oppId).Some?
    && db.opportunities[OpportunityIndex(db.opportunities, oppId).value].status == Approved
    && playerId !in Members(db.opportunities[OpportunityIndex(db.opportunities, oppId).value], kind)
  }

  /** POST /players/:playerId/opportunities/:opportunityId/register or /join. */
  function Enroll(db: Db, kind: Membership, playerId: Id, oppId: Id, now: Timestamp): (r: Reply<string>)
    ensures r.body.Ok? <==> CanEnroll(db, kind, playerId, oppId)
    ensures r.body.Err? ==> r.db == db
    ensures !IsPlayer(db, playerId) ==> r.body == Err(PlayerNotFound)
    ensures IsPlayer(db, playerId) && OpportunityIndex(db.opportunities, oppId).None? ==>
      r.body == Err(OpportunityNotFound)
    ensures IsPlayer(db, playerId) && OpportunityIndex(db.opportunities, oppId).Some? ==>
      var o := db.opportunities[OpportunityIndex(db.opportunities, oppId).value];
      && (o.status != Approved ==> r.body == Err(NotApproved(kind)))
      && (o.status == Approved && playerId in Members(o, kind) ==> r.body == Err(AlreadyMember(kind)))
    ensures r.body.Ok? ==>
      var i := OpportunityIndex(db.opportunities, oppId).value;
      var o := db.opportunities[i];
      && r.body.value == Enrolled(kind)
      && r.db.users == db.users
      && |r.db.opportunities| == |db.opportunities|
      && Members(r.db.opportunities[i], kind) == Members(o, kind) + [playerId]
      && Members(r.db.opportunities[i], Other(kind)) == Members(o, Other(kind))
      && r.db.opportunities[i] == WithMembers(o, kind, Members(o, kind) + [playerId]).(updatedAt := now)
      && (forall j :: 0 <= j < |db.opportunities| && j != i ==> r.db.opportunities[j] == db.opportunities[j])
  {
    if !IsPlayer(db, playerId) then Reply(db, Err(PlayerNotFound))
    else match OpportunityIndex(db.opportunities, oppId)
      case None => Reply(db, Err(OpportunityNotFound))
      case Some(i) =>
        var o := db.opportunities[i];
        if o.status != Approved then Reply(db, Err(NotApproved(kind)))
        else if playerId in Members(o, kind) then Reply(db, Err(AlreadyMember(kind)))
        else
          var o' := WithMembers(o, kind, Members(o, kind) + [playerId]).(updatedAt := now);
          Reply(db.(opportunities := db.opportunities[i := o']), Ok(Enrolled(kind)))
  }

  function RegisterForOpportunity(db: Db, playerId: Id, oppId: Id, now: Timestamp): (r: Reply<string>)
    ensures r.body.Ok? <==> CanEnroll(db, Registration, playerId, oppId)
    ensures r.body.Err? ==> r.db == db
    ensures r.body.Err? && IsPlayer(db, playerId) && OpportunityIndex(db.opportunities, oppId).Some? ==>
      r.body.error.message in {"Can only register for approved opportunities", "Player already registered for this opportunity"}
    ensures r.body.Ok? ==>
      var i := OpportunityIndex(db.opportunities, oppId).value;
      && r.body.value == "Successfully registered for opportunity"
      && |r.db.opportunities| == |db.opportunities|
      && r.db.opportunities[i].registeredPlayers == db.opportunities[i].registeredPlayers + [playerId]
      && r.db.opportunities[i].joinedPlayers == db.opportunities[i].joinedPlayers
  {
    Enroll(db, Registration, playerId, oppId, now)
  }

  function JoinOpportunity(db: Db, playerId: Id, oppId: Id, now: Timestamp): (r: Reply<string>)
    ensures r.body.Ok? <==> CanEnroll(db, Joining, playerId, oppId)
    ensures r.body.Err? ==> r.db == db
    ensures r.body.Err? && IsPlayer(db, playerId) && OpportunityIndex(db.opportunities, oppId).Some? ==>
      r.body.error.message in {"Can only join approved opportunities", "Player already joined this opportunity"}
    ensures r.body.Ok? ==>
      var i := OpportunityIndex(db.opportunities, oppId).value;
      && r.body.value == "Successfully joined opportunity"
      && |r.db.opportunities| == |db.opportunities|
      && r.db.opportunities[i].joinedPlayers == db.opportunities[i].joinedPlayers + [playerId]
      && r.db.opportunities[i].registeredPlayers == db.opportunities[i].registeredPlayers
  {
    Enroll(db, Joining, playerId, oppId, now)
  }

  /** Registering twice: the first call succeeds, the second is refused as a
      duplicate and leaves the store as the first call left it, so the array
      has grown by exactly one. The same holds for joining. */
  lemma EnrollTwice(db: Db, kind: Membership, playerId: Id, oppId: Id, now1: Timestamp, now2: Timestamp)
    requires CanEnroll(db, kind, playerId, oppId)
    ensures var first := Enroll(db, kind, playerId, oppId, now1);
      var second := Enroll(first.db, kind, playerId, oppId, now2);
      var i := OpportunityIndex(db.opportunities, oppId).value;
      && first.body.Ok?
      && second.body == Err(AlreadyMember(kind))
      && second.db == first.db
      && |Members(second.db.opportunities[i], kind)| == |Members(db.opportunities[i], kind)| + 1
  {
    var first := Enroll(db, kind, playerId, oppId, now1);
    var i := OpportunityIndex(db.opportunities, oppId).value;
    assert first.db.users == db.users;
    assert UserWithRole(first.db.users, playerId, Player).Some?;
    forall j | 0 <= j < i ensures first.db.opportunities[j].id != oppId {
      assert first.db.opportunities[j] == db.opportunities[j];
    }
    assert first.db.opportunities[i].id == oppId;
    assert OpportunityIndex(first.db.opportunities, oppId) == Some(i);
    assert playerId in Members(first.db.opportunities[i], kind);
  }

  /** Neither action consults the other membership array: changing it leaves
      the outcome of the action the same. */
  lemma EnrollIgnoresOtherSet(db: Db, kind: Membership, playerId: Id, oppId: Id, now: Timestamp, ids: seq<Id>)
    requires OpportunityIndex(db.opportunities, oppId).Some?
    ensures var i := OpportunityIndex(db.opportunities, oppId).value;
      var db' := db.(opportunities := db.opportunities[i := WithMembers(db.opportunities[i], Other(kind), ids)]);
      Enroll(db', kind, playerId, oppId, now).body == Enroll(db, kind, playerId, oppId, now).body
  {
    var i := OpportunityIndex(db.opportunities, oppId).value;
    var o := db.opportunities[i];
    var db' := db.(opportunities := db.opportunities[i := WithMembers(o, Other(kind), ids)]);
    assert db'.opportunities[i].id == oppId;
    forall j | 0 <= j < i ensures db'.opportunities[j].id != oppId {
      assert db'.opportunities[j] == db.opportunities[j];
    }
    assert OpportunityIndex(db'.opportunities, oppId) == Some(i);
    assert Members(WithMembers(o, Other(kind), ids), kind) == Members(o, kind);
  }

  /** The controller guards keep every membership array free of repeats,
      although the schema itself does not. */
  lemma EnrollPreservesNoDuplicates(db: Db, kind: Membership, playerId: Id, oppId: Id, now: Timestamp)
    requires forall j :: 0 <= j < |db.opportunities| ==> NoDuplicates(Members(db.opportunities[j], kind))
    ensures var r := Enroll(db, kind, playerId, oppId, now);
      forall j :: 0 <= j < |r.db.opportunities| ==> NoDuplicates(Members(r.db.opportunities[j], kind))
  {
    var r := Enroll(db, kind, playerId, oppId, now);
    if r.body.Ok? {
      var i := OpportunityIndex(db.opportunities, oppId).value;
      var m := Members(db.opportunities[i], kind);
      var m' := m + [playerId];
      assert Members(r.db.opportunities[i], kind) == m';
      forall a, b | 0 <= a < b < |m'| ensures m'[a] != m'[b] {
        if b == |m| {
          assert m'[a] == m[a];
          assert m[a] in m;
        }
      }
    }
  }

  /** The selection of a player list: the opportunities with the player in
      the targeted array and status approved. */
  function Listed(kind: Membership, playerId: Id): Opportunity -> bool
  {
    (o: Opportunity) => playerId in Members(o, kind) && o.status == Approved
  }

  /** The opportunities a player list selects, in store order. */
  function ListedFor(db: Db, kind: Membership, playerId: Id): (r: seq<Opportunity>)
    ensures |r| == Count(db.opportunities, Listed(kind, playerId))
    ensures forall i :: 0 <= i < |r| ==> Listed(kind, playerId)(r[i]) && r[i] in db.opportunities
    ensures forall o :: o in db.opportunities && Listed(kind, playerId)(o) ==> o in r
  {
    Filter(db.opportunities, Listed(kind, playerId))
  }

  /** GET /players/:playerId/opportunities (registrations) and
      /joined-opportunities (joins), in store order. */
  function GetPlayerList(db: Db, kind: Membership, playerId: Id, q: PageQuery): (r: Result<Paginated<OpportunityView>, HttpError>)
    requires ValidQuery(q)
    ensures !IsPlayer(db, playerId) ==> r == Err(PlayerNotFound)
    ensures r.Err? ==> r.error == PlayerNotFound || r.error == ServerError
    ensures r.Ok? ==> IsPlayer(db, playerId)
    ensures r.Ok? ==> r.value.meta == Meta(Count(db.opportunities, Listed(kind, playerId)), PageNumber(q), PageLimit(q))
    ensures r.Ok? <==> (IsPlayer(db, playerId) &&
      forall k :: 0 <= k < |PageOf(ListedFor(db, kind, playerId), PageNumber(q), PageLimit(q))| ==>
        UserById(db.users, PageOf(ListedFor(db, kind, playerId), PageNumber(q), PageLimit(q))[k].organizerId).Some?)
    ensures r.Ok? ==> |r.value.data| <= PageLimit(q)
    ensures r.Ok? ==> |r.value.data| == |PageOf(ListedFor(db, kind, playerId), PageNumber(q), PageLimit(q))|
    ensures r.Ok? ==> forall k :: 0 <= k < |r.value.data| ==>
      Project(db.users, PageOf(ListedFor(db, kind, playerId), PageNumber(q), PageLimit(q))[k]) == Some(r.value.data[k])
    ensures r.Ok? ==> forall k :: 0 <= k < |r.value.data| ==>
      var i := Skip(PageNumber(q), PageLimit(q)) + k;
      var s := ListedFor(db, kind, playerId);
      && i < |s| && r.value.data[k].id == s[i].id
      && r.value.data[k].status == Approved
      && s[i] in db.opportunities && playerId in Members(s[i], kind)
  {
    if !IsPlayer(db, playerId) then Err(PlayerNotFound)
    else
      var s := ListedFor(db, kind, playerId);
      var page := PageOf(s, PageNumber(q), PageLimit(q));
      match ProjectAll(db.users, page)
      case Err(e) =>
        assert !forall k :: 0 <= k < |page| ==> UserById(db.users, page[k].organizerId).Some?;
        Err(e)
      case Ok(data) =>
        ListedPageEntries(s, kind, playerId, PageNumber(q), PageLimit(q), db.users, data);
        Ok(Paginated(data, Meta(|s|, PageNumber(q), PageLimit(q))))
  }

  /** Each projected entry of a page of a player list is the listed
      opportunity at its offset, approved and holding the player. */
  lemma ListedPageEntries(s: seq<Opportunity>, kind: Membership, playerId: Id, page: nat, limit: nat,
                          users: seq<User>, data: seq<OpportunityView>)
    requires page >= 1 && limit >= 1
    requires forall i :: 0 <= i < |s| ==> Listed(kind, playerId)(s[i])
    requires ProjectAll(users, PageOf(s, page, limit)) == Ok(data)
    ensures forall k :: 0 <= k < |data| ==>
      var i := Skip(page, limit) + k;
      && i < |s| && data[k].id == s[i].id && data[k].status == Approved && playerId in Members(s[i], kind)
  {
    var p := PageOf(s, page, limit);
    forall k | 0 <= k < |data|
      ensures Skip(page, limit) + k < |s| && data[k].id == s[Skip(page, limit) + k].id
      ensures data[k].status == Approved && playerId in Members(s[Skip(page, limit) + k], kind)
    {
      assert p[k] == s[Skip(page, limit) + k];
      assert Project(users, p[k]) == Some(data[k]);
      assert Listed(kind, playerId)(p[k]);
    }
  }

  /** For a player whose listed opportunities all have their organizer, each
      page of the list is that page of the projected selection. */
  lemma PlayerListPage(db: Db, kind: Membership, playerId: Id, q: PageQuery)
    requires ValidQuery(q)
    requires IsPlayer(db, playerId)
    requires ProjectAll(db.users, ListedFor(db, kind, playerId)).Ok?
    ensures GetPlayerList(db, kind, playerId, q).Ok?
    ensures GetPlayerList(db, kind, playerId, q).value.data ==
      PageOf(ProjectAll(db.users, ListedFor(db, kind, playerId)).value, PageNumber(q), PageLimit(q))
  {
    ProjectAllPage(db.users, ListedFor(db, kind, playerId), PageNumber(q), PageLimit(q));
  }

  /** Pages 1 to `totalPages` of a player list, laid end to end, are the
      player's whole projected selection in store order. */
  lemma PlayerListPagesCover(db: Db, kind: Membership, playerId: Id, limit: nat)
    requires limit >= 1
    requires IsPlayer(db, playerId)
    requires ProjectAll(db.users, ListedFor(db, kind, playerId)).Ok?
    ensures forall n: nat :: n >= 1 ==>
      && GetPlayerList(db, kind, playerId, PageQuery(Some(n), Some(limit))).Ok?
      && GetPlayerList(db, kind, playerId, PageQuery(Some(n), Some(limit))).value.data
           == PageOf(ProjectAll(db.users, ListedFor(db, kind, playerId)).value, n, limit)
    ensures PagesUpTo(ProjectAll(db.users, ListedFor(db, kind, playerId)).value, limit,
                      CeilDiv(Count(db.opportunities, Listed(kind, playerId)), limit))
      == ProjectAll(db.users, ListedFor(db, kind, playerId)).value
  {
    var all := ProjectAll(db.users, ListedFor(db, kind, playerId)).value;
    forall n: nat | n >= 1
      ensures GetPlayerList(db, kind, playerId, PageQuery(Some(n), Some(limit))).Ok?
      ensures GetPlayerList(db, kind, playerId, PageQuery(Some(n), Some(limit))).value.data == PageOf(all, n, limit)
    {
      PlayerListPage(db, kind, playerId, PageQuery(Some(n), Some(limit)));
    }
    PagesCoverAll(all, limit);
  }

  /** The projection of a "recently registered" entry. */
  datatype RecentRegistration = RecentRegistration(id: Id, title: string, eventDate: Option<Timestamp>, location: Option<string>)

  datatype PlayerStats = PlayerStats(
    registeredOpportunities: nat,
    upcomingOpportunities: nat,
    pastOpportunities: nat,
    recentlyRegistered: seq<RecentRegistration>)

  /** Registered for, whatever the status. */
  function RegisteredBy(playerId: Id): Opportunity -> bool
  {
    (o: Opportunity) => playerId in o.registeredPlayers
  }

  /** `eventDate: { $gt: now }`: an opportunity without a date never matches. */
  function UpcomingFor(playerId: Id, now: Timestamp): Opportunity -> bool
  {
    (o: Opportunity) => playerId in o.registeredPlayers && o.eventDate.Some? && o.eventDate.value > now
  }

  /** `eventDate: { $lt: now }`. */
  function PastFor(playerId: Id, now: Timestamp): Opportunity -> bool
  {
    (o: Opportunity) => playerId in o.registeredPlayers && o.eventDate.Some? && o.eventDate.value < now
  }

  function IdKey(o: Opportunity): int
  {
    o.id
  }

  function ToRecentRegistration(o: Opportunity): RecentRegistration
  {
    RecentRegistration(o.id, o.title, o.eventDate, o.location)
  }

  /** `.sort({ _id: -1 }).limit(3)` over the player's registrations. */
  function RecentRegistrations(db: Db, playerId: Id): seq<Opportunity>
  {
    TopK(Filter(db.opportunities, RegisteredBy(playerId)), IdKey, 3)
  }

  /** The projected recent list, highest id first. */
  function RecentlyRegistered(db: Db, playerId: Id): (r: seq<RecentRegistration>)
    ensures |r| <= 3 && |r| <= Count(db.opportunities, RegisteredBy(playerId))
    ensures |r| == Min(3, Count(db.opportunities, RegisteredBy(playerId)))
    ensures |r| == |RecentRegistrations(db, playerId)|
    ensures forall a :: 0 <= a < |r| ==> r[a] == ToRecentRegistration(RecentRegistrations(db, playerId)[a])
    ensures forall a, b :: 0 <= a < b < |r| ==> r[a].id >= r[b].id
    ensures forall a :: 0 <= a < |r| ==>
      exists o :: o in db.opportunities && playerId in o.registeredPlayers && r[a] == ToRecentRegistration(o)
  {
    var top := RecentRegistrations(db, playerId);
    RecentRegistrationsFacts(db, playerId);
    seq(|top|, a requires 0 <= a < |top| => ToRecentRegistration(top[a]))
  }

  lemma RecentRegistrationsFacts(db: Db, playerId: Id)
    ensures var top := RecentRegistrations(db, playerId);
      && |top| <= 3 && |top| <= Count(db.opportunities, RegisteredBy(playerId))
      && |top| == Min(3, Count(db.opportunities, RegisteredBy(playerId)))
      && (forall a, b :: 0 <= a < b < |top| ==> top[a].id >= top[b].id)
      && (forall a :: 0 <= a < |top| ==> top[a] in db.opportunities && playerId in top[a].registeredPlayers)
  {
    var mine := Filter(db.opportunities, RegisteredBy(playerId));
    var top := RecentRegistrations(db, playerId);
    TopKSpec(mine, IdKey, 3);
    forall a | 0 <= a < |top| ensures top[a] in db.opportunities && playerId in top[a].registeredPlayers {
      assert top[a] in multiset(mine);
      var k :| 0 <= k < |mine| && mine[k] == top[a];
    }
    forall a, b | 0 <= a < b < |top| ensures top[a].id >= top[b].id {
      assert IdKey(top[a]) >= IdKey(top[b]);
    }
  }

  /** GET /players/:playerId/dashboard-stats: three counts over the player's
      registrations of every status, and the three most recent by id. */
  function GetPlayerDashboardStats(db: Db, playerId: Id, now: Timestamp): (r: Result<PlayerStats, HttpError>)
    ensures r.Err? <==> !IsPlayer(db, playerId)
    ensures r.Err? ==> r.error == PlayerNotFound
    ensures r.Ok? ==> r.value == PlayerStats(
      Count(db.opportunities, RegisteredBy(playerId)),
      Count(db.opportunities, UpcomingFor(playerId, now)),
      Count(db.opportunities, PastFor(playerId, now)),
      RecentlyRegistered(db, playerId))
  {
    if !IsPlayer(db, playerId) then Err(PlayerNotFound)
    else
      Ok(PlayerStats(
        |Filter(db.opportunities, RegisteredBy(playerId))|,
        |Filter(db.opportunities, UpcomingFor(playerId, now))|,
        |Filter(db.opportunities, PastFor(playerId, now))|,
        RecentlyRegistered(db, playerId)))
  }

  /** An opportunity is upcoming or past only if registered, never both, and
      one dated exactly `now` or undated is neither: upcoming + past <= registered. */
  lemma UpcomingPastBound(db: Db, playerId: Id, now: Timestamp)
    requires IsPlayer(db, playerId)
    ensures var st := GetPlayerDashboardStats(db, playerId, now).value;
      st.upcomingOpportunities + st.pastOpportunities <= st.registeredOpportunities
  {
    CountDisjointBound(db.opportunities, RegisteredBy(playerId), UpcomingFor(playerId, now), PastFor(playerId, now));
  }

  /** The recent list is the player's three highest-id registrations: every
      entry is a registration of the player, and no registration left out has
      a higher id than one shown. */
  lemma RecentAreHighestIds(db: Db, playerId: Id)
    ensures var top := RecentRegistrations(db, playerId);
      var mine := Filter(db.opportunities, RegisteredBy(playerId));
      && multiset(top) <= multiset(mine)
      && (forall x, y :: x in multiset(mine) - multiset(top) && y in top ==> x.id <= y.id)
  {
    TopKSpec(Filter(db.opportunities, RegisteredBy(playerId)), IdKey, 3);
  }
}

=== FILE: requests.dfy ===
/** A whole request through the backend: the route is matched, the guard of
    that route runs, and the handler answers. Path parameters are strings;
    a store id is written in decimal, and a parameter that is not a valid id
    makes the store's cast fail, which every handler answers with 500. */
module Requests {
  import opened Wrappers
  import opened Seqs
  import opened Text
  import opened Pagination
  import opened Domain
  import opened Views
  import opened AuthGuard
  import opened Routes
  import Opp = OpportunityController
  import Pl = PlayerController
  import Org = OrganizerController
  import Us = UserController

  /** The query string fields any handler reads. */
  datatype Query = Query(page: Option<int>, limit: Option<int>, status: Option<string>, role: Option<string>)

  /** What a handler reads besides the path: the query string and the JSON
      body, which carries the creation fields and, for the status change,
      `status`. */
  datatype Content = Content(query: Query, body: Opp.CreateBody, bodyStatus: Option<string>)

  /** A request line, its Authorization header and its content. */
  datatype Request = Request(verb: Method, path: seq<string>, authorization: Option<string>, content: Content)

  datatype Payload =
    | NoRoute
    | ErrorMessage(message: string)
    | Message(text: string)
    | OpportunityPage(opportunities: Paginated<OpportunityView>)
    | OpportunityCount(count: nat)
    | OpportunityDetail(opportunity: OpportunityView)
    | Created(created: Opp.CreatedOpportunity)
    | UserPage(users: Paginated<Us.UserView>)
    | UserFound(user: Us.UserDetail)
    | RoleCounts(counts: map<Role, nat>)
    | PlayerDashboard(playerStats: Pl.PlayerStats)
    | OrganizerDashboard(organizerStats: Org.OrganizerStats)

  datatype Response = Response(code: nat, payload: Payload)

  /** The store after the request, and the answer. */
  datatype Served = Served(db: Db, response: Response)

  function Fail(e: HttpError): Response
  {
    Response(e.code, ErrorMessage(e.message))
  }

  /** A path parameter read as a store id: a non-empty run of decimal digits. */
  function ParseId(s: string): (r: Option<Id>)
    ensures r.Some? <==> |s| > 0 && forall i :: 0 <= i < |s| ==> '0' <= s[i] <= '9'
  {
    if |s| > 0 && forall i :: 0 <= i < |s| ==> '0' <= s[i] <= '9' then Some(DigitsValue(s)) else None
  }

  /** Every id written out in decimal reads back as itself. */
  lemma ParseIdRoundTrip(n: Id)
    ensures ParseId(NatToString(n)) == Some(n)
  {
    NatToStringValue(n);
  }

  function PageQueryOf(req: Content): PageQuery
  {
    PageQuery(req.query.page, req.query.limit)
  }

  /** The handlers that may write to the store. */
  predicate Mutating(op: Operation)
  {
    op == CreateOpportunity || op == UpdateStatus || op == Register || op == Join || op == DeleteUser
  }

  predicate ValidStatusBody(status: Option<string>)
  {
    status.Some? && ParseStatus(status.value).Some?
  }

  /** A page of opportunities is sent with 200, a handler error with its own code. */
  function PageReply(res: Result<Paginated<OpportunityView>, HttpError>): (r: Response)
    ensures res.Ok? ==> r == Response(200, OpportunityPage(res.value))
    ensures res.Err? ==> r.code == res.error.code && r.payload == ErrorMessage(res.error.message)
  {
    match res
    case Ok(page) => Response(200, OpportunityPage(page))
    case Err(e) => Fail(e)
  }

  function OpportunityReads(db: Db, op: Operation, params: seq<string>, req: Content): (r: Response)
    requires |params| == Arity(op) && ValidQuery(PageQueryOf(req))
    requires op == ListOpportunities || op == CountOpportunities || op == GetOpportunity
    ensures op == ListOpportunities ==> (r.code == 200 <==> Opp.GetOpportunities(db, req.query.status, PageQueryOf(req)).Ok?)
    ensures op == ListOpportunities && r.code == 200 ==>
      r.payload == OpportunityPage(Opp.GetOpportunities(db, req.query.status, PageQueryOf(req)).value)
    ensures op == CountOpportunities ==>
      r == Response(200, OpportunityCount(Count(db.opportunities, Opp.MatchesStatus(req.query.status))))
    ensures op == GetOpportunity && ParseId(params[0]).None? ==> r == Fail(ServerError)
    ensures op == GetOpportunity && ParseId(params[0]).Some? ==>
      (r.code == 404 <==> OpportunityIndex(db.opportunities, ParseId(params[0]).value).None?)
    ensures op == GetOpportunity && ParseId(params[0]).Some? ==>
      (r.code == 200 <==> Opp.GetOpportunityById(db, ParseId(params[0]).value).Ok?)
    ensures r.code != 200 ==> r.payload.ErrorMessage?
  {
    if op == ListOpportunities then
      match Opp.GetOpportunities(db, req.query.status, PageQueryOf(req))
      case Ok(page) => Response(200, OpportunityPage(page))
      case Err(e) => Fail(e)
    else if op == CountOpportunities then
      Response(200, OpportunityCount(Opp.GetOpportunityCount(db, req.query.status)))
    else
      match ParseId(params[0])
      case None => Fail(ServerError)
      case Some(id) =>
        match Opp.GetOpportunityById(db, id)
        case Ok(v) => Response(200, OpportunityDetail(v))
        case Err(e) => Fail(e)
  }

  function OrganizerReads(db: Db, op: Operation, params: seq<string>, req: Content): (r: Response)
    requires |params| == Arity(op) && ValidQuery(PageQueryOf(req))
    requires op == OrganizerOpportunities || op == OrganizerStats
    ensures ParseId(params[0]).None? ==> r == Fail(ServerError)
    ensures ParseId(params[0]).Some? ==> (r.code == 200 <==> Org.IsOrganizer(db, ParseId(params[0]).value))
    ensures ParseId(params[0]).Some? && !Org.IsOrganizer(db, ParseId(params[0]).value) ==> r == Fail(Org.OrganizerNotFound)
    ensures op == OrganizerOpportunities && r.code == 200 ==>
      r.payload == OpportunityPage(Org.GetOrganizerOpportunities(db, ParseId(params[0]).value, PageQueryOf(req)).value)
  {
    match ParseId(params[0])
    case None => Fail(ServerError)
    case Some(id) =>
      if op == OrganizerOpportunities then
        match Org.GetOrganizerOpportunities(db, id, PageQueryOf(req))
        case Ok(page) => Response(200, OpportunityPage(page))
        case Err(e) => Fail(e)
      else
        match Org.GetOrganizerDashboardStats(db, id)
        case Ok(stats) => Response(200, OrganizerDashboard(stats))
        case Err(e) => Fail(e)
  }

  function PlayerReads(db: Db, op: Operation, params: seq<string>, req: Content, now: Timestamp): (r: Response)
    requires |params| == Arity(op) && ValidQuery(PageQueryOf(req))
    requires op == PlayerOpportunities || op == PlayerJoined || op == PlayerStats
    ensures ParseId(params[0]).None? ==> r == Fail(ServerError)
    ensures ParseId(params[0]).Some? && !Pl.IsPlayer(db, ParseId(params[0]).value) ==> r == Fail(Pl.PlayerNotFound)
    ensures op == PlayerStats && ParseId(params[0]).Some? ==> (r.code == 200 <==> Pl.IsPlayer(db, ParseId(params[0]).value))
    ensures op == PlayerOpportunities && ParseId(params[0]).Some? ==>
      r == PageReply(Pl.GetPlayerList(db, Pl.Registration, ParseId(params[0]).value, PageQueryOf(req)))
    ensures op == PlayerJoined && ParseId(params[0]).Some? ==>
      r == PageReply(Pl.GetPlayerList(db, Pl.Joining, ParseId(params[0]).value, PageQueryOf(req)))
  {
    match ParseId(params[0])
    case None => Fail(ServerError)
    case Some(id) =>
      if op == PlayerStats then
        match Pl.GetPlayerDashboardStats(db, id, now)
        case Ok(stats) => Response(200, PlayerDashboard(stats))
        case Err(e) => Fail(e)
      else
        var kind := if op == PlayerOpportunities then Pl.Registration else Pl.Joining;
        PageReply(Pl.GetPlayerList(db, kind, id, PageQueryOf(req)))
  }

  function UserReads(db: Db, op: Operation, params: seq<string>, req: Content): (r: Response)
    requires |params| == Arity(op) && ValidQuery(PageQueryOf(req))
    requires op == ListUsers || op == CountUsersByRole || op == GetUser
    ensures op == ListUsers ==> r == Response(200, UserPage(Us.GetUsers(db, req.query.role, PageQueryOf(req))))
    ensures op == CountUsersByRole ==> r == Response(200, RoleCounts(Us.CountByRole(db)))
    ensures op == GetUser && ParseId(params[0]).None? ==> r == Fail(ServerError)
    ensures op == GetUser && ParseId(params[0]).Some? ==>
      (r.code == 200 <==> LiveUserById(db.users, ParseId(params[0]).value).Some?)
    ensures op == GetUser && r.code != 200 ==> r.code == 500 || r == Fail(Us.UserNotFound)
  {
    if op == ListUsers then Response(200, UserPage(Us.GetUsers(db, req.query.role, PageQueryOf(req))))
    else if op == CountUsersByRole then Response(200, RoleCounts(Us.CountByRole(db)))
    else
      match ParseId(params[0])
      case None => Fail(ServerError)
      case Some(id) =>
        match Us.GetUserById(db, id)
        case Ok(u) => Response(200, UserFound(u))
        case Err(e) => Fail(e)
  }

  /** Register or join: the player id is cast and checked before the
      opportunity id is even cast. */
  function EnrollRequest(db: Db, kind: Pl.Membership, params: seq<string>, now: Timestamp): (r: Served)
    requires |params| == 2
    ensures r.db != db ==>
      (exists p, o :: ParseId(params[0]) == Some(p) && ParseId(params[1]) == Some(o) && Pl.CanEnroll(db, kind, p, o))
    ensures ParseId(params[0]).None? ==> r == Served(db, Fail(ServerError))
    ensures ParseId(params[0]).Some? && !Pl.IsPlayer(db, ParseId(params[0]).value) ==> r == Served(db, Fail(Pl.PlayerNotFound))
    ensures ParseId(params[0]).Some? && Pl.IsPlayer(db, ParseId(params[0]).value) && ParseId(params[1]).None? ==>
      r == Served(db, Fail(ServerError))
    ensures ParseId(params[0]).Some? && ParseId(params[1]).Some? ==>
      var e := Pl.Enroll(db, kind, ParseId(params[0]).value, ParseId(params[1]).value, now);
      && r.db == e.db
      && (e.body.Ok? ==> r.response == Response(200, Message(e.body.value)))
      && (e.body.Err? ==> r.response == Fail(e.body.error))
    ensures r.response.code != 200 ==> r.db == db
  {
    match ParseId(params[0])
    case None => Served(db, Fail(ServerError))
    case Some(p) =>
      if !Pl.IsPlayer(db, p) then Served(db, Fail(Pl.PlayerNotFound))
      else match ParseId(params[1])
        case None => Served(db, Fail(ServerError))
        case Some(o) =>
          var r := Pl.Enroll(db, kind, p, o, now);
          match r.body
          case Ok(msg) => Served(r.db, Response(200, Message(msg)))
          case Err(e) => Served(r.db, Fail(e))
  }

  function Writes(db: Db, caller: User, op: Operation, params: seq<string>, req: Content, now: Timestamp, newId: Id): (r: Served)
    requires |params| == Arity(op)
    requires Mutating(op)
    ensures op != DeleteUser ==> r.db.users == db.users
    ensures op == CreateOpportunity ==>
      var c := Opp.CreateOpportunity(db, caller, req.body, newId, now);
      && r.db == c.db
      && (c.body.Ok? ==> r.response == Response(201, Created(c.body.value)))
      && (c.body.Err? ==> r.response == Fail(c.body.error))
    ensures op == CreateOpportunity && r.db != db ==> r.response.code == 201
    ensures op == UpdateStatus && ParseId(params[0]).None? ==>
      r == Served(db, Fail(if ValidStatusBody(req.bodyStatus) then ServerError else Opp.InvalidStatus))
    ensures op == UpdateStatus && ParseId(params[0]).Some? ==>
      var u := Opp.UpdateOpportunityStatus(db, ParseId(params[0]).value, req.bodyStatus, now);
      && r.db == u.db
      && (u.body.Ok? ==> r.response == Response(200, Message(u.body.value)))
      && (u.body.Err? ==> r.response == Fail(u.body.error))
    ensures op == Register ==> r == EnrollRequest(db, Pl.Registration, params, now)
    ensures op == Join ==> r == EnrollRequest(db, Pl.Joining, params, now)
    ensures op == DeleteUser && ParseId(params[0]).None? ==> r == Served(db, Fail(ServerError))
    ensures op == DeleteUser && ParseId(params[0]).Some? ==>
      var d := Us.DeleteUser(db, ParseId(params[0]).value, now);
      && r.db == d.db
      && (d.body.Ok? ==> r.response == Response(200, Message(d.body.value)))
      && (d.body.Err? ==> r.response == Fail(d.body.error))
  {
    if op == CreateOpportunity then
      var r := Opp.CreateOpportunity(db, caller, req.body, newId, now);
      match r.body
      case Ok(c) => Served(r.db, Response(201, Created(c)))
      case Err(e) => Served(r.db, Fail(e))
    else if op == UpdateStatus then
      match ParseId(params[0])
      case None => Served(db, Fail(if ValidStatusBody(req.bodyStatus) then ServerError else Opp.InvalidStatus))
      case Some(id) =>
        var r := Opp.UpdateOpportunityStatus(db, id, req.bodyStatus, now);
        match r.body
        case Ok(msg) => Served(r.db, Response(200, Message(msg)))
        case Err(e) => Served(r.db, Fail(e))
    else if op == Register then EnrollRequest(db, Pl.Registration, params, now)
    else if op == Join then EnrollRequest(db, Pl.Joining, params, now)
    else
      match ParseId(params[0])
      case None => Served(db, Fail(ServerError))
      case Some(id) =>
        var r := Us.DeleteUser(db, id, now);
        match r.body
        case Ok(msg) => Served(r.db, Response(200, Message(msg)))
        case Err(e) => Served(r.db, Fail(e))
  }

  /** The handler a dispatched request reaches, once the guard let it through. */
  function Handle(db: Db, caller: User, op: Operation, params: seq<string>, req: Content, now: Timestamp, newId: Id): (r: Served)
    requires |params| == Arity(op) && ValidQuery(PageQueryOf(req))
    ensures !Mutating(op) ==> r.db == db
    ensures op != DeleteUser ==> r.db.users == db.users
    ensures Mutating(op) ==> r == Writes(db, caller, op, params, req, now, newId)
    ensures op == ListOpportunities || op == CountOpportunities || op == GetOpportunity ==>
      r == Served(db, OpportunityReads(db, op, params, req))
    ensures op == OrganizerOpportunities || op == OrganizerStats ==>
      r == Served(db, OrganizerReads(db, op, params, req))
    ensures op == PlayerOpportunities || op == PlayerJoined || op == PlayerStats ==>
      r == Served(db, PlayerReads(db, op, params, req, now))
    ensures op == ListUsers || op == CountUsersByRole || op == GetUser ==>
      r == Served(db, UserReads(db, op, params, req))
  {
    if Mutating(op) then Writes(db, caller, op, params, req, now, newId)
    else if op == ListOpportunities || op == CountOpportunities || op == GetOpportunity then
      Served(db, OpportunityReads(db, op, params, req))
    else if op == OrganizerOpportunities || op == OrganizerStats then
      Served(db, OrganizerReads(db, op, params, req))
    else if op == PlayerOpportunities || op == PlayerJoined || op == PlayerStats then
      Served(db, PlayerReads(db, op, params, req, now))
    else
      Served(db, UserReads(db, op, params, req))
  }

  /** One request. `tokens` is the token verifier, `now` the clock and
      `newId` the id the store would give a new document. */
  function Serve(db: Db, tokens: map<string, Id>, req: Request, now: Timestamp, newId: Id): (r: Served)
    requires ValidQuery(PageQueryOf(req.content))
    ensures Dispatch(req.verb, req.path).None? ==> r == Served(db, Response(404, NoRoute))
    ensures Dispatch(req.verb, req.path).Some? && Authenticate(req.authorization, tokens, db.users).Err? ==>
      r == Served(db, Fail(Unauthenticated))
    ensures Dispatch(req.verb, req.path).Some? && Authenticate(req.authorization, tokens, db.users).Ok? ==>
      var role := Authenticate(req.authorization, tokens, db.users).value.role;
      !Permits(Permission(Dispatch(req.verb, req.path).value.op), role) ==> r == Served(db, Fail(Forbidden))
    ensures r.db != db ==> Dispatch(req.verb, req.path).Some? && Mutating(Dispatch(req.verb, req.path).value.op)
    ensures r.db.users != db.users ==> Dispatch(req.verb, req.path).Some? && Dispatch(req.verb, req.path).value.op == DeleteUser
    ensures Dispatch(req.verb, req.path).Some? ==>
      var hit := Dispatch(req.verb, req.path).value;
      var a := Authorize(RoleList(Permission(hit.op)), req.authorization, tokens, db.users);
      a.Ok? ==> r == Handle(db, a.value, hit.op, hit.params, req.content, now, newId)
  {
    match Dispatch(req.verb, req.path)
    case None => Served(db, Response(404, NoRoute))
    case Some(hit) =>
      match Authorize(RoleList(Permission(hit.op)), req.authorization, tokens, db.users)
      case Err(e) => Served(db, Fail(e))
      case Ok(caller) => Handle(db, caller, hit.op, hit.params, req.content, now, newId)
  }

  /** Only a user the guard lets through may change the store, and only
      through one of the writing handlers. */
  lemma WritesNeedPermission(db: Db, tokens: map<string, Id>, req: Request, now: Timestamp, newId: Id)
    requires ValidQuery(PageQueryOf(req.content))
    requires Serve(db, tokens, req, now, newId).db != db
    ensures Dispatch(req.verb, req.path).Some?
    ensures Authenticate(req.authorization, tokens, db.users).Ok?
    ensures Permits(Permission(Dispatch(req.verb, req.path).value.op), Authenticate(req.authorization, tokens, db.users).value.role)
    ensures Mutating(Dispatch(req.verb, req.path).value.op)
  {
  }

  /** Users are soft-deleted only through DELETE /users/:id by an admin. */
  lemma OnlyAdminsDeleteUsers(db: Db, tokens: map<string, Id>, req: Request, now: Timestamp, newId: Id)
    requires ValidQuery(PageQueryOf(req.content))
    requires Serve(db, tokens, req, now, newId).db.users != db.users
    ensures Dispatch(req.verb, req.path).Some? && Dispatch(req.verb, req.path).value.op == DeleteUser
    ensures Authenticate(req.authorization, tokens, db.users).Ok?
    ensures Authenticate(req.authorization, tokens, db.users).value.role == Admin
  {
    UsersChangeOnDelete(db, tokens, req, now, newId);
    WritesNeedPermission(db, tokens, req, now, newId);
    AdminOnly(DeleteUser, Authenticate(req.authorization, tokens, db.users).value.role);
  }

  lemma UsersChangeOnDelete(db: Db, tokens: map<string, Id>, req: Request, now: Timestamp, newId: Id)
    requires ValidQuery(PageQueryOf(req.content))
    requires Serve(db, tokens, req, now, newId).db.users != db.users
    ensures Serve(db, tokens, req, now, newId).db != db
    ensures Dispatch(req.verb, req.path).Some? && Dispatch(req.verb, req.path).value.op == DeleteUser
  {
  }

  lemma AdminOnly(op: Operation, role: Role)
    requires op in {CountOpportunities, UpdateStatus, ListUsers, CountUsersByRole, GetUser, DeleteUser}
    requires Permits(Permission(op), role)
    ensures role == Admin
  {
  }

  /** PATCH /opportunities/:id/status from an organizer or a player is
      refused with 403 and the store is untouched. */
  lemma StatusChangeAdminOnly(db: Db, tokens: map<string, Id>, req: Request, now: Timestamp, newId: Id, id: string)
    requires ValidQuery(PageQueryOf(req.content))
    requires req.verb == Patch && req.path == ["api", "opportunities", id, "status"] && id != ""
    requires Authenticate(req.authorization, tokens, db.users).Ok?
    requires Authenticate(req.authorization, tokens, db.users).value.role != Admin
    ensures Serve(db, tokens, req, now, newId) == Served(db, Fail(Forbidden))
  {
    StatusRoute(id);
    assert Permission(UpdateStatus) == [Admin];
    ForbiddenIffRoleMissing([Admin], req.authorization, tokens, db.users);
  }

  /** An organizer gets 403 on every player route, and nothing changes. */
  lemma OrganizerForbiddenOnPlayerRoutes(db: Db, tokens: map<string, Id>, req: Request, now: Timestamp, newId: Id)
    requires ValidQuery(PageQueryOf(req.content))
    requires Dispatch(req.verb, req.path).Some? && req.path[1] == "players"
    requires Authenticate(req.authorization, tokens, db.users).Ok?
    requires Authenticate(req.authorization, tokens, db.users).value.role == Organizer
    ensures Serve(db, tokens, req, now, newId) == Served(db, Fail(Forbidden))
  {
    OrganizerRefusedOnPlayerRoutes(req.verb, req.path);
  }

  /** A player gets 403 on both organizer routes. */
  lemma PlayerForbiddenOnOrganizerRoutes(db: Db, tokens: map<string, Id>, req: Request, now: Timestamp, newId: Id)
    requires ValidQuery(PageQueryOf(req.content))
    requires Dispatch(req.verb, req.path).Some? && req.path[1] == "organizers"
    requires Authenticate(req.authorization, tokens, db.users).Ok?
    requires Authenticate(req.authorization, tokens, db.users).value.role == Player
    ensures Serve(db, tokens, req, now, newId) == Served(db, Fail(Forbidden))
  {
    PlayerRefusedOnOrganizerRoutes(req.verb, req.path);
  }

  /** Organizers and players get 403 on every user route, delete included. */
  lemma NonAdminForbiddenOnUserRoutes(db: Db, tokens: map<string, Id>, req: Request, now: Timestamp, newId: Id)
    requires ValidQuery(PageQueryOf(req.content))
    requires Dispatch(req.verb, req.path).Some? && req.path[1] == "users"
    requires Authenticate(req.authorization, tokens, db.users).Ok?
    requires Authenticate(req.authorization, tokens, db.users).value.role != Admin
    ensures Serve(db, tokens, req, now, newId) == Served(db, Fail(Forbidden))
  {
    UserRoutesAdminOnly(req.verb, req.path);
  }

  /** Apart from creation, no handler looks at who is calling: the path ids
      are never compared with the caller, so a player may register or join
      in another player's name and an organizer may read another
      organizer's dashboard. */
  lemma HandlersIgnoreCaller(db: Db, c1: User, c2: User, op: Operation, params: seq<string>, req: Content, now: Timestamp, newId: Id)
    requires |params| == Arity(op) && ValidQuery(PageQueryOf(req))
    requires op != CreateOpportunity
    ensures Handle(db, c1, op, params, req, now, newId) == Handle(db, c2, op, params, req, now, newId)
  {
  }

  /** Two admitted requests that differ only in who sends them get the same
      answer and leave the same store, except for creation. */
  lemma SameAnswerForAnyAdmittedCaller(db: Db, tokens: map<string, Id>, req: Request, header: Option<string>, now: Timestamp, newId: Id)
    requires ValidQuery(PageQueryOf(req.content))
    requires Dispatch(req.verb, req.path).Some? && Dispatch(req.verb, req.path).value.op != CreateOpportunity
    requires Authorize(RoleList(Permission(Dispatch(req.verb, req.path).value.op)), req.authorization, tokens, db.users).Ok?
    requires Authorize(RoleList(Permission(Dispatch(req.verb, req.path).value.op)), header, tokens, db.users).Ok?
    ensures Serve(db, tokens, req, now, newId) == Serve(db, tokens, req.(authorization := header), now, newId)
  {
    var hit := Dispatch(req.verb, req.path).value;
    var c1 := Authorize(RoleList(Permission(hit.op)), req.authorization, tokens, db.users).value;
    var c2 := Authorize(RoleList(Permission(hit.op)), header, tokens, db.users).value;
    HandlersIgnoreCaller(db, c1, c2, hit.op, hit.params, req.content, now, newId);
  }
}

=== FILE: routes.dfy ===
/** The four routers: which handler a request line reaches, and which roles
    its `authorize` call admits. Routers are tried in declaration order and
    the first matching route wins, as Express does. */
module Routes {
  import opened Wrappers
  import opened Seqs
  import opened Domain
  import opened AuthGuard

  datatype Method = Get | Post | Patch | Delete

  /** One handler per route. */
  datatype Operation =
    | ListOpportunities | CountOpportunities | GetOpportunity | CreateOpportunity | UpdateStatus
    | OrganizerOpportunities | OrganizerStats
    | PlayerOpportunities | PlayerJoined | Register | Join | PlayerStats
    | ListUsers | CountUsersByRole | GetUser | DeleteUser

  /** A path segment of a route pattern: literal text or a `:param`. */
  datatype Segment = Lit(text: string) | Param

  /** A route: method, the pattern below its router's mount point, and its handler. */
  datatype Route = Route(verb: Method, pattern: seq<Segment>, op: Operation)

  /** The `/api/<mount>` prefix of the router that declares each handler. */
  function MountOf(op: Operation): string
  {
    match op
    case ListOpportunities | CountOpportunities | GetOpportunity | CreateOpportunity | UpdateStatus => "opportunities"
    case OrganizerOpportunities | OrganizerStats => "organizers"
    case PlayerOpportunities | PlayerJoined | Register | Join | PlayerStats => "players"
    case ListUsers | CountUsersByRole | GetUser | DeleteUser => "users"
  }

  /** The role list each route passes to `authorize`. */
  function Permission(op: Operation): (r: seq<Role>)
    ensures |r| >= 1
    ensures Admin in r <==> op !in {CreateOpportunity, Register, Join}
    ensures Organizer in r <==> op in {ListOpportunities, GetOpportunity, CreateOpportunity, OrganizerOpportunities, OrganizerStats}
    ensures Player in r <==> op in {ListOpportunities, GetOpportunity, PlayerOpportunities, PlayerJoined, Register, Join, PlayerStats}
  {
    match op
    case ListOpportunities => [Admin, Organizer, Player]
    case CountOpportunities => [Admin]
    case GetOpportunity => [Admin, Organizer, Player]
    case CreateOpportunity => [Organizer]
    case UpdateStatus => [Admin]
    case OrganizerOpportunities => [Admin, Organizer]
    case OrganizerStats => [Admin, Organizer]
    case PlayerOpportunities => [Admin, Player]
    case PlayerJoined => [Admin, Player]
    case Register => [Player]
    case Join => [Player]
    case PlayerStats => [Admin, Player]
    case ListUsers => [Admin]
    case CountUsersByRole => [Admin]
    case GetUser => [Admin]
    case DeleteUser => [Admin]
  }

  /** Every route, in the order the routers declare them. */
  const Table: seq<Route> := [
    Route(Get, [], ListUsers),
    Route(Get, [Lit("count-by-role")], CountUsersByRole),
    Route(Get, [Param], GetUser),
    Route(Delete, [Param], DeleteUser),
    Route(Get, [], ListOpportunities),
    Route(Get, [Lit("counts")], CountOpportunities),
    Route(Get, [Param], GetOpportunity),
    Route(Post, [], CreateOpportunity),
    Route(Patch, [Param, Lit("status")], UpdateStatus),
    Route(Get, [Param, Lit("opportunities")], OrganizerOpportunities),
    Route(Get, [Param, Lit("dashboard-stats")], OrganizerStats),
    Route(Get, [Param, Lit("opportunities")], PlayerOpportunities),
    Route(Get, [Param, Lit("joined-opportunities")], PlayerJoined),
    Route(Post, [Param, Lit("opportunities"), Param, Lit("register")], Register),
    Route(Post, [Param, Lit("opportunities"), Param, Lit("join")], Join),
    Route(Get, [Param, Lit("dashboard-stats")], PlayerStats)
  ]

  /** A parameter captures any non-empty segment. */
  predicate SegmentMatches(p: Segment, s: string)
  {
    match p
    case Lit(t) => s == t
    case Param => s != ""
  }

  predicate PatternMatches(pattern: seq<Segment>, segs: seq<string>)
    ensures PatternMatches(pattern, segs) ==> |pattern| == |segs|
  {
    if |pattern| == 0 then |segs| == 0
    else |segs| > 0 && SegmentMatches(pattern[0], segs[0]) && PatternMatches(pattern[1..], segs[1..])
  }

  function ParamCount(pattern: seq<Segment>): nat
  {
    if |pattern| == 0 then 0 else (if pattern[0].Param? then 1 else 0) + ParamCount(pattern[1..])
  }

  /** How many path parameters each handler reads. */
  function Arity(op: Operation): nat
  {
    match op
    case ListOpportunities | CountOpportunities | CreateOpportunity | ListUsers | CountUsersByRole => 0
    case Register | Join => 2
    case _ => 1
  }

  /** Each route declares as many parameters as its handler reads. */
  predicate AritiesAgree(routes: seq<Route>)
  {
    forall i :: 0 <= i < |routes| ==> ParamCount(routes[i].pattern) == Arity(routes[i].op)
  }

  /** The arity check, one router at a time. */
  lemma UserRoutesArity()
    ensures forall i :: 0 <= i < 4 ==> ParamCount(Table[i].pattern) == Arity(Table[i].op)
  {
  }

  lemma OpportunityRoutesArity()
    ensures forall i :: 4 <= i < 9 ==> ParamCount(Table[i].pattern) == Arity(Table[i].op)
  {
  }

  lemma OrganizerRoutesArity()
    ensures forall i :: 9 <= i < 11 ==> ParamCount(Table[i].pattern) == Arity(Table[i].op)
  {
  }

  lemma PlayerRoutesArity()
    ensures forall i :: 11 <= i < 16 ==> ParamCount(Table[i].pattern) == Arity(Table[i].op)
  {
  }

  lemma TableArity()
    ensures AritiesAgree(Table)
  {
    UserRoutesArity();
    OpportunityRoutesArity();
    OrganizerRoutesArity();
    PlayerRoutesArity();
  }

  /** The values of the parameters, left to right. */
  function Captures(pattern: seq<Segment>, segs: seq<string>): (r: seq<string>)
    requires |pattern| == |segs|
    ensures |r| == ParamCount(pattern)
    ensures forall i :: 0 <= i < |pattern| && pattern[i].Param? ==> segs[i] in r
  {
    if |pattern| == 0 then []
    else (if pattern[0].Param? then [segs[0]] else []) + Captures(pattern[1..], segs[1..])
  }

  /** A request path, split at `/`, is `api`, the mount, then the pattern. */
  predicate RouteMatches(r: Route, m: Method, path: seq<string>)
  {
    && r.verb == m
    && |path| >= 2 && path[0] == "api" && path[1] == MountOf(r.op)
    && PatternMatches(r.pattern, path[2..])
  }

  function MatchesRequest(m: Method, path: seq<string>): Route -> bool
  {
    (r: Route) => RouteMatches(r, m, path)
  }

  datatype Matched = Matched(op: Operation, params: seq<string>)

  /** Position of the first route that matches. */
  function DispatchIndex(m: Method, path: seq<string>): (r: Option<nat>)
    ensures r.Some? ==> r.value < |Table| && RouteMatches(Table[r.value], m, path)
    ensures r.Some? ==> forall j :: 0 <= j < r.value ==> !RouteMatches(Table[j], m, path)
    ensures r.None? ==> forall j :: 0 <= j < |Table| ==> !RouteMatches(Table[j], m, path)
  {
    var f := FirstIndex(Table, MatchesRequest(m, path));
    assert f.Some? ==> MatchesRequest(m, path)(Table[f.value]);
    f
  }

  /** The handler of the first route that matches, with the captured
      parameters; None is the framework's own 404. */
  function Dispatch(m: Method, path: seq<string>): (r: Option<Matched>)
    ensures r.None? <==> DispatchIndex(m, path).None?
    ensures r.Some? ==> |path| >= 2 && r.value.op == Table[DispatchIndex(m, path).value].op
    ensures r.Some? ==> |r.value.params| == Arity(r.value.op)
  {
    match DispatchIndex(m, path)
    case None => None
    case Some(i) =>
      TableArity();
      Some(Matched(Table[i].op, Captures(Table[i].pattern, path[2..])))
  }

  /** If route `i` matches and no earlier one does, it is the one dispatched. */
  lemma DispatchTo(m: Method, path: seq<string>, i: nat)
    requires i < |Table| && RouteMatches(Table[i], m, path)
    requires forall j :: 0 <= j < i ==> !RouteMatches(Table[j], m, path)
    ensures Dispatch(m, path) == Some(Matched(Table[i].op, Captures(Table[i].pattern, path[2..])))
  {
    forall j | 0 <= j < i ensures !MatchesRequest(m, path)(Table[j]) {
      assert !RouteMatches(Table[j], m, path);
    }
    FirstIndexAt(Table, MatchesRequest(m, path), i);
  }

  /** `GET /api/opportunities/counts` reaches the count handler, not `/:id`. */
  lemma CountsNotCapturedAsId()
    ensures Dispatch(Get, ["api", "opportunities", "counts"]) == Some(Matched(CountOpportunities, []))
  {
    DispatchTo(Get, ["api", "opportunities", "counts"], 5);
  }

  /** Any other segment below `/api/opportunities` is taken as an id. */
  lemma OpportunityIdRoute(id: string)
    requires id != "" && id != "counts"
    ensures Dispatch(Get, ["api", "opportunities", id]) == Some(Matched(GetOpportunity, [id]))
  {
    var path := ["api", "opportunities", id];
    assert path[2..] == [id];
    forall j | 0 <= j < 6 ensures !RouteMatches(Table[j], Get, path) {
      if j == 0 {} else if j == 1 {} else if j == 2 {} else if j == 3 {} else if j == 4 {} else {}
    }
    assert Captures(Table[6].pattern, path[2..]) == [id];
    DispatchTo(Get, path, 6);
  }

  /** `GET /api/users/count-by-role` reaches the histogram, not `/:id`. */
  lemma CountByRoleNotCapturedAsId()
    ensures Dispatch(Get, ["api", "users", "count-by-role"]) == Some(Matched(CountUsersByRole, []))
  {
    DispatchTo(Get, ["api", "users", "count-by-role"], 1);
  }

  /** Any other segment below `/api/users` is taken as a user id. */
  lemma UserIdRoute(id: string)
    requires id != "" && id != "count-by-role"
    ensures Dispatch(Get, ["api", "users", id]) == Some(Matched(GetUser, [id]))
  {
    var path := ["api", "users", id];
    assert path[2..] == [id];
    forall j | 0 <= j < 2 ensures !RouteMatches(Table[j], Get, path) {
      if j == 0 {} else {}
    }
    assert Captures(Table[2].pattern, path[2..]) == [id];
    DispatchTo(Get, path, 2);
  }

  /** `PATCH /api/opportunities/:id/status` reaches the status handler. */
  lemma StatusRoute(id: string)
    requires id != ""
    ensures Dispatch(Patch, ["api", "opportunities", id, "status"]) == Some(Matched(UpdateStatus, [id]))
  {
    var path := ["api", "opportunities", id, "status"];
    assert path[2..] == [id, "status"];
    forall j | 0 <= j < 8 ensures !RouteMatches(Table[j], Patch, path) {
      if j == 0 {} else if j == 1 {} else if j == 2 {} else if j == 3 {} else if j == 4 {} else if j == 5 {} else if j == 6 {} else {}
    }
    assert Captures(Table[8].pattern, path[2..]) == [id];
    DispatchTo(Patch, path, 8);
  }

  /** The role list that guards whatever a request line dispatches to. */
  function Guard(m: Method, path: seq<string>): (r: Option<seq<Role>>)
    ensures r.Some? <==> Dispatch(m, path).Some?
    ensures r.Some? ==> r.value == Permission(Dispatch(m, path).value.op)
  {
    match Dispatch(m, path)
    case None => None
    case Some(hit) => Some(Permission(hit.op))
  }

  /** A dispatched request reaches a handler of the router it is mounted under. */
  lemma DispatchMount(m: Method, path: seq<string>)
    requires Dispatch(m, path).Some?
    ensures MountOf(Dispatch(m, path).value.op) == path[1]
  {
  }

  /** An organizer is refused on every player route. */
  lemma OrganizerRefusedOnPlayerRoutes(m: Method, path: seq<string>)
    requires Dispatch(m, path).Some? && path[1] == "players"
    ensures !Permits(Guard(m, path).value, Organizer)
  {
    DispatchMount(m, path);
  }

  /** A player is refused on both organizer routes. */
  lemma PlayerRefusedOnOrganizerRoutes(m: Method, path: seq<string>)
    requires Dispatch(m, path).Some? && path[1] == "organizers"
    ensures !Permits(Guard(m, path).value, Player)
  {
    DispatchMount(m, path);
  }

  /** Every user route, delete included, admits the admin role alone. */
  lemma UserRoutesAdminOnly(m: Method, path: seq<string>)
    requires Dispatch(m, path).Some? && path[1] == "users"
    ensures Guard(m, path).value == [Admin]
    ensures forall r: Role :: Permits(Guard(m, path).value, r) <==> r == Admin
  {
    DispatchMount(m, path);
  }

  /** No route is left open to every authenticated user by an empty list. */
  lemma NoRouteIsUnguarded(op: Operation)
    ensures |Permission(op)| > 0
    ensures Permits(Permission(op), Admin) <==> op != CreateOpportunity && op != Register && op != Join
  {
  }
}

=== FILE: seqs.dfy ===
/** Sequence operations shared by the store model and the client pages:
    order-preserving filtering (a Mongo query or `Array.prototype.filter`),
    first-match lookup (`findOne` / `findById` / `Array.prototype.find`),
    and the descending sort-then-limit of the two dashboard "recent" queries. */
module Seqs {
  import opened Wrappers

  /** The elements of `s` that satisfy `p`, in their original order. */
  function Filter<T(==)>(s: seq<T>, p: T -> bool): (r: seq<T>)
    ensures |r| <= |s|
    ensures forall i :: 0 <= i < |r| ==> p(r[i]) && r[i] in s
    ensures forall i :: 0 <= i < |s| && p(s[i]) ==> s[i] in r
  {
    if |s| == 0 then []
    else if p(s[0]) then [s[0]] + Filter(s[1..], p)
    else Filter(s[1..], p)
  }

  /** The number of elements of `s` that satisfy `p` (Mongo `countDocuments`). */
  function Count<T(==)>(s: seq<T>, p: T -> bool): nat
  {
    |Filter(s, p)|
  }

  /** `r` can be obtained from `s` by deleting elements, keeping the order of the rest. */
  ghost predicate Subsequence<T>(r: seq<T>, s: seq<T>)
    decreases |s|
  {
    || |r| == 0
    || (&& |s| > 0
        && ((r[0] == s[0] && Subsequence(r[1..], s[1..])) || Subsequence(r, s[1..])))
  }

  lemma {:induction false} FilterIsSubsequence<T>(s: seq<T>, p: T -> bool)
    ensures Subsequence(Filter(s, p), s)
    decreases |s|
  {
    if |s| > 0 {
      FilterIsSubsequence(s[1..], p);
      if p(s[0]) {
        var r := Filter(s, p);
        assert r == [s[0]] + Filter(s[1..], p);
        assert r[1..] == Filter(s[1..], p);
      }
    }
  }

  lemma {:induction false} FilterAppend<T>(a: seq<T>, b: seq<T>, p: T -> bool)
    ensures Filter(a + b, p) == Filter(a, p) + Filter(b, p)
    decreases |a|
  {
    if |a| > 0 {
      assert (a + b)[1..] == a[1..] + b;
      FilterAppend(a[1..], b, p);
    } else {
      assert a + b == b;
    }
  }

  /** When every element satisfying `whole` satisfies exactly one of `p`,
      `q` and `t`, and nothing else satisfies them, their counts add up to the
      count of `whole`. */
  lemma {:induction false} CountPartition3<T>(s: seq<T>, whole: T -> bool, p: T -> bool, q: T -> bool, t: T -> bool)
    requires forall i :: 0 <= i < |s| ==> (whole(s[i]) <==> p(s[i]) || q(s[i]) || t(s[i]))
    requires forall i :: 0 <= i < |s| ==> !(p(s[i]) && q(s[i])) && !(p(s[i]) && t(s[i])) && !(q(s[i]) && t(s[i]))
    ensures Count(s, p) + Count(s, q) + Count(s, t) == Count(s, whole)
    decreases |s|
  {
    if |s| > 0 {
      CountPartition3(s[1..], whole, p, q, t);
    }
  }

  /** Two filters that never both hold and each imply `whole` count no more than `whole`. */
  lemma {:induction false} CountDisjointBound<T>(s: seq<T>, whole: T -> bool, p: T -> bool, q: T -> bool)
    requires forall i :: 0 <= i < |s| ==> (p(s[i]) ==> whole(s[i])) && (q(s[i]) ==> whole(s[i]))
    requires forall i :: 0 <= i < |s| ==> !(p(s[i]) && q(s[i]))
    ensures Count(s, p) + Count(s, q) <= Count(s, whole)
    decreases |s|
  {
    if |s| > 0 {
      CountDisjointBound(s[1..], whole, p, q);
    }
  }

  /** Some element is counted exactly when some element satisfies the predicate. */
  lemma CountPositive<T>(s: seq<T>, p: T -> bool)
    ensures Count(s, p) > 0 <==> exists i :: 0 <= i < |s| && p(s[i])
  {
    if Count(s, p) > 0 {
      var r := Filter(s, p);
      assert r[0] in s;
      var i :| 0 <= i < |s| && s[i] == r[0];
    }
  }

  /** Filtering with a predicate that holds everywhere keeps the whole sequence. */
  lemma {:induction false} FilterAll<T>(s: seq<T>, p: T -> bool)
    requires forall i :: 0 <= i < |s| ==> p(s[i])
    ensures Filter(s, p) == s
    decreases |s|
  {
    if |s| > 0 {
      FilterAll(s[1..], p);
      assert s == [s[0]] + s[1..];
    }
  }

  /** Index of the first element of `s` satisfying `p`. */
  function FirstIndex<T>(s: seq<T>, p: T -> bool): (r: Option<nat>)
    ensures r.Some? ==> r.value < |s| && p(s[r.value])
    ensures r.Some? ==> forall j :: 0 <= j < r.value ==> !p(s[j])
    ensures r.None? ==> forall j :: 0 <= j < |s| ==> !p(s[j])
  {
    if |s| == 0 then None
    else if p(s[0]) then Some(0)
    else match FirstIndex(s[1..], p)
      case None => None
      case Some(i) => Some(i + 1)
  }

  /** The first index is the one before which nothing satisfies the predicate. */
  lemma FirstIndexAt<T>(s: seq<T>, p: T -> bool, i: nat)
    requires i < |s| && p(s[i])
    requires forall j :: 0 <= j < i ==> !p(s[j])
    ensures FirstIndex(s, p) == Some(i)
  {
    var f := FirstIndex(s, p);
    assert f.Some?;
    assert !(f.value < i);
  }

  /** The first element of `s` satisfying `p`, if any. */
  function Find<T>(s: seq<T>, p: T -> bool): (r: Option<T>)
    ensures r.Some? <==> exists i :: 0 <= i < |s| && p(s[i])
    ensures r.Some? ==> r.value in s && p(r.value)
  {
    match FirstIndex(s, p)
    case None => None
    case Some(i) => Some(s[i])
  }

  /** `s` is ordered by `key`, largest first. */
  ghost predicate SortedDesc<T>(s: seq<T>, key: T -> int)
  {
    forall i, j :: 0 <= i < j < |s| ==> key(s[i]) >= key(s[j])
  }

  function InsertDesc<T(==)>(x: T, s: seq<T>, key: T -> int): (r: seq<T>)
    ensures multiset(r) == multiset(s) + multiset{x}
  {
    if |s| == 0 then [x]
    else if key(x) >= key(s[0]) then [x] + s
    else
      assert s == [s[0]] + s[1..];
      [s[0]] + InsertDesc(x, s[1..], key)
  }

  lemma {:induction false} InsertDescSorted<T>(x: T, s: seq<T>, key: T -> int)
    requires SortedDesc(s, key)
    ensures SortedDesc(InsertDesc(x, s, key), key)
    decreases |s|
  {
    if |s| > 0 && key(x) < key(s[0]) {
      var rest := InsertDesc(x, s[1..], key);
      InsertDescSorted(x, s[1..], key);
      assert s == [s[0]] + s[1..];
      forall i | 0 <= i < |rest| ensures key(s[0]) >= key(rest[i]) {
        assert rest[i] in multiset(rest);
        assert rest[i] == x || rest[i] in multiset(s[1..]);
      }
    }
  }

  /** `s` sorted by descending `key`; equal keys keep their input order. */
  function SortDesc<T(==)>(s: seq<T>, key: T -> int): (r: seq<T>)
    ensures multiset(r) == multiset(s)
    ensures SortedDesc(r, key)
  {
    if |s| == 0 then []
    else
      assert s == [s[0]] + s[1..];
      var rest := SortDesc(s[1..], key);
      InsertDescSorted(s[0], rest, key);
      InsertDesc(s[0], rest, key)
  }

  /** The first `k` elements of `s` once sorted by descending `key`
      (Mongo `.sort({key: -1}).limit(k)`). */
  function TopK<T(==)>(s: seq<T>, key: T -> int, k: nat): seq<T>
  {
    var sorted := SortDesc(s, key);
    sorted[..if k < |sorted| then k else |sorted|]
  }

  lemma MultisetSplit<T>(t: seq<T>, n: nat)
    requires n <= |t|
    ensures multiset(t) == multiset(t[..n]) + multiset(t[n..])
  {
    assert t == t[..n] + t[n..];
  }

  /** In a descending sequence nothing after position `n` ranks above anything before it. */
  lemma TailBelowHead<T>(sorted: seq<T>, key: T -> int, n: nat)
    requires SortedDesc(sorted, key) && n <= |sorted|
    ensures forall x, y :: x in multiset(sorted[n..]) && y in sorted[..n] ==> key(x) <= key(y)
  {
    forall x, y | x in multiset(sorted[n..]) && y in sorted[..n]
      ensures key(x) <= key(y)
    {
      var a :| 0 <= a < n && sorted[..n][a] == y;
      var b :| 0 <= b < |sorted| - n && sorted[n..][b] == x;
      assert sorted[a] == y && sorted[n + b] == x;
    }
  }

  /** TopK keeps at most `k` elements, all drawn from `s`, in descending
      order, and no element it leaves out ranks above one it keeps. */
  lemma TopKSpec<T>(s: seq<T>, key: T -> int, k: nat)
    ensures |TopK(s, key, k)| == if k < |s| then k else |s|
    ensures SortedDesc(TopK(s, key, k), key)
    ensures multiset(TopK(s, key, k)) <= multiset(s)
    ensures forall x, y :: x in multiset(s) - multiset(TopK(s, key, k)) && y in TopK(s, key, k) ==> key(x) <= key(y)
  {
    var sorted := SortDesc(s, key);
    assert |sorted| == |multiset(sorted)| == |multiset(s)| == |s|;
    var n := if k < |sorted| then k else |sorted|;
    assert TopK(s, key, k) == sorted[..n];
    MultisetSplit(sorted, n);
    assert multiset(s) - multiset(sorted[..n]) == multiset(sorted[n..]);
    TailBelowHead(sorted, key, n);
  }
}

=== FILE: text.dfy ===
/** String operations the source takes from JavaScript: `Array.prototype.join`
    and its inverse split, `String.prototype.trim` (applied by Mongoose to the
    opportunity title), `replace` with a string pattern (used to strip the
    bearer prefix), `includes`, `toLowerCase` and decimal rendering of numbers
    in template strings. */
module Text {
  import opened Wrappers

  /** `parts.join([sep])`. */
  function Join(parts: seq<string>, sep: char): string
  {
    if |parts| == 0 then ""
    else if |parts| == 1 then parts[0]
    else parts[0] + [sep] + Join(parts[1..], sep)
  }

  /** Index of the first occurrence of the character `c` in `s`. */
  function IndexOfChar(s: string, c: char): (r: Option<nat>)
    ensures r.Some? ==> r.value < |s| && s[r.value] == c && c !in s[..r.value]
    ensures r.None? <==> c !in s
  {
    if |s| == 0 then None
    else if s[0] == c then Some(0)
    else match IndexOfChar(s[1..], c)
      case None => None
      case Some(i) =>
        assert s[..i + 1] == [s[0]] + s[1..][..i];
        Some(i + 1)
  }

  /** `s.split(sep)` for a one-character separator: the pieces between separators. */
  function Split(s: string, sep: char): (r: seq<string>)
    ensures |r| >= 1
    decreases |s|
  {
    match IndexOfChar(s, sep)
    case None => [s]
    case Some(i) => [s[..i]] + Split(s[i + 1..], sep)
  }

  /** Splitting a join recovers the parts when no part contains the separator. */
  lemma {:induction false} SplitJoin(parts: seq<string>, sep: char)
    requires |parts| >= 1
    requires forall i :: 0 <= i < |parts| ==> sep !in parts[i]
    ensures Split(Join(parts, sep), sep) == parts
    decreases |parts|
  {
    if |parts| > 1 {
      SplitAfter(parts[0], sep, Join(parts[1..], sep));
      SplitJoin(parts[1..], sep);
      assert parts == [parts[0]] + parts[1..];
    }
  }

  /** A piece free of the separator, then the separator, splits off as the first part. */
  lemma SplitAfter(a: string, sep: char, b: string)
    requires sep !in a
    ensures Split(a + [sep] + b, sep) == [a] + Split(b, sep)
  {
    var s := a + [sep] + b;
    IndexOfCharAfterPrefix(a, sep, b);
    assert s[..|a|] == a;
    assert s[|a| + 1..] == b;
  }

  /** A join contains a character other than the separator only if some part does. */
  lemma {:induction false} JoinAvoids(parts: seq<string>, sep: char, c: char)
    requires c != sep
    requires forall i :: 0 <= i < |parts| ==> c !in parts[i]
    ensures c !in Join(parts, sep)
    decreases |parts|
  {
    if |parts| > 1 {
      JoinAvoids(parts[1..], sep, c);
    }
  }

  lemma IndexOfCharAfterPrefix(a: string, c: char, b: string)
    requires c !in a
    ensures IndexOfChar(a + [c] + b, c) == Some(|a|)
  {
    var s := a + [c] + b;
    assert s[|a|] == c;
    assert s[..|a|] == a;
  }

  /** JavaScript white space and line terminators, as removed by `String.prototype.trim`. */
  predicate IsSpace(c: char)
  {
    || c == ' ' || c == '\t' || c == '\n' || c == '\r' || c == '\U{000B}' || c == '\U{000C}'
    || c == '\U{00A0}' || c == '\U{1680}' || ('\U{2000}' <= c <= '\U{200A}')
    || c == '\U{2028}' || c == '\U{2029}' || c == '\U{202F}' || c == '\U{205F}' || c == '\U{3000}'
    || c == '\U{FEFF}'
  }

  /** The length of the run of white space that starts `s`. */
  function LeadingSpaces(s: string): (n: nat)
    ensures n <= |s|
    ensures n < |s| ==> !IsSpace(s[n])
    ensures forall i :: 0 <= i < n ==> IsSpace(s[i])
  {
    if |s| > 0 && IsSpace(s[0]) then 1 + LeadingSpaces(s[1..]) else 0
  }

  /** The length of the run of white space that ends `s`. */
  function TrailingSpaces(s: string): (n: nat)
    ensures n <= |s|
    ensures n < |s| ==> !IsSpace(s[|s| - n - 1])
    ensures forall i :: |s| - n <= i < |s| ==> IsSpace(s[i])
  {
    if |s| > 0 && IsSpace(s[|s| - 1]) then 1 + TrailingSpaces(s[..|s| - 1]) else 0
  }

  function TrimStart(s: string): (r: string)
    ensures |r| <= |s| && r == s[|s| - |r|..]
    ensures |r| > 0 ==> !IsSpace(r[0])
    ensures forall i :: 0 <= i < |s| - |r| ==> IsSpace(s[i])
  {
    s[LeadingSpaces(s)..]
  }

  function TrimEnd(s: string): (r: string)
    ensures |r| <= |s| && r == s[..|r|]
    ensures |r| > 0 ==> !IsSpace(r[|r| - 1])
    ensures forall i :: |r| <= i < |s| ==> IsSpace(s[i])
  {
    s[..|s| - TrailingSpaces(s)]
  }

  /** `s.trim()`. */
  function Trim(s: string): (r: string)
    ensures |r| <= |s|
    ensures |r| > 0 ==> !IsSpace(r[0]) && !IsSpace(r[|r| - 1])
  {
    TrimEnd(TrimStart(s))
  }

  /** Trim removes exactly the leading and trailing white space: the result
      is the piece of the input between two runs of white space. */
  lemma TrimPiece(s: string)
    ensures var a := |s| - |TrimStart(s)|;
      && a + |Trim(s)| <= |s|
      && Trim(s) == s[a..a + |Trim(s)|]
      && (forall i :: 0 <= i < a ==> IsSpace(s[i]))
      && (forall i :: a + |Trim(s)| <= i < |s| ==> IsSpace(s[i]))
  {
    var t := TrimStart(s);
    var r := TrimEnd(t);
    var a := |s| - |t|;
    assert Trim(s) == r;
    assert t == s[a..] && r == t[..|r|];
    SliceOfSlice(s, a, |r|);
    TrimEndLifts(s, a, r);
  }

  lemma SliceOfSlice<T>(s: seq<T>, a: nat, n: nat)
    requires a + n <= |s|
    ensures s[a..][..n] == s[a..a + n]
  {
  }

  /** The white space TrimEnd drops from a suffix of `s` is white space of `s` itself. */
  lemma TrimEndLifts(s: string, a: nat, r: string)
    requires a <= |s| && r == TrimEnd(s[a..])
    ensures forall i :: a + |r| <= i < |s| ==> IsSpace(s[i])
  {
    var t := s[a..];
    forall i | a + |r| <= i < |s| ensures IsSpace(s[i]) {
      assert s[i] == t[i - a];
    }
  }

  /** A trimmed string starts and ends with a non-space, so trimming again changes nothing. */
  lemma TrimIdempotent(s: string)
    ensures |Trim(s)| > 0 ==> !IsSpace(Trim(s)[0]) && !IsSpace(Trim(s)[|Trim(s)| - 1])
    ensures Trim(Trim(s)) == Trim(s)
  {
    var t := TrimStart(s);
    var r := TrimEnd(t);
    if |r| > 0 {
      assert r[0] == t[0];
      assert TrimStart(r) == r;
      assert TrimEnd(r) == r;
    }
  }

  /** Trim yields the empty string exactly for all-white-space input. */
  lemma TrimEmpty(s: string)
    ensures (forall i :: 0 <= i < |s| ==> IsSpace(s[i])) <==> Trim(s) == ""
  {
    TrimPiece(s);
    TrimIdempotent(s);
  }

  /** `s` contains `t` as a contiguous piece starting at `i`. */
  ghost predicate OccursAt(s: string, t: string, i: int)
  {
    0 <= i && i + |t| <= |s| && s[i..i + |t|] == t
  }

  /** Index of the first occurrence of `t` in `s` (`s.indexOf(t)` when found). */
  function IndexOf(s: string, t: string): (r: Option<nat>)
    ensures r.Some? ==> OccursAt(s, t, r.value)
    ensures r.Some? ==> forall j :: 0 <= j < r.value ==> !OccursAt(s, t, j)
    ensures r.None? ==> forall j :: 0 <= j <= |s| ==> !OccursAt(s, t, j)
  {
    if |t| <= |s| && s[..|t|] == t then Some(0)
    else if |s| == 0 then None
    else match IndexOf(s[1..], t)
      case None =>
        assert forall j :: 1 <= j <= |s| ==> (OccursAt(s, t, j) ==> OccursAt(s[1..], t, j - 1));
        None
      case Some(i) =>
        assert OccursAt(s[1..], t, i);
        assert s[i + 1..i + 1 + |t|] == s[1..][i..i + |t|];
        assert forall j :: 1 <= j < i + 1 ==> (OccursAt(s, t, j) ==> OccursAt(s[1..], t, j - 1));
        Some(i + 1)
  }

  /** `s.includes(t)`. */
  function Contains(s: string, t: string): (r: bool)
    ensures r <==> exists i :: OccursAt(s, t, i)
  {
    if IndexOf(s, t).Some? then true
    else
      assert forall i :: OccursAt(s, t, i) ==> 0 <= i <= |s|;
      false
  }

  /** `s.replace(pattern, replacement)` with a string pattern: only the first occurrence is replaced. */
  function ReplaceFirst(s: string, pattern: string, replacement: string): (r: string)
    ensures IndexOf(s, pattern).None? ==> r == s
    ensures IndexOf(s, pattern).Some? ==>
      var i := IndexOf(s, pattern).value;
      && s == s[..i] + pattern + s[i + |pattern|..]
      && r == s[..i] + replacement + s[i + |pattern|..]
      && |r| == |s| - |pattern| + |replacement|
      && (forall j :: 0 <= j < i ==> !OccursAt(s, pattern, j))
  {
    match IndexOf(s, pattern)
    case None => s
    case Some(i) => s[..i] + replacement + s[i + |pattern|..]
  }

  /** Stripping a pattern from the front of `pattern + rest` leaves `rest`:
      the occurrence at the front is the first one, so it is the one removed. */
  lemma ReplaceFirstPrefix(pattern: string, rest: string)
    ensures ReplaceFirst(pattern + rest, pattern, "") == rest
  {
    var s := pattern + rest;
    assert s[..|pattern|] == pattern;
    assert s[|pattern|..] == rest;
  }

  /** ASCII case folding; `toLowerCase` agrees with it on ASCII text. */
  function LowerChar(c: char): (r: char)
    ensures 'A' <= c <= 'Z' ==> 'a' <= r <= 'z'
    ensures !('A' <= c <= 'Z') ==> r == c
  {
    if 'A' <= c <= 'Z' then (c as int + 32) as char else c
  }

  function ToLower(s: string): (r: string)
    ensures |r| == |s|
    ensures forall i :: 0 <= i < |s| ==> r[i] == LowerChar(s[i])
  {
    if |s| == 0 then "" else [LowerChar(s[0])] + ToLower(s[1..])
  }

  function DigitChar(d: nat): char
    requires d < 10
  {
    ('0' as int + d) as char
  }

  /** Decimal rendering of a natural number, as a template string prints it. */
  function NatToString(n: nat): (r: string)
    ensures |r| >= 1
    ensures forall i :: 0 <= i < |r| ==> '0' <= r[i] <= '9'
  {
    if n < 10 then [DigitChar(n)] else NatToString(n / 10) + [DigitChar(n % 10)]
  }

  /** Value of a string of decimal digits. */
  function DigitsValue(s: string): nat
    requires forall i :: 0 <= i < |s| ==> '0' <= s[i] <= '9'
  {
    if |s| == 0 then 0 else DigitsValue(s[..|s| - 1]) * 10 + (s[|s| - 1] as int - '0' as int)
  }

  /** Reading the rendered digits back gives the number: distinct numbers render differently. */
  lemma {:induction false} NatToStringValue(n: nat)
    ensures DigitsValue(NatToString(n)) == n
  {
    if n >= 10 {
      NatToStringValue(n / 10);
      var r := NatToString(n);
      assert r[..|r| - 1] == NatToString(n / 10);
    }
  }
}

=== FILE: user_controller.dfy ===
/** The user directory: the list and lookup skip soft-deleted users and
    never return the password; soft delete marks a user without a guard
    against repeats; the role histogram counts every user, deleted or not. */
module UserController {
  import opened Wrappers
  import opened Seqs
  import opened Pagination
  import opened Domain

  /** A list entry: every stored field except the password. */
  datatype UserView = UserView(
    id: Id,
    name: string,
    email: string,
    role: Role,
    status: UserStatus,
    isDeleted: bool,
    deletedAt: Option<Timestamp>,
    createdAt: Timestamp)

  /** The body of GET /users/:id, which leaves out `deletedAt` as well. */
  datatype UserDetail = UserDetail(
    id: Id,
    name: string,
    email: string,
    role: Role,
    status: UserStatus,
    isDeleted: bool,
    createdAt: Timestamp)

  function ToView(u: User): UserView
  {
    UserView(u.id, u.name, u.email, u.role, u.status, u.isDeleted, u.deletedAt, u.createdAt)
  }

  /** `{ isDeleted: false }` plus the optional `role` query filter; absent or
      empty means any role, an unknown role matches nobody. */
  function Listed(role: Option<string>): User -> bool
  {
    (u: User) => !u.isDeleted && (role.None? || role.value == "" || RoleName(u.role) == role.value)
  }

  /** GET /users, in store order. */
  function GetUsers(db: Db, role: Option<string>, q: PageQuery): (r: Paginated<UserView>)
    requires ValidQuery(q)
    ensures r.meta == Meta(Count(db.users, Listed(role)), PageNumber(q), PageLimit(q))
    ensures |r.data| <= PageLimit(q)
    ensures |r.data| == |PageOf(Filter(db.users, Listed(role)), PageNumber(q), PageLimit(q))|
    ensures forall k :: 0 <= k < |r.data| ==> r.data[k] == ToView(PageOf(Filter(db.users, Listed(role)), PageNumber(q), PageLimit(q))[k])
    ensures forall k :: 0 <= k < |r.data| ==> !r.data[k].isDeleted
    ensures role.Some? && role.value != "" ==> forall k :: 0 <= k < |r.data| ==> RoleName(r.data[k].role) == role.value
    ensures forall k :: 0 <= k < |r.data| ==>
      var i := Skip(PageNumber(q), PageLimit(q)) + k;
      var s := Filter(db.users, Listed(role));
      i < |s| && r.data[k] == ToView(s[i]) && s[i] in db.users
  {
    var s := Filter(db.users, Listed(role));
    var page := PageOf(s, PageNumber(q), PageLimit(q));
    Paginated(seq(|page|, k requires 0 <= k < |page| => ToView(page[k])), Meta(|s|, PageNumber(q), PageLimit(q)))
  }

  const UserNotFound := HttpError(404, "User not found")

  /** GET /users/:id: a missing or soft-deleted user is not found. */
  function GetUserById(db: Db, id: Id): (r: Result<UserDetail, HttpError>)
    ensures r.Err? <==> LiveUserById(db.users, id).None?
    ensures r.Err? ==> r.error == UserNotFound
    ensures r.Ok? ==> r.value.id == id && !r.value.isDeleted
    ensures r.Ok? ==> exists u :: u in db.users && u.id == id && !u.isDeleted && r.value.name == u.name && r.value.role == u.role
    ensures r.Ok? ==>
      var u := LiveUserById(db.users, id).value;
      r.value == UserDetail(u.id, u.name, u.email, u.role, u.status, u.isDeleted, u.createdAt)
  {
    match LiveUserById(db.users, id)
    case None => Err(UserNotFound)
    case Some(u) => Ok(UserDetail(u.id, u.name, u.email, u.role, u.status, u.isDeleted, u.createdAt))
  }

  /** DELETE /users/:id: marks the user found by id, deleted or not. */
  function DeleteUser(db: Db, id: Id, now: Timestamp): (r: Reply<string>)
    ensures r.body.Ok? <==> UserIndex(db.users, id).Some?
    ensures r.body.Err? ==> r.db == db && r.body.error == UserNotFound
    ensures r.body.Ok? ==>
      var i := UserIndex(db.users, id).value;
      && r.db.opportunities == db.opportunities
      && |r.db.users| == |db.users|
      && r.db.users[i] == db.users[i].(isDeleted := true, deletedAt := Some(now))
      && (forall j :: 0 <= j < |db.users| && j != i ==> r.db.users[j] == db.users[j])
  {
    match UserIndex(db.users, id)
    case None => Reply(db, Err(UserNotFound))
    case Some(i) =>
      var u := db.users[i].(isDeleted := true, deletedAt := Some(now));
      Reply(db.(users := db.users[i := u]), Ok("User deleted successfully"))
  }

  function HasRole(role: Role): User -> bool
  {
    (u: User) => u.role == role
  }

  /** GET /users/count-by-role: one group per role that occurs, over every
      user, deleted ones included. */
  function CountByRole(db: Db): (m: map<Role, nat>)
    ensures forall r :: r in m <==> exists i :: 0 <= i < |db.users| && db.users[i].role == r
    ensures forall r :: r in m ==> m[r] == Count(db.users, HasRole(r)) && m[r] > 0
  {
    CountPositive(db.users, HasRole(Admin));
    CountPositive(db.users, HasRole(Organizer));
    CountPositive(db.users, HasRole(Player));
    Groups(Count(db.users, HasRole(Admin)), Count(db.users, HasRole(Organizer)), Count(db.users, HasRole(Player)))
  }

  /** The `$group` result for the three role tallies: empty groups do not appear. */
  function Groups(a: nat, o: nat, p: nat): (m: map<Role, nat>)
    ensures Admin in m <==> a > 0
    ensures Organizer in m <==> o > 0
    ensures Player in m <==> p > 0
    ensures Admin in m ==> m[Admin] == a
    ensures Organizer in m ==> m[Organizer] == o
    ensures Player in m ==> m[Player] == p
  {
    var m1: map<Role, nat> := if a > 0 then map[Admin := a] else map[];
    var m2 := if o > 0 then m1[Organizer := o] else m1;
    if p > 0 then m2[Player := p] else m2
  }

  function GroupSize(m: map<Role, nat>, r: Role): nat
  {
    if r in m then m[r] else 0
  }

  /** Every user falls in exactly one group: the group sizes add up to the number of users. */
  lemma CountByRoleCoversAll(db: Db)
    ensures var m := CountByRole(db);
      GroupSize(m, Admin) + GroupSize(m, Organizer) + GroupSize(m, Player) == |db.users|
  {
    var m := CountByRole(db);
    CountPositive(db.users, HasRole(Admin));
    CountPositive(db.users, HasRole(Organizer));
    CountPositive(db.users, HasRole(Player));
    FilterAll(db.users, (u: User) => true);
    CountPartition3(db.users, (u: User) => true, HasRole(Admin), HasRole(Organizer), HasRole(Player));
  }

  /** No two users share an id, as the store guarantees. */
  ghost predicate UniqueUserIds(users: seq<User>)
  {
    forall i, j :: 0 <= i < j < |users| ==> users[i].id != users[j].id
  }

  /** After a successful soft delete no user with that id is live. */
  lemma DeleteHidesFromLookup(db: Db, id: Id, now: Timestamp)
    requires UniqueUserIds(db.users)
    requires UserIndex(db.users, id).Some?
    ensures GetUserById(DeleteUser(db, id, now).db, id) == Err(UserNotFound)
  {
    var db' := DeleteUser(db, id, now).db;
    var i := UserIndex(db.users, id).value;
    forall j | 0 <= j < |db'.users| ensures !(db'.users[j].id == id && !db'.users[j].isDeleted) {
      if j != i {
        assert db'.users[j] == db.users[j];
      }
    }
  }

  /** After a successful soft delete the user appears on no page of the list. */
  lemma DeleteHidesFromList(db: Db, id: Id, now: Timestamp, role: Option<string>, q: PageQuery)
    requires UniqueUserIds(db.users)
    requires ValidQuery(q)
    requires UserIndex(db.users, id).Some?
    ensures var page := GetUsers(DeleteUser(db, id, now).db, role, q).data;
      forall k :: 0 <= k < |page| ==> page[k].id != id
  {
    var db' := DeleteUser(db, id, now).db;
    DeleteHidesFromLookup(db, id, now);
    var s := Filter(db'.users, Listed(role));
    forall k | 0 <= k < |s| ensures s[k].id != id {
      var j :| 0 <= j < |db'.users| && db'.users[j] == s[k];
      assert Listed(role)(s[k]);
    }
  }

  /** Soft delete does not change the role histogram. */
  lemma DeleteKeepsRoleCounts(db: Db, id: Id, now: Timestamp)
    ensures CountByRole(DeleteUser(db, id, now).db) == CountByRole(db)
  {
    var db' := DeleteUser(db, id, now).db;
    assert forall j :: 0 <= j < |db'.users| ==> db'.users[j].role == db.users[j].role;
    SameRolesSameCounts(db.users, db'.users, Admin);
    SameRolesSameCounts(db.users, db'.users, Organizer);
    SameRolesSameCounts(db.users, db'.users, Player);
  }

  lemma {:induction false} SameRolesSameCounts(a: seq<User>, b: seq<User>, r: Role)
    requires |a| == |b|
    requires forall j :: 0 <= j < |a| ==> a[j].role == b[j].role
    ensures Count(a, HasRole(r)) == Count(b, HasRole(r))
    decreases |a|
  {
    if |a| > 0 {
      SameRolesSameCounts(a[1..], b[1..], r);
    }
  }

  /** Soft delete is not guarded against repeats: deleting an already
      deleted user succeeds again and moves `deletedAt` to the new time. */
  lemma DeleteTwice(db: Db, id: Id, t1: Timestamp, t2: Timestamp)
    requires UserIndex(db.users, id).Some?
    ensures var first := DeleteUser(db, id, t1);
      var second := DeleteUser(first.db, id, t2);
      var i := UserIndex(db.users, id).value;
      && first.body.Ok? && second.body.Ok?
      && second.db.users[i].isDeleted
      && second.db.users[i].deletedAt == Some(t2)
  {
    var first := DeleteUser(db, id, t1);
    var i := UserIndex(db.users, id).value;
    assert forall j :: 0 <= j < |db.users| ==> first.db.users[j].id == db.users[j].id;
    assert UserIndex(first.db.users, id) == Some(i);
  }

  /** Soft delete keeps the deleted-iff-dated invariant of every user. */
  lemma DeletePreservesConsistency(db: Db, id: Id, now: Timestamp)
    requires forall j :: 0 <= j < |db.users| ==> DeletionConsistent(db.users[j])
    ensures var db' := DeleteUser(db, id, now).db;
      forall j :: 0 <= j < |db'.users| ==> DeletionConsistent(db'.users[j])
  {
  }
}

=== FILE: views.dfy ===
/** The response shape of an opportunity: the stored fields plus an
    `organizer` snapshot built from the populated organizer document. */
module Views {
  import opened Wrappers
  import opened Pagination
  import opened Domain

  /** The embedded organizer: id, name, email and role come from the user
      document; status, isDeleted and createdAt are filled in by the handler. */
  datatype OrganizerSnapshot = OrganizerSnapshot(
    id: Id,
    name: string,
    email: string,
    role: Role,
    status: UserStatus,
    isDeleted: bool,
    createdAt: Timestamp)

  datatype OpportunityView = OpportunityView(
    id: Id,
    title: string,
    description: string,
    location: Option<string>,
    eventDate: Option<Timestamp>,
    capacity: Option<int>,
    organizerId: Id,
    organizer: OrganizerSnapshot,
    status: Status,
    createdAt: Timestamp,
    updatedAt: Timestamp)

  /** The snapshot the list and get handlers build: always 'active', never
      deleted, and stamped with the creation time of the opportunity. */
  function Snapshot(u: User, o: Opportunity): (r: OrganizerSnapshot)
    ensures r.id == u.id && r.name == u.name && r.email == u.email && r.role == u.role
    ensures r.status == Active && !r.isDeleted && r.createdAt == o.createdAt
  {
    OrganizerSnapshot(u.id, u.name, u.email, u.role, Active, false, o.createdAt)
  }

  /** `populate('organizerId', ...)` followed by the response mapping. The
      organizer is looked up by id whether deleted or not; when it is missing,
      `opp.organizerId._id` throws, which is `None` here. */
  function Project(users: seq<User>, o: Opportunity): (r: Option<OpportunityView>)
    ensures r.Some? <==> UserById(users, o.organizerId).Some?
    ensures r.Some? ==>
      && r.value.id == o.id && r.value.title == o.title && r.value.description == o.description
      && r.value.location == o.location && r.value.eventDate == o.eventDate
      && r.value.capacity == o.capacity && r.value.status == o.status
      && r.value.createdAt == o.createdAt && r.value.updatedAt == o.updatedAt
      && r.value.organizerId == o.organizerId && r.value.organizer.id == o.organizerId
      && r.value.organizer.status == Active && !r.value.organizer.isDeleted
      && r.value.organizer.createdAt == o.createdAt
    ensures r.Some? ==> r.value.organizer == Snapshot(UserById(users, o.organizerId).value, o)
  {
    match UserById(users, o.organizerId)
    case None => None
    case Some(u) =>
      Some(OpportunityView(o.id, o.title, o.description, o.location, o.eventDate, o.capacity,
                           u.id, Snapshot(u, o), o.status, o.createdAt, o.updatedAt))
  }

  /** Projects a page of opportunities; one missing organizer fails the whole reply with 500. */
  function ProjectAll(users: seq<User>, s: seq<Opportunity>): (r: Result<seq<OpportunityView>, HttpError>)
    ensures r.Ok? <==> forall i :: 0 <= i < |s| ==> UserById(users, s[i].organizerId).Some?
    ensures r.Ok? ==> |r.value| == |s|
    ensures r.Ok? ==> forall i :: 0 <= i < |s| ==> Project(users, s[i]) == Some(r.value[i])
    ensures r.Err? ==> r.error == ServerError
  {
    if |s| == 0 then Ok([])
    else match Project(users, s[0])
      case None => Err(ServerError)
      case Some(v) =>
        match ProjectAll(users, s[1..])
        case Err(e) => Err(e)
        case Ok(rest) =>
          assert forall i :: 1 <= i < |s| ==> s[i] == s[1..][i - 1];
          Ok([v] + rest)
  }

  /** Projecting a page of a list is taking that page of the projected list. */
  lemma ProjectAllPage(users: seq<User>, s: seq<Opportunity>, page: nat, limit: nat)
    requires page >= 1 && limit >= 1
    requires ProjectAll(users, s).Ok?
    ensures ProjectAll(users, PageOf(s, page, limit)) == Ok(PageOf(ProjectAll(users, s).value, page, limit))
  {
    var all := ProjectAll(users, s).value;
    var p := PageOf(s, page, limit);
    var start := Skip(page, limit);
    forall k | 0 <= k < |p| ensures UserById(users, p[k].organizerId).Some? && Project(users, p[k]) == Some(all[start + k]) {
      assert p[k] == s[start + k];
    }
    var r := ProjectAll(users, p);
    var want := PageOf(all, page, limit);
    assert |r.value| == |p| == |want|;
    forall k | 0 <= k < |want| ensures r.value[k] == want[k] {
      assert Project(users, p[k]) == Some(r.value[k]);
    }
    assert r.value == want;
  }
}

=== FILE: wrappers.dfy ===
/** Failure-compatible wrappers used throughout the model: an optional value
    (JavaScript `undefined`/`null` versus a value) and a success-or-error result
    (a handler's JSON body versus an HTTP error status). */
module Wrappers {

  datatype Option<+T> = None | Some(value: T) {

    /** The value, or `default` when absent (JavaScript `x || default` for a value that is never falsy). */
    function GetOr(default: T): T {
      match this
      case Some(v) => v
      case None => default
    }
  }

  datatype Result<+R, +E> = Ok(value: R) | Err(error: E) {

    predicate IsFailure() {
      Err?
    }

    function PropagateFailure<U>(): Result<U, E>
      requires Err?
    {
      Err(error)
    }

    function Extract(): R
      requires Ok?
    {
      value
    }
  }
}
